=== FILE: README.md ===
# Meta MCP server: code generation and decision rules

This project models the core of a "meta" MCP server. An agent uses the
server to define other MCP servers and deploy them as Cloudflare Workers:
it declares a server, adds tools, resources and prompts, configures the
worker, reads back the generated code, and deploys it. A second entrypoint,
`createServer`, creates and deploys a server in one call.

The model covers the source that the server generates and the rules it
decides by:

- **Names.** `Names` covers the server-name check, `toPascalCase`, the slug
  `name.toLowerCase().replace(/[^a-z0-9-]/g, '-')`, and the class-name
  stripper of the RPC generator.
- **Parameter schema.** `Schema` covers the translation of a tool's
  parameter descriptors into Zod expressions. `Json` covers the subset of
  `JSON.stringify` that the generators use, in compact form and with an
  indentation gap.
- **Code generation.**
  - `Fragments` covers the code fragments that `add_mcp_tool`,
    `add_mcp_resource` and `add_mcp_prompt` send to the container, and the
    fragments that `generateIndexTs` writes.
  - `Composer` covers the generated `src/index.ts`.
  - `Descriptors` covers `wrangler.jsonc` and `package.json` as JSON values
    and as printed text.
  - `RpcCodegen` covers the three files of `generateMCPServerCode`.
- **Definition updates.**
  - `Keyed` covers the `findIndex` replace-or-push that every add operation
    performs.
  - `Operations` covers:
    - the three add operations and `configure_wrangler`
    - the file selection and fenced listing of `get_mcp_server_code`
    - the stale filter of `cleanup_old_servers`
    - the totals of `updateServerStats`
- **Lifecycle.** `Lifecycle` models each of these as the sequence of record
  states it saves: `init_mcp_server`, `wrangler_deploy`, and the RPC
  entrypoint's `createServer`, `connectToServer` and `stopServer`.
- **File tools.** `PathGuards` covers the path checks of the container file
  tools.

The model is written in the system's own terms.

- Strings are sequences of characters, and generated source is plain string
  concatenation. A template literal `` `a${x}b${y}c` `` is
  `Fill(["a", "b", "c"], [x, y])`. No value is ever escaped, matching the
  code.
- The server table is a map from server id to definition.
- The container manager, the build, the publisher, the MCP client and the
  clock are inputs. Each is given as the answer it returns.

Where the code departs from the design it documents, the model follows the
code:

- `createServer` sets `building` before it provisions the environment, not
  after.
- `stopServer` stops a server from any status, not only from `active`.
- A failed `wrangler_deploy` keeps the old `updatedAt`.
- Names, descriptions and URIs are spliced into generated source without
  escaping.
- The `index.ts` fragments differ from the fragments sent to the container
  by the add operations:
  - a resource implementation is a statement block in one and an expression
    in the other
  - prompt arguments are written out in a different format
- The RPC generator's `package.json` and `wrangler.jsonc` are fixed text
  with the slug spliced in. They are not `JSON.stringify` output.
- The read tool does not refuse `/sys`.
- The `/` entry of the delete tool's protected list protects only `/`
  itself and paths that begin with `//`.

## Model

| member | source | states |
|---|---|---|
| `Names.PascalCase` | src/index.ts:2663-2668 | The class name has no hyphen, and it is exactly as long as the name minus its hyphens. |
| `Names.PascalCaseIsScan` | src/index.ts:2663-2668 | Splitting on `-`, capitalising every segment and joining gives the same result as one left-to-right scan that upper-cases the character after each hyphen. |
| `Names.ScanWithinSegment` | src/index.ts:2666 | Inside one segment, every character except the first is copied unchanged. |
| `Names.ScanAcrossHyphen` | src/index.ts:2665-2667 | A hyphen is dropped, and the segment after it starts with an upper-cased character. |
| `Names.PascalScanDropsHyphens` | src/index.ts:2665-2667 | The scan removes every hyphen and nothing else. |
| `Names.SlugChar` | src/rpc.ts:33 | Each character of the slug is in `[a-z0-9-]`. A character is kept exactly when it is already in `[a-z0-9-]`. An ASCII capital is lower-cased, and any other character becomes `-`. |
| `Names.Slug` | src/rpc.ts:33 | The slug has the name's length and only `[a-z0-9-]` characters. It keeps the allowed characters, lower-cases ASCII capitals, and puts `-` in place of every other character. |
| `Names.WorkerSlug` | src/rpc.ts:33 | The worker name is `mcp-` followed by the slug character of each character of the name, in order. |
| `Names.WorkerSlugIsSlug` | src/rpc.ts:33 | Behind the `mcp-` prefix, the worker name is exactly the slug of the name. |
| `Names.SlugFixedPoint` | src/rpc.ts:33 | The slug leaves a name unchanged exactly when the name already matches `[a-z0-9-]*`. |
| `Names.SlugIdempotent` | src/rpc.ts:33 | Applying the slug twice gives the same result as applying it once. |
| `Names.ValidNameWorkerSlug` | src/index.ts:254-255 | A name that passes the `init_mcp_server` check deploys under `mcp-<name>` exactly. |
| `Names.StripNonAlnum` | src/rpc.ts:338 | What remains is no longer than the name and contains only `[a-zA-Z0-9]`. |
| `Names.StripKeepsAlnum` | src/rpc.ts:338 | Every letter and digit occurs in the result as often as in the name. No other character occurs. |
| `Names.StripOne` | src/rpc.ts:338 | A single character is kept exactly when it is in `[a-zA-Z0-9]`, and is otherwise removed. Together with `StripConcat`, this fixes the result for every name. |
| `Names.StripConcat` | src/rpc.ts:338 | The stripper works character by character: stripping a concatenation is stripping each part. |
| `Names.StripFixedPoint` | src/rpc.ts:338 | The stripper changes a name exactly when the name has a character outside `[a-zA-Z0-9]`. |
| `Names.ServerClassName` | src/rpc.ts:338 | The class identifier is alphanumeric. It is the stripped name followed by `Server`. |
| `Names.ServerClassNameOfAlnum` | src/rpc.ts:338 | A name already in `[a-zA-Z0-9]*` is used unchanged, followed by `Server`. |
| `Names.ServerClassNameDropsSeparator` | src/rpc.ts:338 | A separator outside `[a-zA-Z0-9]`, such as `-` or a space, is removed rather than replaced. |
| `Schema.BaseValidator` | src/index.ts:402-406 | Each recognised `type` selects its own validator, in both directions. A missing or unrecognised type gives `z.string()`. |
| `Schema.DescribeQualifier` | src/index.ts:408-410 | `.describe("…")` is emitted exactly when the description is truthy, and it carries the description. |
| `Schema.OptionalQualifier` | src/index.ts:411-413 | `.optional()` is emitted exactly when `optional` is truthy. |
| `Schema.DefaultQualifier` | src/index.ts:414-416 | `.default(<JSON>)` is emitted exactly when a default is defined, including falsy ones, and it carries the default's JSON text. |
| `Schema.QualifierOrder` | src/index.ts:402-418 | The expression is the base validator, then describe, then optional, then default, with nothing in between. |
| `Schema.PlainParameter` | src/index.ts:402-418 | A parameter with no qualifiers is its bare validator. |
| `Schema.DefaultIsLast` | src/index.ts:414-416 | A defined default is always the last qualifier. |
| `Schema.EntriesInOrder` | src/index.ts:400-420 | Each parameter's `key: expr` entry is at its offset in the joined text, followed by the separator and the next entry, in input order. |
| `Json.EscapeChar` | src/index.ts:415 | An escape never contains a control character, and a printable character other than `"` and `\` is kept as it is. |
| `Json.Quote` | src/index.ts:415 | A string literal is enclosed in quotes and contains no control character. |
| `Json.StringifySingleLine` | src/index.ts:415 | Any value's compact JSON is non-empty and free of control characters, so a default never breaks the generated line. |
| `Json.Lookup` | src/index.ts:2603 | A property read finds nothing exactly when no member has the key. |
| `Json.LookupAppend` | src/index.ts:2601-2608 | A property read on a member list finds the first member with the key. On a concatenation, it reads the first part when that part has the key, and otherwise the second part. An object literal with spreads keeps the last value of a repeated key. The two readings agree on the descriptor because its keys are distinct, as `Descriptors.CompatibilityKeys`, `Descriptors.OptionalKeys` and `Descriptors.TailKeysAreFresh` show. |
| `Json.PrettyMember` | src/index.ts:2628 | Indented output puts every member of an object on its own line, one gap deeper, as `"key": value`. |
| `Json.PrettyItem` | src/index.ts:2628 | Indented output puts every array item on its own line, one gap deeper. |
| `Json.PrettyLookup` | src/index.ts:2628 | The value that a property read finds is printed under its key. |
| `Fragments.BoolText` | src/index.ts:680 | A boolean is printed as `true` or `false`, in both directions. |
| `Fragments.ToolCodeComment` | src/index.ts:423 | The tool code starts with the description as a line comment. |
| `Fragments.ToolCodeName` | src/index.ts:424-425 | The tool is registered under its name, in quotes. |
| `Fragments.ToolCodeSchema` | src/index.ts:426-428 | The translated parameters are the body of the schema object. |
| `Fragments.ToolCodeImplementation` | src/index.ts:429-432 | The implementation is copied unchanged into the handler's `try` block. |
| `Fragments.IndexToolMatchesAdd` | src/index.ts:2475-2494 | The index generator's tool fragment is the container's tool code preceded by a line break and two tabs. |
| `Fragments.ResourceCodeExpression` | src/index.ts:547-549 | The container's resource code evaluates the implementation as an expression. |
| `Fragments.ResourceCodeUri` | src/index.ts:545-552 | The resource is registered under its URI and returns that URI in its contents. |
| `Fragments.IndexResourceStatement` | src/index.ts:2509-2512 | The index fragment runs the implementation as a statement block inside `try`. |
| `Fragments.IndexResourceUri` | src/index.ts:2502-2503 | The index fragment registers the resource under the same URI. |
| `Fragments.ArgsListBracketed` | src/index.ts:676-688 | Both branches of the argument list give the same text: the entries of all arguments between brackets. |
| `Fragments.ArgEntriesInOrder` | src/index.ts:677-681 | Each argument's entry is at its join offset, followed by the separator and the next entry. |
| `Fragments.PromptCodeArguments` | src/index.ts:687-688 | The argument list comes directly after the quoted prompt name. |
| `Fragments.PromptCodeTemplate` | src/index.ts:692 | The template is embedded unchanged in a backtick literal. |
| `Fragments.PromptCodePlaceholders` | src/index.ts:693 | Every argument gets its own placeholder substitution line. |
| `Fragments.IndexPromptTemplate` | src/index.ts:2550 | The index prompt fragment embeds the template unchanged in a backtick literal. |
| `Fragments.IndexPromptArguments` | src/index.ts:2528-2546 | Every argument of the prompt has its entry in the `arguments` array. |
| `Composer.HeadAndTail` | src/index.ts:2565-2595 | The module always begins with the same head and ends with the same tail, whatever the definitions. |
| `Composer.IndexImports` | src/index.ts:2565-2567 | The file begins with the three imports. |
| `Composer.IndexDeclaresClass` | src/index.ts:2570 | The class is declared under the given name. |
| `Composer.IndexSseRouteUsesClass` | src/index.ts:2584-2586 | The SSE route dispatches to that same class. |
| `Composer.IndexMcpRouteUsesClass` | src/index.ts:2588-2590 | The `/mcp` route dispatches to that same class. |
| `Composer.IndexEndsWithNotFound` | src/index.ts:2592-2595 | Every other path falls through to the 404 response. |
| `Composer.IndexGroupsInOrder` | src/index.ts:2576 | Inside `init()`, the tool group, the resource group and the prompt group follow one another directly, and then the method closes. |
| `Composer.IndexInitOpens` | src/index.ts:2576 | `init()` opens directly before the tool group. |
| `Composer.IndexEmptyInit` | src/index.ts:2576-2577 | A server with no definitions has an empty `init()` body. |
| `Composer.ModuleGroups` | src/index.ts:2451-2576 | Each group, joined with line breaks, sits directly after the previous one. |
| `Composer.ToolPieceAt` | src/index.ts:2451-2496 | Tool fragment `i` is at its join offset inside the tool group, before the resource group. |
| `Composer.ResourcePieceAt` | src/index.ts:2498-2524 | Resource fragment `j` is inside the resource group, which begins where the tool group ends. |
| `Composer.PromptPieceAt` | src/index.ts:2526-2563 | Prompt fragment `k` is inside the prompt group, which follows the resource group. |
| `Composer.ToolPiecesOrdered` | src/index.ts:2451-2496 | An earlier tool's fragment ends before a later tool's fragment begins. |
| `Composer.IndexToolsInOrder` | src/index.ts:2451-2496 | In the generated `index.ts` of a server, the tools' registrations appear in the order of its tool list. |
| `Composer.ImplementationInFragment` | src/index.ts:2482-2485 | A tool's index fragment carries its implementation inside the `try` block. |
| `Composer.IndexContainsImplementation` | src/index.ts:2483-2484 | Every tool's implementation reaches the generated file unchanged. |
| `Composer.IndexDeclaresServerClass` | src/index.ts:2570 | The generated file declares the Pascal-case class of the server name. |
| `Descriptors.CompatibilityKeys` | src/index.ts:2605-2606 | `compatibility_date` and `compatibility_flags` are written exactly when the settings hold them, because `JSON.stringify` drops an undefined member. Each carries the stored value. |
| `Descriptors.WranglerCompatibilityMembers` | src/index.ts:2600-2606 | The descriptor has `compatibility_date` and `compatibility_flags` exactly when the settings hold them, and then with the stored values. |
| `Descriptors.OptionalKeys` | src/index.ts:2607-2608 | `routes` and `vars` are spread in exactly when they are set, and each carries the configured value. |
| `Descriptors.WranglerRoutesMember` | src/index.ts:2607 | The descriptor has `routes` exactly when routes are configured, and then holds them unchanged. |
| `Descriptors.WranglerVarsMember` | src/index.ts:2608 | The descriptor has `vars` exactly when variables are configured, and then holds them unchanged. |
| `Descriptors.TailNamesClass` | src/index.ts:2609-2622 | The migration and the binding both carry the class. |
| `Descriptors.ClassReadBack` | src/index.ts:2609-2622 | The class can be read back from `bindings[0].class_name` and `migrations[0].new_sqlite_classes`. |
| `Descriptors.TailKeysAreFresh` | src/index.ts:2601-2615 | The optional members cannot shadow `migrations` or `durable_objects`. |
| `Descriptors.WranglerBindsServerClass` | src/index.ts:2600-2622 | The class bound under `MCP_OBJECT` is the class that the migration creates: the Pascal-case server name. |
| `Descriptors.WranglerBindsExportedClass` | src/index.ts:2600-2618 | The bound class is the class that the generated module declares. |
| `Descriptors.WranglerMain` | src/index.ts:2603-2604 | The worker is named as configured, and its entry point is `src/index.ts`, the module the generator writes. |
| `Descriptors.WranglerNameLine` | src/index.ts:2628 | The printed descriptor has the worker name on its own top-level line. |
| `Descriptors.NameLine` | src/index.ts:2628 | A top-level string member, printed with tab indentation, sits on its own line. |
| `Descriptors.DependenciesAreSdkPackages` | src/index.ts:2647-2651 | The manifest declares exactly the packages installed into a new server's environment. |
| `Descriptors.ImportsAreDeclared` | src/index.ts:2565-2567 | Every module that the generated source imports belongs to a declared dependency. |
| `Descriptors.PackageIdentity` | src/index.ts:2634-2635 | The manifest carries the server's name and version. |
| `Descriptors.PackagePrivateDependencies` | src/index.ts:2637-2651 | The manifest is private and pins the runtime dependencies. |
| `Descriptors.StartIsDev` | src/index.ts:2639-2643 | `start` runs the same command as `dev`. |
| `RpcCodegen.GenerateFiles` | src/rpc.ts:380-384 | The result has exactly the keys `index.ts`, `package.json` and `wrangler.jsonc`. |
| `RpcCodegen.RpcClassDeclared` | src/rpc.ts:338 | The class is declared under the given identifier. |
| `RpcCodegen.RpcClassInstantiated` | src/rpc.ts:354 | The fetch handler instantiates that identifier. |
| `RpcCodegen.RpcClassConsistent` | src/rpc.ts:338-354 | For any name, the class declared and the class instantiated are the same `<stripped>Server`. |
| `RpcCodegen.RpcToolsAt` | src/rpc.ts:329-335 | The tools code directly follows `const tools = [` after the imports. |
| `RpcCodegen.RpcEntryAt` | src/rpc.ts:320-335 | Tool `i`'s entry is at its join offset in the array, so entries keep the input order. |
| `RpcCodegen.EntryHandlerVerbatim` | src/rpc.ts:320-326 | An entry carries the handler unchanged, between `handler:` and the entry's end. |
| `RpcCodegen.RpcHandlerVerbatim` | src/rpc.ts:320-335 | Every tool's handler reaches the generated module unchanged. |
| `RpcCodegen.RpcEntriesSeparated` | src/rpc.ts:320-327 | Neighbouring entries are separated by exactly `",\n"`. |
| `RpcCodegen.RpcPackageName` | src/rpc.ts:360-361 | The package is named with the slug of the server name. |
| `RpcCodegen.RpcWranglerName` | src/rpc.ts:372-374 | The worker descriptor is named with the same slug. |
| `RpcCodegen.RpcNamesAgree` | src/rpc.ts:360-378 | Both files carry the slug, and the deployment name is `mcp-` plus that slug. |
| `Keyed.FindIndex` | src/index.ts:463 | The result is the first index whose key matches, or -1 exactly when no entry matches. |
| `Keyed.Upsert` | src/index.ts:463-478 | An existing key is replaced in place. A new key is appended. Every other entry keeps its position and value. |
| `Keyed.UpsertThenFind` | src/index.ts:463-478 | After an upsert, a lookup of the new key finds the new entry. |
| `Keyed.UpsertKeepsOthers` | src/index.ts:463-478 | Lookups of every other key are unaffected. |
| `Keyed.UpsertKeys` | src/index.ts:463-478 | The key set afterwards is the key set before plus the new key. |
| `Keyed.UpsertKeepsKeysUnique` | src/index.ts:463-478 | An upsert never creates a duplicate key. |
| `Keyed.UpsertIdempotent` | src/index.ts:463-478 | Upserting the same entry twice is the same as upserting it once. |
| `Keyed.UpsertLength` | src/index.ts:463-478 | The list grows by one exactly when the key was new. |
| `Operations.AddTool` | src/index.ts:376-481 | An unknown server gives not-found and a server without a container gives no-container; a rejection by the container is reported; in each case the store is unchanged. Otherwise only that server changes: its tool is upserted by name and `updatedAt` is set. The new name finds the new tool, and every other name finds what it found before. |
| `Operations.AddResource` | src/index.ts:520-603 | As `AddTool`, with resources keyed by URI. |
| `Operations.AddPrompt` | src/index.ts:652-744 | As `AddTool`, with prompts keyed by name. |
| `Operations.AddToolKeepsNamesUnique` | src/index.ts:463-478 | A successful add keeps tool names unique. The name set gains the new name, and the list grows only for a new name. |
| `Operations.AddToolIdempotent` | src/index.ts:463-480 | Adding the same tool again changes nothing but the time stamp. |
| `Operations.MergeWrangler` | src/index.ts:790-792 | Routes and vars are replaced when given. The date is replaced only when it is non-empty, and is then present with the given value. Name and flags are kept. |
| `Operations.MergeIdempotent` | src/index.ts:790-792 | Applying the same settings twice is the same as applying them once. |
| `Operations.MergeNothing` | src/index.ts:790-792 | With nothing given, or only an empty date, the settings are unchanged. |
| `Operations.ConfigureWrangler` | src/index.ts:778-795 | An unknown server is refused with no change. Otherwise only that server changes: its settings are merged and `updatedAt` is set. No container is needed. |
| `Operations.ConfiguredRoutesReachDescriptor` | src/index.ts:790 | Routes set by `configure_wrangler` appear unchanged in the generated worker descriptor. |
| `Operations.SelectFiles` | src/index.ts:832-847 | Each `fileType` selects exactly its own file. `all` selects all three, in the order index, wrangler, package. |
| `Operations.FenceLanguage` | src/index.ts:850 | The fence is `typescript` exactly for `.ts` files, and `json` otherwise. |
| `Operations.SectionFencesContents` | src/index.ts:850 | A section shows the file's contents inside a fence tagged with its language. |
| `Operations.ListingShowsFile` | src/index.ts:849-851 | The joined listing shows every selected file, fenced. |
| `Operations.ReplyShowsFile` | src/index.ts:849-857 | Every selected file's contents appear in the reply, fenced. |
| `Operations.AllFilesShown` | src/index.ts:832-857 | With `all`, the module is shown in a TypeScript fence and both descriptors in JSON fences. |
| `Operations.StaleServers` | src/index.ts:1102-1104 | A server is selected exactly when it was last updated more than the threshold ago, and nothing is added. |
| `Operations.StaleMonotone` | src/index.ts:1102-1104 | A longer threshold never selects a server that a shorter one spares. |
| `Operations.StaleConcat` | src/index.ts:1104 | The filter keeps listing order: filtering a concatenation is concatenating the filtered parts. |
| `Operations.ServerStats` | src/index.ts:2400-2417 | The loop's totals are the number of servers and the sums of the three list lengths. |
| `Operations.TotalToolsUpdate` | src/index.ts:2407-2411 | Replacing one server changes the tool total by exactly the change in that server's tool count. |
| `Operations.AddToolTotal` | src/index.ts:2407-2411 | After a successful add, the tool total grows by one for a new name and stays the same for a replaced tool. |
| `Lifecycle.OnlyDeployingActivates` | src/index.ts:1471-1504 | Among the status changes the code makes, only a `deploying` record becomes `active`. |
| `Lifecycle.WithError` | src/index.ts:1460 | The error is recorded under `error`, and every other metadata key is kept. |
| `Lifecycle.NewRecord` | src/index.ts:281-296 | The record `init_mcp_server` first saves has the given name, version and description, status `creating`, the default date `2025-03-10` and flags `["nodejs_compat"]`, and both timestamps set to now. |
| `Lifecycle.EnvMetadata` | src/index.ts:326-331 | The draft metadata has exactly the keys `containerCreated`, `workspacePath`, `template` and `packagesInstalled`, holding the time, the workspace, the template and the installed SDK list. |
| `Lifecycle.InitServer` | src/index.ts:251-332 | An invalid or taken name is refused before anything is saved. Otherwise a `creating` record with the given name, version and description, empty lists and the default compatibility date and flags is saved, followed by `failed` with `{error}` as its metadata or by `draft` with the container recorded and the environment metadata. Every save keeps the name, version, description, creation time and deployment settings. The first save is exactly that new record, with no container, worker or metadata; the second differs from it only in status, container and metadata, so its `updatedAt` is still the creation time. |
| `Lifecycle.InitThenAddTool` | src/index.ts:324-325 | A freshly initialised server with a container accepts its first tool. |
| `Lifecycle.DeployWorkerName` | src/index.ts:1445 | The worker name is the configured name, or `mcp-<id>` when that is empty. |
| `Lifecycle.DeployedMetadata` | src/index.ts:1496-1502 | The metadata keeps every existing key other than `deployedAt`, `deploymentUrl` and `workerName`, and sets those three to the time, the URL and the worker name. |
| `Lifecycle.DeployAsWritten` | src/index.ts:1422-1504 | Refused with no save for an unknown server or one without a container. Otherwise the saves go `building`, then `failed` or `deploying`, then `failed` or `active`. `deploying` is saved exactly when the build succeeded, and the `building` and `deploying` saves are the stored record with only its status changed. A failure adds `error` to the metadata and keeps the other keys; `updatedAt` changes only on success, when it becomes the deploy time and the metadata gains `deployedAt`, `deploymentUrl` and `workerName`; no other field, `worker_name` included, is ever set. |
| `Lifecycle.Deploy` | src/index.ts:1495-1504 | The corrected deploy reports the same failures and saves the same records as the code. On success, the active record also stores the worker name. |
| `Lifecycle.DeployNeverSkipsDeploying` | src/index.ts:1447-1504 | No saved record becomes `active` except directly after `deploying`. |
| `Lifecycle.RpcRecord` | src/rpc.ts:36-52 | The inserted record, as read back, has the given name and description, version `1.0.0`, the slug worker name, status `creating`, empty lists and metadata, no container or worker, and both timestamps set to the creation time. It has no compatibility date or flags, because they are stored under snake_case keys that the readers do not use. |
| `Lifecycle.RpcTrace` | src/rpc.ts:32-117 | The first state is the inserted record. The states go `creating`, `building`, then `failed` or `deploying`, then `active` or `failed`, each step a legal transition. The run succeeds exactly when all three steps succeed, and then ends `active` with the slug worker name. Each failure ends `failed` with `{error}` and carries its own message prefix. Later states differ from the first only in status, container, worker and metadata; the second is the first with status `building`. A `deploying` state, which records the container, occurs exactly when the environment and the build both succeeded. |
| `Lifecycle.FailByName` | src/rpc.ts:130-135 | Every record with the given name is marked failed with `{error}` as its metadata. All other records are unchanged. |
| `Lifecycle.RpcCreateAsWritten` | src/rpc.ts:21-135 | The new record is added, and it ends in the trace's last state. Records with another name are unchanged, and when every step succeeds so is every existing record. |
| `Lifecycle.RpcFailureMarksNamesakes` | src/rpc.ts:130-135 | As written, a failed creation marks every other server with the same name as failed. |
| `Lifecycle.RpcFailureExample` | src/rpc.ts:130-135 | For example, an active `weather` server becomes failed when a second creation of `weather` fails. |
| `Lifecycle.RpcDescriptorLacksCompatibility` | src/rpc.ts:48-52 | As written, the descriptor generated for a server that `createServer` created has neither `compatibility_date` nor `compatibility_flags`. |
| `Lifecycle.WithDefaultCompatibility` | src/rpc.ts:48-52 | The record holds the default date and flags under the keys the readers use. Nothing else changes. |
| `Lifecycle.RpcCreate` | src/rpc.ts:21-135 | With the failure update keyed by id, only the new record changes. It is active exactly when every step succeeded, and otherwise it is failed with an error. It has the given name and description, version `1.0.0`, the creation time and empty lists; it keeps the slug worker name and holds the default date and flags; when active it records the container and the slug worker. |
| `Lifecycle.RpcDescriptorCompatibility` | src/index.ts:2605-2606 | With the corrected record, the descriptor carries `compatibility_date` `2025-03-10` and `compatibility_flags` `["nodejs_compat"]`. |
| `Lifecycle.WorkerHost` | src/rpc.ts:235 | The host is the recorded worker name, or `null` when none is recorded, as a template literal prints it. |
| `Lifecycle.ServerUrl` | src/rpc.ts:235 | The URL is `https://<worker>.meta-mcp.workers.dev`, and the part between scheme and domain is exactly the worker host. |
| `Lifecycle.Connect` | src/rpc.ts:215-252 | A connection is made exactly for an existing, active server when the client succeeds, at the server's URL. Otherwise the reply is `Server not found`, `Server is <status>, not active`, or, for an active server whose client fails, `Failed to connect: <error>`. |
| `Lifecycle.RpcCreatedServerConnects` | src/rpc.ts:227-235 | A server that `createServer` created successfully is reached at its worker slug. |
| `Lifecycle.DeployedServerUrlAsWritten` | src/rpc.ts:235 | As written, a server deployed by `wrangler_deploy` is contacted at `https://null.meta-mcp.workers.dev`. |
| `Lifecycle.DeployedServerUrl` | src/rpc.ts:235 | With the worker name recorded, the client contacts the worker that was published. |
| `Lifecycle.Stop` | src/rpc.ts:265-281 | An unknown id is refused. Otherwise the record becomes `stopped`, whatever its status, with `updatedAt` set to the stop time. Nothing else changes. |
| `Lifecycle.StoppedServerRefused` | src/rpc.ts:227-232 | A stopped server is refused as `Server is stopped, not active`. |
| `PathGuards.WriteVerdict` | src/index.ts:1761-1782 | A path with `..` or under `/etc`, `/sys` or `/proc` is unsafe. Otherwise it is allowed exactly when it begins with `/workspace` or `./`. |
| `PathGuards.ReadVerdict` | src/index.ts:1858-1865 | A read is allowed exactly when the path has no `..` and does not begin with `/etc` or `/proc`. |
| `PathGuards.WritableIsReadable` | src/index.ts:1858 | Whatever may be written may be read. |
| `PathGuards.DeleteVerdictAsWritten` | src/index.ts:2011-2035 | A protected path is refused. Anything else that begins with `/workspace` is allowed. |
| `PathGuards.DeleteVerdict` | src/index.ts:2011-2035 | The corrected guard also refuses `..`, and it allows only what the code allows. |
| `PathGuards.WorkspaceIsNotSystem` | src/index.ts:1761 | A path under `/workspace` is under none of the system directories. |
| `PathGuards.DeletableIsWritable` | src/index.ts:2028 | With the `..` test, whatever may be deleted may also be written. |
| `PathGuards.DeleteAsWrittenAdmitsEscape` | src/index.ts:2011-2035 | As written, `/workspace/../etc/passwd` may be deleted although it may not be written. |
| `PathGuards.ParentDir` | src/index.ts:1796 | The parent is the prefix before the last `/`, or empty when there is no `/`. |
| `PathGuards.ParentOfChild` | src/index.ts:1796 | The parent of `dir/name` is `dir`. |
| `PathGuards.TopLevelFileNeedsNoMkdir` | src/index.ts:1795-1797 | A file directly in `/workspace` never triggers `mkdir -p`. |
| `PathGuards.ReadEncoding` | src/index.ts:1877-1880 | Images are always base64. Other files use the requested encoding, with UTF-8 as the default. |
| `PathGuards.EncodingIgnoresCase` | src/index.ts:1879 | The encoding choice does not depend on the case of the path. |

## Left out

- I/O is not modelled. This covers D1 and SQL, the container and publisher
  calls, and the MCP client. Their answers are inputs, and the server table
  is a map.
- The `mcp_tools` rows are not modelled: neither those that `createServer`
  inserts nor those that `saveServerToDB` rewrites. The model keeps each
  server's definition lists inside its record.
- `Date.now()` is a parameter.
- `nanoid()` is not modelled. Its freshness is stated as the precondition
  that the new id is not in the table.
- The confirmation prompts (`elicitInput`) and the `dryRun` flag of
  `cleanup_old_servers` are not modelled.
- The deletion loop of `cleanup_old_servers` is not modelled. Only the
  selection of stale servers is.
- Reply texts are not modelled. This covers the success texts, the
  `toLocaleString` and `toFixed` formatting, and the error wording of the
  add, configure and deploy tools. Those errors are kinds of failure. Two
  entrypoints keep their exact messages: `connectToServer`, and
  `createServer`, whose prefixes `Failed to create SDK environment: `,
  `Build failed: ` and `Deployment failed: ` (src/rpc.ts:81, 94, 113) appear
  in the failed states of `Lifecycle.RpcTrace`.
- The dangerous-command patterns and the shell strings of the container
  command tools are not modelled. The same goes for the runtime behaviour of
  the generated code, such as placeholder substitution and the SSE and MCP
  transports.
- The file tools' container lookup and the file contents are not modelled.
  Only their path decisions, parent directory and encoding choice are.
- `Operations.StaleServers`: `daysThreshold` is an integer. Fractional
  thresholds are not modelled.
- Parameters are given in `Object.entries` order. JavaScript moves
  integer-like keys to the front, and that reordering is not modelled.
- Case mapping covers ASCII letters only. Unicode case mapping and UTF-16
  code units are not modelled.
- `Json.Pretty` models the layout of `JSON.stringify` with a gap. Numbers
  are integers, and floating-point formatting is not modelled.
- `Names.PascalCase`: upper-casing is ASCII only, as stated above.
- Collaborators that throw are not modelled. Each is given as a result
  with a success flag, so the catch blocks that handle a thrown call are
  not reached. The lines below name the cases this leaves out.
- `Lifecycle.InitServer`: if the container manager throws, the reply is an
  error and the record stays `creating` (src/index.ts:343-352).
- `Lifecycle.DeployAsWritten`: if the build or the publisher throws, the
  record stays `building` or `deploying` (src/index.ts:1521-1528).
- `Lifecycle.RpcTrace`: if a call throws, the record is marked failed with
  the thrown message, or `Unknown error`, and no step prefix
  (src/rpc.ts:126-135).
- `Lifecycle.Connect`: if the MCP client throws, the reply is the thrown
  message, or `Unknown error`, without the `Failed to connect:` prefix
  (src/rpc.ts:253-259).
- `Operations.AddTool`: a parameter spec that is `null` makes the schema
  translation throw (src/index.ts:402), and nothing is saved. A parameter
  spec in the model is always an object.

## Findings

| source | as written | input that shows it | evidently intended | confidence | as-written member | corrected member |
|---|---|---|---|---|---|---|
| src/index.ts:2011-2035 | The delete tool checks only the protected list and the `/workspace` prefix. It never checks for `..`, although the write and read tools do. | `/workspace/../etc/passwd` is allowed for deletion and refused for writing. | Refuse `..` as the other file tools do, so that only files inside the workspace can be deleted. | not executed | `PathGuards.DeleteVerdictAsWritten` | `PathGuards.DeleteVerdict` |
| src/rpc.ts:130-135 | A failed `createServer` marks records failed `WHERE name = ?`. | An active server named `weather`, then a second `createServer("weather", …)` whose environment fails: the active server becomes `failed`. | Update only the new record, `WHERE id = ?` with the fresh `serverId`. | not executed | `Lifecycle.RpcCreateAsWritten` | `Lifecycle.RpcCreate` |
| src/rpc.ts:48-52 | `createServer` stores the deployment settings with the keys `compatibility_date` and `compatibility_flags`. `generateWranglerConfig` reads `compatibilityDate` and `compatibilityFlags` from the parsed record (src/index.ts:2605-2606). | Create a server through `createServer`, then generate its `wrangler.jsonc`. Both members are undefined, so `JSON.stringify` leaves them out. | Store the date and flags under the camelCase keys, as `init_mcp_server` does. | not executed | `Lifecycle.RpcDescriptorLacksCompatibility` | `Lifecycle.RpcCreate` |
| src/index.ts:1495-1504 | `wrangler_deploy` records the worker name only in the metadata, and `saveServerToDB` stores `config.worker_name \|\| null` (src/index.ts:2311). `connectToServer` then builds its URL from `worker_name` (src/rpc.ts:235). | Deploy a server created by `init_mcp_server`. Connecting then contacts `https://null.meta-mcp.workers.dev`. | Set `worker_name` on a successful deploy. | not executed | `Lifecycle.DeployAsWritten` | `Lifecycle.Deploy` |

=== FILE: base.dfy ===
/** Failure-carrying wrappers shared by every module of the model. */
module Base {

  /** A value that may be absent: an `undefined` field or an optional argument. */
  datatype Option<+T> = None | Some(value: T) {
    predicate IsFailure() { None? }

    function PropagateFailure<U>(): Option<U>
      requires None?
    {
      None
    }

    function Extract(): T
      requires Some?
    {
      value
    }

    function GetOr(default: T): T {
      if Some? then value else default
    }
  }

  /** The outcome of an operation that reports a user-facing error text instead of throwing. */
  datatype Result<+T> = Ok(value: T) | Err(message: string) {
    predicate IsFailure() { Err? }

    function PropagateFailure<U>(): Result<U>
      requires Err?
    {
      Err(message)
    }

    function Extract(): T
      requires Ok?
    {
      value
    }
  }
}

=== FILE: composer.dfy ===
/**
 * `generateIndexTs`: the whole `src/index.ts` of a generated server.  A fixed
 * import block and class header, then every tool fragment, every resource
 * fragment and every prompt fragment in list order inside `init()`, then the
 * fixed fetch handler that routes `/sse` and `/mcp` to the class and answers
 * everything else with 404.
 */
module Composer {
  import opened Text
  import opened Template
  import opened Definitions
  import Names
  import Fragments

  /** The module specifiers the generated file imports, in order. */
  const ImportedModules: seq<string> :=
    ["agents" + "/" + "mcp", "@modelcontextprotocol/sdk" + "/" + "server/mcp.js", "zod"]

  const ImportBlock: string :=
    "import { McpAgent } from \"" + ImportedModules[0] + "\";\n"
    + "import { McpServer } from \"" + ImportedModules[1] + "\";\n"
    + "import { z } from \"" + ImportedModules[2] + "\";\n"

  const ClassOpen: string := "export class "
  const ClassExtends: string := " extends McpAgent {"
  const SseOpen: string := "return "
  const SseRoute: string := ".serveSSE(\"/sse\")"
  const McpRoute: string := ".serve(\"/mcp\")"
  const NotFound: string := "\n\t\treturn new Response(\"Not found\", { status: 404 });\n\t},\n};\n"
  const InitOpen: string := "async init() {"
  const InitClose: string := "\n\t}"
  const AfterVersion: string := "\",\n\t});\n\n\t"
  const BeforeSse: string :=
    "\n}\n\nexport default {\n\tfetch(request: Request, env: Env, ctx: ExecutionContext) {\n\t\tconst url = new URL(request.url);\n\n\t\tif (url.pathname === \"/sse\" || url.pathname === \"/sse/message\") {\n\t\t\t"
  const BetweenRoutes: string := ".fetch(request, env, ctx);\n\t\t}\n\n\t\tif (url.pathname === \"/mcp\") {\n\t\t\t"
  const AfterMcp: string := ".fetch(request, env, ctx);\n\t\t}\n"

  /** The module before `init()`'s body; holes: description, class, name, version. */
  const HeadLits: seq<string> := [
    ImportBlock + "\n// ",
    "\n" + ClassOpen,
    ClassExtends + "\n\tserver = new McpServer({\n\t\tname: \"",
    "\",\n\t\tversion: \"",
    AfterVersion + InitOpen
  ]

  /** The module after `init()`'s body; both holes are the class. */
  const TailLits: seq<string> := [
    InitClose + BeforeSse + SseOpen,
    SseRoute + BetweenRoutes + SseOpen,
    McpRoute + AfterMcp + NotFound
  ]

  function ToolFragments(c: ServerConfig): (r: seq<string>)
    ensures |r| == |c.tools|
    ensures forall i :: 0 <= i < |r| ==> r[i] == Fragments.IndexToolFragment(c.tools[i])
  {
    seq(|c.tools|, i requires 0 <= i < |c.tools| => Fragments.IndexToolFragment(c.tools[i]))
  }

  function ResourceFragments(c: ServerConfig): (r: seq<string>)
    ensures |r| == |c.resources|
    ensures forall i :: 0 <= i < |r| ==> r[i] == Fragments.IndexResourceFragment(c.resources[i])
  {
    seq(|c.resources|, i requires 0 <= i < |c.resources| => Fragments.IndexResourceFragment(c.resources[i]))
  }

  function PromptFragments(c: ServerConfig): (r: seq<string>)
    ensures |r| == |c.prompts|
    ensures forall i :: 0 <= i < |r| ==> r[i] == Fragments.IndexPromptFragment(c.prompts[i])
  {
    seq(|c.prompts|, i requires 0 <= i < |c.prompts| => Fragments.IndexPromptFragment(c.prompts[i]))
  }

  function IndexHead(d: string, cls: string, n: string, v: string): string {
    Fill(HeadLits, [d, cls, n, v])
  }

  function IndexTail(cls: string): string {
    Fill(TailLits, [cls, cls])
  }

  /**
   * The module text for already rendered fragment groups: the three groups
   * sit back to back between the head and the tail, as the template
   * interpolates them with nothing in between.
   */
  function IndexText(d: string, cls: string, n: string, v: string, t: string, r: string, p: string): string {
    IndexHead(d, cls, n, v) + t + r + p + IndexTail(cls)
  }

  lemma HeadAndTail(d: string, cls: string, n: string, v: string, t: string, r: string, p: string)
    ensures StartsWith(IndexText(d, cls, n, v, t, r, p), IndexHead(d, cls, n, v))
    ensures EndsWith(IndexText(d, cls, n, v, t, r, p), IndexTail(cls))
  {
    var h := IndexHead(d, cls, n, v);
    FourParts(h, t, r, p);
    StartsWithConcat(h + t + r + p, IndexTail(cls));
    StartsWithTrans(IndexText(d, cls, n, v, t, r, p), h + t + r + p, h);
    EndsWithConcat(h + t + r + p, IndexTail(cls));
  }

  /** The module text for fragment lists, each group joined by line breaks. */
  function IndexModule(d: string, cls: string, n: string, v: string,
                       ts: seq<string>, rs: seq<string>, ps: seq<string>): string
  {
    IndexText(d, cls, n, v, Join(ts, "\n"), Join(rs, "\n"), Join(ps, "\n"))
  }

  /** `generateIndexTs(config)`: the class is named after the server. */
  function IndexTs(c: ServerConfig): string {
    IndexModule(c.description, Names.PascalCase(c.name), c.name, c.version,
                ToolFragments(c), ResourceFragments(c), PromptFragments(c))
  }

  /** The file begins with the three imports. */
  lemma IndexImports(d: string, cls: string, n: string, v: string, t: string, r: string, p: string)
    ensures StartsWith(IndexText(d, cls, n, v, t, r, p), ImportBlock)
  {
    FillStartsWithFirst(HeadLits, [d, cls, n, v]);
    StartsWithConcat(ImportBlock, "\n// ");
    StartsWithTrans(IndexHead(d, cls, n, v), HeadLits[0], ImportBlock);
    HeadAndTail(d, cls, n, v, t, r, p);
    StartsWithTrans(IndexText(d, cls, n, v, t, r, p), IndexHead(d, cls, n, v), ImportBlock);
  }

  /** The class is declared under the given name. */
  lemma IndexDeclaresClass(d: string, cls: string, n: string, v: string, t: string, r: string, p: string)
    ensures Contains(IndexText(d, cls, n, v, t, r, p), ClassOpen + cls + ClassExtends)
  {
    EndsWithConcat("\n", ClassOpen);
    StartsWithConcat(ClassExtends, "\n\tserver = new McpServer({\n\t\tname: \"");
    ValueContained(HeadLits, [d, cls, n, v], 1, ClassOpen, ClassExtends);
    HeadAndTail(d, cls, n, v, t, r, p);
    ContainsPrefix(IndexText(d, cls, n, v, t, r, p), IndexHead(d, cls, n, v), ClassOpen + cls + ClassExtends);
  }

  /** The SSE route handler dispatches to that same class. */
  lemma IndexSseRouteUsesClass(d: string, cls: string, n: string, v: string, t: string, r: string, p: string)
    ensures Contains(IndexText(d, cls, n, v, t, r, p), SseOpen + cls + SseRoute)
  {
    EndsWithConcat(InitClose + BeforeSse, SseOpen);
    StartsWithConcat3(SseRoute, BetweenRoutes, SseOpen);
    ValueContained(TailLits, [cls, cls], 0, SseOpen, SseRoute);
    HeadAndTail(d, cls, n, v, t, r, p);
    ContainsSuffix(IndexText(d, cls, n, v, t, r, p), IndexTail(cls), SseOpen + cls + SseRoute);
  }

  /** So does the streamable-HTTP route handler. */
  lemma IndexMcpRouteUsesClass(d: string, cls: string, n: string, v: string, t: string, r: string, p: string)
    ensures Contains(IndexText(d, cls, n, v, t, r, p), SseOpen + cls + McpRoute)
  {
    EndsWithConcat3(SseRoute, BetweenRoutes, SseOpen);
    StartsWithConcat3(McpRoute, AfterMcp, NotFound);
    ValueContained(TailLits, [cls, cls], 1, SseOpen, McpRoute);
    HeadAndTail(d, cls, n, v, t, r, p);
    ContainsSuffix(IndexText(d, cls, n, v, t, r, p), IndexTail(cls), SseOpen + cls + McpRoute);
  }

  /** Whatever the definitions, every other path falls through to the 404 response. */
  lemma IndexEndsWithNotFound(d: string, cls: string, n: string, v: string, t: string, r: string, p: string)
    ensures EndsWith(IndexText(d, cls, n, v, t, r, p), NotFound)
  {
    FillEndsWithLast(TailLits, [cls, cls]);
    EndsWithConcat3(McpRoute, AfterMcp, NotFound);
    EndsWithTrans(IndexTail(cls), TailLits[2], NotFound);
    HeadAndTail(d, cls, n, v, t, r, p);
    EndsWithTrans(IndexText(d, cls, n, v, t, r, p), IndexTail(cls), NotFound);
  }

  /** Where the tool group begins: right after the head. */
  function GroupsStart(d: string, cls: string, n: string, v: string): nat {
    |IndexHead(d, cls, n, v)|
  }

  /** The head ends by opening `init()`. */
  lemma HeadOpensInit(d: string, cls: string, n: string, v: string)
    ensures EndsWith(IndexHead(d, cls, n, v), InitOpen)
  {
  }

  /** The tail begins by closing `init()`. */
  lemma TailClosesInit(cls: string)
    ensures StartsWith(IndexTail(cls), InitClose)
  {
    FillStartsWithFirst(TailLits, [cls, cls]);
    StartsWithConcat3(InitClose, BeforeSse, SseOpen);
    StartsWithTrans(IndexTail(cls), TailLits[0], InitClose);
  }

  /** Positions in a five-part concatenation whose last part starts with `x`. */
  lemma Between(h: string, t: string, r: string, p: string, tail: string, x: string)
    requires StartsWith(tail, x)
    ensures var s := h + t + r + p + tail;
            AtPos(s, t, |h|) && AtPos(s, r, |h| + |t|) && AtPos(s, p, |h| + |t| + |r|)
            && AtPos(s, x, |h| + |t| + |r| + |p|)
  {
  }

  /** A prefix of `s` that ends with `x` puts `x` just before the prefix's end. */
  lemma EndOfPrefix(s: string, h: string, x: string)
    requires StartsWith(s, h) && EndsWith(h, x)
    ensures |h| >= |x| && AtPos(s, x, |h| - |x|)
  {
  }

  /**
   * Inside `init()` the three groups follow one another directly: the tool
   * group, then the resource group, then the prompt group, then the end of
   * the method.
   */
  lemma IndexGroupsInOrder(d: string, cls: string, n: string, v: string, t: string, r: string, p: string)
    ensures var s := IndexText(d, cls, n, v, t, r, p);
            var k := GroupsStart(d, cls, n, v);
            AtPos(s, t, k) && AtPos(s, r, k + |t|) && AtPos(s, p, k + |t| + |r|)
            && AtPos(s, InitClose, k + |t| + |r| + |p|)
  {
    TailClosesInit(cls);
    Between(IndexHead(d, cls, n, v), t, r, p, IndexTail(cls), InitClose);
  }

  /** The method opens right before the tool group. */
  lemma IndexInitOpens(d: string, cls: string, n: string, v: string, t: string, r: string, p: string)
    ensures var k := GroupsStart(d, cls, n, v);
            k >= |InitOpen| && AtPos(IndexText(d, cls, n, v, t, r, p), InitOpen, k - |InitOpen|)
  {
    HeadOpensInit(d, cls, n, v);
    HeadAndTail(d, cls, n, v, t, r, p);
    EndOfPrefix(IndexText(d, cls, n, v, t, r, p), IndexHead(d, cls, n, v), InitOpen);
  }

  /** A server with no definitions has an empty `init()` body. */
  lemma IndexEmptyInit(d: string, cls: string, n: string, v: string)
    ensures Contains(IndexText(d, cls, n, v, "", "", ""), InitOpen + InitClose)
  {
    var s := IndexText(d, cls, n, v, "", "", "");
    var k := GroupsStart(d, cls, n, v);
    IndexGroupsInOrder(d, cls, n, v, "", "", "");
    IndexInitOpens(d, cls, n, v, "", "", "");
    AtPosConcat(s, InitOpen, InitClose, k - |InitOpen|);
    AtPosContains(s, InitOpen + InitClose, k - |InitOpen|);
  }

  /** A piece of a joined group, found at its join offset within the group. */
  lemma PieceOfGroup(s: string, xs: seq<string>, sep: string, start: int, j: nat)
    requires j < |xs| && AtPos(s, Join(xs, sep), start)
    ensures AtPos(s, xs[j], start + JoinOffset(xs, sep, j))
    ensures start + JoinOffset(xs, sep, j) + |xs[j]| <= start + |Join(xs, sep)|
  {
    JoinPiece(xs, sep, j);
    AtPosTrans(s, Join(xs, sep), xs[j], start, JoinOffset(xs, sep, j));
  }

  /** Where the tool group of a module begins. */
  function ToolsAt(d: string, cls: string, n: string, v: string,
                   ts: seq<string>, rs: seq<string>, ps: seq<string>): nat
  {
    GroupsStart(d, cls, n, v)
  }

  /** The three joined groups of a module, back to back after the head. */
  lemma ModuleGroups(d: string, cls: string, n: string, v: string,
                     ts: seq<string>, rs: seq<string>, ps: seq<string>)
    ensures AtPos(IndexModule(d, cls, n, v, ts, rs, ps), Join(ts, "\n"), ToolsAt(d, cls, n, v, ts, rs, ps))
    ensures AtPos(IndexModule(d, cls, n, v, ts, rs, ps), Join(rs, "\n"),
                  ToolsAt(d, cls, n, v, ts, rs, ps) + |Join(ts, "\n")|)
    ensures AtPos(IndexModule(d, cls, n, v, ts, rs, ps), Join(ps, "\n"),
                  ToolsAt(d, cls, n, v, ts, rs, ps) + |Join(ts, "\n")| + |Join(rs, "\n")|)
  {
    IndexGroupsInOrder(d, cls, n, v, Join(ts, "\n"), Join(rs, "\n"), Join(ps, "\n"));
  }

  /** Tool fragment `i` sits in the tool group at its join offset, before the resource group. */
  lemma ToolPieceAt(d: string, cls: string, n: string, v: string,
                    ts: seq<string>, rs: seq<string>, ps: seq<string>, i: nat)
    requires i < |ts|
    ensures var at := ToolsAt(d, cls, n, v, ts, rs, ps) + JoinOffset(ts, "\n", i);
            AtPos(IndexModule(d, cls, n, v, ts, rs, ps), ts[i], at)
            && at + |ts[i]| <= ToolsAt(d, cls, n, v, ts, rs, ps) + |Join(ts, "\n")|
  {
    ModuleGroups(d, cls, n, v, ts, rs, ps);
    PieceOfGroup(IndexModule(d, cls, n, v, ts, rs, ps), ts, "\n", ToolsAt(d, cls, n, v, ts, rs, ps), i);
  }

  /**
   * Resource fragment `j` sits in the resource group, which starts where the
   * tool group ends and ends before the prompt group.
   */
  lemma ResourcePieceAt(d: string, cls: string, n: string, v: string,
                        ts: seq<string>, rs: seq<string>, ps: seq<string>, j: nat)
    requires j < |rs|
    ensures var start := ToolsAt(d, cls, n, v, ts, rs, ps) + |Join(ts, "\n")|;
            var at := start + JoinOffset(rs, "\n", j);
            AtPos(IndexModule(d, cls, n, v, ts, rs, ps), rs[j], at)
            && at + |rs[j]| <= start + |Join(rs, "\n")|
  {
    ModuleGroups(d, cls, n, v, ts, rs, ps);
    PieceOfGroup(IndexModule(d, cls, n, v, ts, rs, ps), rs, "\n",
                 ToolsAt(d, cls, n, v, ts, rs, ps) + |Join(ts, "\n")|, j);
  }

  /** Prompt fragment `k` sits in the prompt group, which follows the resource group. */
  lemma PromptPieceAt(d: string, cls: string, n: string, v: string,
                      ts: seq<string>, rs: seq<string>, ps: seq<string>, k: nat)
    requires k < |ps|
    ensures var start := ToolsAt(d, cls, n, v, ts, rs, ps) + |Join(ts, "\n")| + |Join(rs, "\n")|;
            AtPos(IndexModule(d, cls, n, v, ts, rs, ps), ps[k], start + JoinOffset(ps, "\n", k))
  {
    ModuleGroups(d, cls, n, v, ts, rs, ps);
    PieceOfGroup(IndexModule(d, cls, n, v, ts, rs, ps), ps, "\n",
                 ToolsAt(d, cls, n, v, ts, rs, ps) + |Join(ts, "\n")| + |Join(rs, "\n")|, k);
  }

  /** Fragments keep their list order: an earlier tool's fragment ends before a later one's begins. */
  lemma ToolPiecesOrdered(d: string, cls: string, n: string, v: string,
                          ts: seq<string>, rs: seq<string>, ps: seq<string>, i: nat, j: nat)
    requires i < j < |ts|
    ensures var s := IndexModule(d, cls, n, v, ts, rs, ps);
            var start := ToolsAt(d, cls, n, v, ts, rs, ps);
            AtPos(s, ts[i], start + JoinOffset(ts, "\n", i))
            && AtPos(s, ts[j], start + JoinOffset(ts, "\n", j))
            && start + JoinOffset(ts, "\n", i) + |ts[i]| < start + JoinOffset(ts, "\n", j)
  {
    ToolPieceAt(d, cls, n, v, ts, rs, ps, i);
    ToolPieceAt(d, cls, n, v, ts, rs, ps, j);
    JoinOrder(ts, "\n", i, j);
  }

  /** A tool's index fragment carries its implementation inside the try block. */
  lemma ImplementationInFragment(t: Tool) returns (k: int)
    ensures AtPos(Fragments.IndexToolFragment(t), Fragments.TryOpen + t.implementation + Fragments.TryClose, k)
  {
    var body := Fragments.TryOpen + t.implementation + Fragments.TryClose;
    var code := Fragments.ToolCode(t.description, t.name, t.parameters, t.implementation);
    Fragments.IndexToolMatchesAdd(t);
    Fragments.ToolCodeImplementation(t.description, t.name, t.parameters, t.implementation);
    var m :| 0 <= m <= |code| - |body| && AtPos(code, body, m);
    AtPosInfix("\n\t\t", code, "", body, m);
    assert "\n\t\t" + code + "" == "\n\t\t" + code;
    k := 3 + m;
  }

  /** Whatever a tool list holds, something placed inside tool fragment `i` is in the module. */
  lemma ToolPieceContains(d: string, cls: string, n: string, v: string,
                          ts: seq<string>, rs: seq<string>, ps: seq<string>, i: nat, body: string, k: int)
    requires i < |ts| && AtPos(ts[i], body, k)
    ensures Contains(IndexModule(d, cls, n, v, ts, rs, ps), body)
  {
    var at := ToolsAt(d, cls, n, v, ts, rs, ps) + JoinOffset(ts, "\n", i);
    ToolPieceAt(d, cls, n, v, ts, rs, ps, i);
    AtPosTrans(IndexModule(d, cls, n, v, ts, rs, ps), ts[i], body, at, k);
    AtPosContains(IndexModule(d, cls, n, v, ts, rs, ps), body, at + k);
  }

  /** Every tool's implementation reaches the generated file verbatim. */
  lemma IndexContainsImplementation(c: ServerConfig, i: nat)
    requires i < |c.tools|
    ensures Contains(IndexTs(c), Fragments.TryOpen + c.tools[i].implementation + Fragments.TryClose)
  {
    var k := ImplementationInFragment(c.tools[i]);
    ToolPieceContains(c.description, Names.PascalCase(c.name), c.name, c.version,
                      ToolFragments(c), ResourceFragments(c), PromptFragments(c), i,
                      Fragments.TryOpen + c.tools[i].implementation + Fragments.TryClose, k);
  }

  /** `ToolPiecesOrdered` with the two positions named. */
  lemma OrderedAt(d: string, cls: string, n: string, v: string,
                  ts: seq<string>, rs: seq<string>, ps: seq<string>, i: nat, j: nat) returns (a: int, b: int)
    requires i < j < |ts|
    ensures var s := IndexModule(d, cls, n, v, ts, rs, ps);
            AtPos(s, ts[i], a) && AtPos(s, ts[j], b) && a + |ts[i]| < b
  {
    ToolPiecesOrdered(d, cls, n, v, ts, rs, ps, i, j);
    a := ToolsAt(d, cls, n, v, ts, rs, ps) + JoinOffset(ts, "\n", i);
    b := ToolsAt(d, cls, n, v, ts, rs, ps) + JoinOffset(ts, "\n", j);
  }

  /**
   * In the generated file the tools appear in the order of the server's
   * tool list: an earlier tool's fragment ends before a later one's begins.
   */
  lemma IndexToolsInOrder(c: ServerConfig, i: nat, j: nat) returns (a: int, b: int)
    requires i < j < |c.tools|
    ensures AtPos(IndexTs(c), Fragments.IndexToolFragment(c.tools[i]), a)
    ensures AtPos(IndexTs(c), Fragments.IndexToolFragment(c.tools[j]), b)
    ensures a + |Fragments.IndexToolFragment(c.tools[i])| < b
  {
    var ts, rs, ps := ToolFragments(c), ResourceFragments(c), PromptFragments(c);
    var cls := Names.PascalCase(c.name);
    a, b := OrderedAt(c.description, cls, c.name, c.version, ts, rs, ps, i, j);
    assert IndexTs(c) == IndexModule(c.description, cls, c.name, c.version, ts, rs, ps);
    assert ts[i] == Fragments.IndexToolFragment(c.tools[i]) && ts[j] == Fragments.IndexToolFragment(c.tools[j]);
  }

  /** The generated file declares the class named after the server. */
  lemma IndexDeclaresServerClass(c: ServerConfig)
    ensures Contains(IndexTs(c), ClassOpen + Names.PascalCase(c.name) + ClassExtends)
  {
    IndexDeclaresClass(c.description, Names.PascalCase(c.name), c.name, c.version,
                       Join(ToolFragments(c), "\n"), Join(ResourceFragments(c), "\n"), Join(PromptFragments(c), "\n"));
  }
}

=== FILE: definitions.dfy ===
/**
 * The stored definition of one generated MCP server: its tools, resources,
 * prompts, deployment settings and lifecycle status.  Times are milliseconds
 * since the epoch, supplied by the caller.
 */
module Definitions {
  import opened Base
  import Json
  import Schema

  /** The lifecycle states a server record can be in. */
  datatype Status = Draft | Creating | Building | Deploying | Active | Failed | Stopped

  /** A tool is keyed by `name`. */
  datatype Tool = Tool(
    name: string,
    description: string,
    parameters: Schema.Params,
    implementation: string)

  /** A resource is keyed by `uri`. */
  datatype Resource = Resource(
    uri: string,
    name: string,
    description: string,
    mimeType: string,
    implementation: string)

  datatype PromptArgument = PromptArgument(name: string, description: string, required: bool)

  /** A prompt is keyed by `name`. */
  datatype Prompt = Prompt(
    name: string,
    description: string,
    arguments: seq<PromptArgument>,
    template: string)

  /**
   * The deployment settings as the readers see them after parsing the stored
   * JSON.  `routes` and `vars` are absent until configured; the compatibility
   * date and flags are absent when the record was stored without the
   * camelCase keys the readers use.
   */
  datatype WranglerConfig = WranglerConfig(
    name: string,
    compatibilityDate: Option<string>,
    compatibilityFlags: Option<seq<string>>,
    routes: Option<seq<string>>,
    vars: Option<seq<(string, Json.Value)>>)

  /** A JSON object with string keys; an absent `metadata` field is the empty map. */
  type Metadata = map<string, Json.Value>

  datatype ServerConfig = ServerConfig(
    name: string,
    version: string,
    description: string,
    tools: seq<Tool>,
    resources: seq<Resource>,
    prompts: seq<Prompt>,
    wrangler: WranglerConfig,
    createdAt: int,
    updatedAt: int,
    status: Status,
    workerName: Option<string>,
    containerId: Option<string>,
    metadata: Metadata)

  /** The compatibility date every new server starts with. */
  const DefaultCompatibilityDate: string := "2025-03-10"

  const DefaultCompatibilityFlags: seq<string> := ["nodejs_compat"]

  /** The SDK packages requested for every new server's environment. */
  const SdkPackages: seq<string> := ["@modelcontextprotocol/sdk", "agents", "zod"]
}

=== FILE: descriptors.dfy ===
/**
 * `generateWranglerConfig` and `generatePackageJson`: the deployment
 * descriptor and the package manifest of a generated server, as JSON values
 * and as the text `JSON.stringify` prints for them (tab indentation for
 * `wrangler.jsonc`, two spaces for `package.json`).
 */
module Descriptors {
  import opened Base
  import opened Text
  import opened Definitions
  import opened Json
  import Names
  import Composer

  const SchemaPath: string := "node_modules/wrangler/config-schema.json"
  /** The entry point Workers runs: the module `generateIndexTs` writes. */
  const MainModule: string := "src/index.ts"
  /** The binding through which the runtime reaches the server's Durable Object class. */
  const BindingName: string := "MCP_OBJECT"
  const MigrationTag: string := "v1"

  function Strings(xs: seq<string>): (r: Value)
    ensures r.Array? && |r.items| == |xs|
    ensures forall i :: 0 <= i < |xs| ==> r.items[i] == Str(xs[i])
  {
    Array(seq(|xs|, i requires 0 <= i < |xs| => Str(xs[i])))
  }

  /**
   * The compatibility members: `JSON.stringify` drops a member whose value
   * is `undefined`, so each is written only when the setting is present.
   */
  function CompatibilityMembers(w: WranglerConfig): seq<(string, Value)> {
    (if w.compatibilityDate.Some? then [("compatibility_date", Str(w.compatibilityDate.value))] else [])
    + (if w.compatibilityFlags.Some? then [("compatibility_flags", Strings(w.compatibilityFlags.value))] else [])
  }

  /** The members every descriptor starts with. */
  function WranglerHead(w: WranglerConfig): seq<(string, Value)> {
    [("$schema", Str(SchemaPath)),
     ("name", Str(w.name)),
     ("main", Str(MainModule))]
    + CompatibilityMembers(w)
  }

  /** `routes` and `vars` are spread in only when set. */
  function WranglerOptional(w: WranglerConfig): seq<(string, Value)> {
    (if w.routes.Some? then [("routes", Strings(w.routes.value))] else [])
    + (if w.vars.Some? then [("vars", Object(w.vars.value))] else [])
  }

  /** The migration that creates the server's Durable Object class. */
  function Migrations(cls: string): Value {
    Array([Object([("new_sqlite_classes", Array([Str(cls)])), ("tag", Str(MigrationTag))])])
  }

  /** The binding that exposes the class to the worker. */
  function DurableObjects(cls: string): Value {
    Object([("bindings", Array([Object([("class_name", Str(cls)), ("name", Str(BindingName))])]))])
  }

  /** The members every descriptor ends with. */
  function WranglerTail(cls: string): seq<(string, Value)> {
    [("migrations", Migrations(cls)),
     ("durable_objects", DurableObjects(cls)),
     ("observability", Object([("enabled", Bool(true))]))]
  }

  /** The object `generateWranglerConfig` builds. */
  function WranglerValue(c: ServerConfig): Value {
    Object(WranglerHead(c.wrangler) + WranglerOptional(c.wrangler) + WranglerTail(Names.PascalCase(c.name)))
  }

  /** `generateWranglerConfig(config)`. */
  function WranglerJsonc(c: ServerConfig): string {
    Pretty(WranglerValue(c), "\t", "")
  }

  /** Reading a member of an object value; anything else has no members. */
  function Member(v: Value, key: string): Option<Value> {
    if v.Object? then Lookup(v.fields, key) else None
  }

  function Item(v: Value, i: nat): Option<Value> {
    if v.Array? && i < |v.items| then Some(v.items[i]) else None
  }

  /** `durable_objects.bindings[0]`. */
  function FirstBinding(descriptor: Value): Option<Value> {
    var objects :- Member(descriptor, "durable_objects");
    var bindings :- Member(objects, "bindings");
    Item(bindings, 0)
  }

  /** The class the runtime binds: `durable_objects.bindings[0].class_name`. */
  function BoundClass(descriptor: Value): Option<Value> {
    var binding :- FirstBinding(descriptor);
    Member(binding, "class_name")
  }

  /** The binding's name: `durable_objects.bindings[0].name`. */
  function BoundName(descriptor: Value): Option<Value> {
    var binding :- FirstBinding(descriptor);
    Member(binding, "name")
  }

  /** The class the first migration creates: `migrations[0].new_sqlite_classes[0]`. */
  function MigratedClass(descriptor: Value): Option<Value> {
    var migrations :- Member(descriptor, "migrations");
    var first :- Item(migrations, 0);
    var classes :- Member(first, "new_sqlite_classes");
    Item(classes, 0)
  }

  /** A key outside the head and the optional members is read from the tail. */
  lemma ReadFromTail(c: ServerConfig, key: string)
    requires key !in Keys(WranglerHead(c.wrangler)) && key !in Keys(WranglerOptional(c.wrangler))
    ensures Member(WranglerValue(c), key) == Lookup(WranglerTail(Names.PascalCase(c.name)), key)
  {
    var h, o, t := WranglerHead(c.wrangler), WranglerOptional(c.wrangler), WranglerTail(Names.PascalCase(c.name));
    LookupAppend(h + o, t, key);
    LookupAppend(h, o, key);
    assert Keys(h + o) == Keys(h) + Keys(o);
  }

  /** A key of the head is read from the head. */
  lemma ReadFromHead(c: ServerConfig, key: string)
    requires key in Keys(WranglerHead(c.wrangler))
    ensures Member(WranglerValue(c), key) == Lookup(WranglerHead(c.wrangler), key)
  {
    var h, o, t := WranglerHead(c.wrangler), WranglerOptional(c.wrangler), WranglerTail(Names.PascalCase(c.name));
    LookupAppend(h + o, t, key);
    LookupAppend(h, o, key);
    assert Keys(h + o) == Keys(h) + Keys(o);
  }

  /** A key outside the head and the tail is read from the optional members. */
  lemma ReadFromOptional(c: ServerConfig, key: string)
    requires key !in Keys(WranglerHead(c.wrangler)) && key !in Keys(WranglerTail(Names.PascalCase(c.name)))
    ensures Member(WranglerValue(c), key) == Lookup(WranglerOptional(c.wrangler), key)
  {
    var h, o, t := WranglerHead(c.wrangler), WranglerOptional(c.wrangler), WranglerTail(Names.PascalCase(c.name));
    LookupAppend(h + o, t, key);
    LookupAppend(h, o, key);
    assert Keys(h + o) == Keys(h) + Keys(o);
  }

  /** The keys the head can hold. */
  const HeadKeyNames: set<string> := {"$schema", "name", "main", "compatibility_date", "compatibility_flags"}

  lemma HeadKeysKnown(w: WranglerConfig)
    ensures forall k :: k in Keys(WranglerHead(w)) ==> k in HeadKeyNames
  {
    var fixed: seq<(string, Value)> := [("$schema", Str(SchemaPath)), ("name", Str(w.name)), ("main", Str(MainModule))];
    assert Keys(WranglerHead(w)) == Keys(fixed) + Keys(CompatibilityMembers(w));
    CompatibilityKeysKnown(w);
  }

  lemma CompatibilityKeysKnown(w: WranglerConfig)
    ensures forall k :: k in Keys(CompatibilityMembers(w)) ==> k == "compatibility_date" || k == "compatibility_flags"
  {
    var d: seq<(string, Value)> :=
      if w.compatibilityDate.Some? then [("compatibility_date", Str(w.compatibilityDate.value))] else [];
    var f: seq<(string, Value)> :=
      if w.compatibilityFlags.Some? then [("compatibility_flags", Strings(w.compatibilityFlags.value))] else [];
    assert CompatibilityMembers(w) == d + f;
    assert Keys(d + f) == Keys(d) + Keys(f);
  }

  /** The keys the optional members can hold. */
  lemma OptionalKeysKnown(w: WranglerConfig)
    ensures forall k :: k in Keys(WranglerOptional(w)) ==> k == "routes" || k == "vars"
  {
    var r: seq<(string, Value)> := if w.routes.Some? then [("routes", Strings(w.routes.value))] else [];
    var v: seq<(string, Value)> := if w.vars.Some? then [("vars", Object(w.vars.value))] else [];
    assert WranglerOptional(w) == r + v;
    assert Keys(r + v) == Keys(r) + Keys(v);
  }

  lemma TailKeysKnown(cls: string)
    ensures Keys(WranglerTail(cls)) == ["migrations", "durable_objects", "observability"]
  {
  }

  /** The optional members, by key. */
  lemma OptionalKeys(w: WranglerConfig)
    ensures "routes" in Keys(WranglerOptional(w)) <==> w.routes.Some?
    ensures "vars" in Keys(WranglerOptional(w)) <==> w.vars.Some?
    ensures w.routes.Some? ==> Lookup(WranglerOptional(w), "routes") == Some(Strings(w.routes.value))
    ensures w.vars.Some? ==> Lookup(WranglerOptional(w), "vars") == Some(Object(w.vars.value))
  {
    var r: seq<(string, Value)> := if w.routes.Some? then [("routes", Strings(w.routes.value))] else [];
    var v: seq<(string, Value)> := if w.vars.Some? then [("vars", Object(w.vars.value))] else [];
    assert WranglerOptional(w) == r + v;
    assert Keys(r + v) == Keys(r) + Keys(v);
    LookupAppend(r, v, "routes");
    LookupAppend(r, v, "vars");
  }

  /** The compatibility members, by key. */
  lemma CompatibilityKeys(w: WranglerConfig)
    ensures "compatibility_date" in Keys(CompatibilityMembers(w)) <==> w.compatibilityDate.Some?
    ensures "compatibility_flags" in Keys(CompatibilityMembers(w)) <==> w.compatibilityFlags.Some?
    ensures w.compatibilityDate.Some? ==>
              Lookup(CompatibilityMembers(w), "compatibility_date") == Some(Str(w.compatibilityDate.value))
    ensures w.compatibilityFlags.Some? ==>
              Lookup(CompatibilityMembers(w), "compatibility_flags") == Some(Strings(w.compatibilityFlags.value))
  {
    var d: seq<(string, Value)> :=
      if w.compatibilityDate.Some? then [("compatibility_date", Str(w.compatibilityDate.value))] else [];
    var f: seq<(string, Value)> :=
      if w.compatibilityFlags.Some? then [("compatibility_flags", Strings(w.compatibilityFlags.value))] else [];
    assert CompatibilityMembers(w) == d + f;
    assert Keys(d + f) == Keys(d) + Keys(f);
    LookupAppend(d, f, "compatibility_date");
    LookupAppend(d, f, "compatibility_flags");
  }

  /** A compatibility key is read from the compatibility members, or is absent with them. */
  lemma ReadCompatibility(c: ServerConfig, key: string)
    requires key == "compatibility_date" || key == "compatibility_flags"
    ensures Member(WranglerValue(c), key) == Lookup(CompatibilityMembers(c.wrangler), key)
  {
    var w := c.wrangler;
    var fixed: seq<(string, Value)> := [("$schema", Str(SchemaPath)), ("name", Str(w.name)), ("main", Str(MainModule))];
    assert key !in Keys(fixed);
    LookupAppend(fixed, CompatibilityMembers(w), key);
    assert Keys(WranglerHead(w)) == Keys(fixed) + Keys(CompatibilityMembers(w));
    if key in Keys(WranglerHead(w)) {
      ReadFromHead(c, key);
    } else {
      OptionalKeysKnown(w);
      ReadFromTail(c, key);
      TailKeysKnown(Names.PascalCase(c.name));
    }
  }

  /**
   * The descriptor carries `compatibility_date` and `compatibility_flags`
   * exactly when the settings hold them, and then with the stored values.
   */
  lemma WranglerCompatibilityMembers(c: ServerConfig)
    ensures Member(WranglerValue(c), "compatibility_date").Some? <==> c.wrangler.compatibilityDate.Some?
    ensures c.wrangler.compatibilityDate.Some? ==>
              Member(WranglerValue(c), "compatibility_date") == Some(Str(c.wrangler.compatibilityDate.value))
    ensures Member(WranglerValue(c), "compatibility_flags").Some? <==> c.wrangler.compatibilityFlags.Some?
    ensures c.wrangler.compatibilityFlags.Some? ==>
              Member(WranglerValue(c), "compatibility_flags") == Some(Strings(c.wrangler.compatibilityFlags.value))
  {
    CompatibilityKeys(c.wrangler);
    ReadCompatibility(c, "compatibility_date");
    ReadCompatibility(c, "compatibility_flags");
  }

  /** `routes` is present exactly when set, and then holds the configured routes unchanged. */
  lemma WranglerRoutesMember(c: ServerConfig)
    ensures Member(WranglerValue(c), "routes").Some? <==> c.wrangler.routes.Some?
    ensures c.wrangler.routes.Some? ==> Member(WranglerValue(c), "routes") == Some(Strings(c.wrangler.routes.value))
  {
    HeadKeysKnown(c.wrangler);
    TailKeysKnown(Names.PascalCase(c.name));
    ReadFromOptional(c, "routes");
    OptionalKeys(c.wrangler);
  }

  /** `vars` is present exactly when set, and then holds the configured variables unchanged. */
  lemma WranglerVarsMember(c: ServerConfig)
    ensures Member(WranglerValue(c), "vars").Some? <==> c.wrangler.vars.Some?
    ensures c.wrangler.vars.Some? ==> Member(WranglerValue(c), "vars") == Some(Object(c.wrangler.vars.value))
  {
    HeadKeysKnown(c.wrangler);
    TailKeysKnown(Names.PascalCase(c.name));
    ReadFromOptional(c, "vars");
    OptionalKeys(c.wrangler);
  }

  /** The tail's binding and migration both name the class. */
  lemma TailNamesClass(cls: string)
    ensures Lookup(WranglerTail(cls), "durable_objects") == Some(DurableObjects(cls))
    ensures Lookup(WranglerTail(cls), "migrations") == Some(Migrations(cls))
  {
  }

  /** Reading the class back out of the binding and the migration. */
  lemma ClassReadBack(cls: string)
    ensures Member(DurableObjects(cls), "bindings").Some?
    ensures Item(Member(DurableObjects(cls), "bindings").value, 0)
            == Some(Object([("class_name", Str(cls)), ("name", Str(BindingName))]))
    ensures Member(Object([("class_name", Str(cls)), ("name", Str(BindingName))]), "class_name") == Some(Str(cls))
    ensures Member(Object([("class_name", Str(cls)), ("name", Str(BindingName))]), "name") == Some(Str(BindingName))
    ensures Item(Migrations(cls), 0).Some?
    ensures Member(Item(Migrations(cls), 0).value, "new_sqlite_classes") == Some(Array([Str(cls)]))
  {
    LookupFirst([("class_name", Str(cls)), ("name", Str(BindingName))], "name", 1);
  }

  /** Neither tail key is a head or optional key. */
  lemma TailKeysAreFresh(w: WranglerConfig)
    ensures "durable_objects" !in Keys(WranglerHead(w)) && "durable_objects" !in Keys(WranglerOptional(w))
    ensures "migrations" !in Keys(WranglerHead(w)) && "migrations" !in Keys(WranglerOptional(w))
  {
  }

  /**
   * The Durable Object class the descriptor binds, under the name
   * `MCP_OBJECT`, is the class its migration creates: the Pascal-case form
   * of the server name.
   */
  lemma WranglerBindsServerClass(c: ServerConfig)
    ensures BoundClass(WranglerValue(c)) == Some(Str(Names.PascalCase(c.name)))
    ensures BoundName(WranglerValue(c)) == Some(Str(BindingName))
    ensures MigratedClass(WranglerValue(c)) == Some(Str(Names.PascalCase(c.name)))
  {
    var cls := Names.PascalCase(c.name);
    TailKeysAreFresh(c.wrangler);
    ReadFromTail(c, "durable_objects");
    ReadFromTail(c, "migrations");
    TailNamesClass(cls);
    ClassReadBack(cls);
  }

  /** ... and that class is the one the generated module declares. */
  lemma WranglerBindsExportedClass(c: ServerConfig)
    ensures BoundClass(WranglerValue(c)) == Some(Str(Names.PascalCase(c.name)))
    ensures Contains(Composer.IndexTs(c), Composer.ClassOpen + Names.PascalCase(c.name) + Composer.ClassExtends)
  {
    WranglerBindsServerClass(c);
    Composer.IndexDeclaresServerClass(c);
  }

  /** The descriptor names `src/index.ts`, the module the generator writes, as its entry point. */
  lemma WranglerMain(c: ServerConfig)
    ensures Member(WranglerValue(c), "main") == Some(Str(MainModule))
    ensures Member(WranglerValue(c), "name") == Some(Str(c.wrangler.name))
  {
    assert Keys(WranglerHead(c.wrangler))[1] == "name";
    assert Keys(WranglerHead(c.wrangler))[2] == "main";
    LookupFirst(WranglerHead(c.wrangler), "main", 2);
    ReadFromHead(c, "main");
    ReadFromHead(c, "name");
  }

  /** The printed descriptor carries the worker name on its own top-level line. */
  lemma WranglerNameLine(c: ServerConfig)
    ensures Contains(WranglerJsonc(c), "\n\t" + (Quote("name") + ": " + Quote(c.wrangler.name)))
  {
    WranglerMain(c);
    NameLine(WranglerValue(c).fields, c.wrangler.name);
  }

  /** A top-level string member printed with tab indentation. */
  lemma NameLine(fields: seq<(string, Value)>, name: string)
    requires Lookup(fields, "name") == Some(Str(name))
    ensures Contains(Pretty(Object(fields), "\t", ""), "\n\t" + (Quote("name") + ": " + Quote(name)))
  {
    PrettyLookup(fields, "\t", "", "name");
    assert "" + "\t" == "\t";
    assert Pretty(Str(name), "\t", "\t") == Quote(name);
    assert "\n" + "" + "\t" == "\n\t";
  }

  /** The dependency versions `generatePackageJson` pins. */
  const Dependencies: seq<(string, Value)> := [
    ("@modelcontextprotocol/sdk", Str("1.17.3")),
    ("agents", Str("^0.0.113")),
    ("zod", Str("^3.25.76"))
  ]

  const DevDependencies: seq<(string, Value)> := [
    ("@biomejs/biome", Str("^2.2.2")),
    ("typescript", Str("5.9.2")),
    ("wrangler", Str("^4.33.1"))
  ]

  const Scripts: seq<(string, Value)> := [
    ("deploy", Str("wrangler deploy")),
    ("dev", Str("wrangler dev")),
    ("format", Str("biome format --write")),
    ("lint:fix", Str("biome lint --fix")),
    ("start", Str("wrangler dev")),
    ("cf-typegen", Str("wrangler types")),
    ("type-check", Str("tsc --noEmit"))
  ]

  /** The object `generatePackageJson` builds. */
  function PackageValue(c: ServerConfig): Value {
    Object([("name", Str(c.name)), ("version", Str(c.version)), ("description", Str(c.description)),
            ("private", Bool(true)), ("scripts", Object(Scripts)),
            ("dependencies", Object(Dependencies)), ("devDependencies", Object(DevDependencies))])
  }

  /** `generatePackageJson(config)`. */
  function PackageJson(c: ServerConfig): string {
    Pretty(PackageValue(c), "  ", "")
  }

  /** The manifest declares exactly the packages installed into a new server's environment. */
  lemma DependenciesAreSdkPackages()
    ensures multiset(Keys(Dependencies)) == multiset(SdkPackages)
  {
    assert Keys(Dependencies) == SdkPackages;
  }

  /** How a bare import specifier names a package: the package itself or a path inside it. */
  predicate ResolvesTo(specifier: string, package: string) {
    specifier == package || StartsWith(specifier, package + "/")
  }

  /** Every module the generated source imports comes from a declared dependency. */
  lemma ImportsAreDeclared(i: nat)
    requires i < |Composer.ImportedModules|
    ensures exists k :: k in Keys(Dependencies) && ResolvesTo(Composer.ImportedModules[i], k)
  {
    var keys := Keys(Dependencies);
    if i == 0 {
      StartsWithConcat("agents" + "/", "mcp");
      assert ResolvesTo(Composer.ImportedModules[0], keys[1]);
    } else if i == 1 {
      StartsWithConcat("@modelcontextprotocol/sdk" + "/", "server/mcp.js");
      assert ResolvesTo(Composer.ImportedModules[1], keys[0]);
    } else {
      assert ResolvesTo(Composer.ImportedModules[2], keys[2]);
    }
  }

  /** The manifest is named after the server and carries its version. */
  lemma PackageIdentity(c: ServerConfig)
    ensures Member(PackageValue(c), "name") == Some(Str(c.name))
    ensures Member(PackageValue(c), "version") == Some(Str(c.version))
  {
    var fields := PackageValue(c).fields;
    assert fields[0].0 != "version";
    LookupFirst(fields, "version", 1);
  }

  /** The manifest is private and pins the server's runtime dependencies. */
  lemma PackagePrivateDependencies(c: ServerConfig)
    ensures Member(PackageValue(c), "private") == Some(Bool(true))
    ensures Member(PackageValue(c), "dependencies") == Some(Object(Dependencies))
  {
    var fields := PackageValue(c).fields;
    assert |fields[0].0| != |"private"| && |fields[2].0| != |"private"|;
    assert fields[1].0[0] != "private"[0];
    LookupFirst(fields, "private", 3);
    assert forall j :: 0 <= j < 5 ==> |fields[j].0| != |"dependencies"|;
    LookupFirst(fields, "dependencies", 5);
  }

  /** `npm start` runs the same command as `npm run dev`. */
  lemma StartIsDev()
    ensures Lookup(Scripts, "start") == Lookup(Scripts, "dev")
  {
    LookupFirst(Scripts, "start", 4);
    LookupFirst(Scripts, "dev", 1);
  }
}

=== FILE: fragments.dfy ===
/**
 * The code fragments registered on a generated server.  Two generators exist
 * and they differ: the per-add builders of `add_mcp_tool`, `add_mcp_resource`
 * and `add_mcp_prompt` produce the text sent to the container, and
 * `generateIndexTs` rebuilds a fragment from each stored definition.  Every
 * value is interpolated as it is; nothing is escaped.
 *
 * Literal pieces are written as concatenations where a lemma needs to know
 * how a piece begins or ends; the text is the same either way.
 */
module Fragments {
  import opened Text
  import opened Template
  import opened Definitions
  import Schema

  /** `${b}` for a boolean. */
  function BoolText(b: bool): (r: string)
    ensures r == "true" <==> b
    ensures r == "false" <==> !b
  {
    if b then "true" else "false"
  }

  /** The opening and closing of the `try` block that wraps an implementation. */
  const TryOpen: string := "try {\n\t\t\t\t\t"
  const TryClose: string := "\n\t\t\t\t} catch (error) {"

  const ErrorText: string := "`Error: ${error instanceof Error ? error.message : String(error)}`"

  // ---------------------------------------------------------------- tools

  const ToolCatch: string :=
    "\n\t\t\t\t\treturn {\n\t\t\t\t\t\tcontent: [{\n\t\t\t\t\t\t\ttype: \"text\",\n\t\t\t\t\t\t\ttext: "
    + ErrorText + "\n\t\t\t\t\t\t}]\n\t\t\t\t\t};\n\t\t\t\t}\n\t\t\t}\n\t\t);"

  /** Holes: description, tool name, Zod parameter text, implementation. */
  const ToolLits: seq<string> := [
    "// ",
    "\n" + "\t\tthis.server.tool(\n\t\t\t" + "\"",
    "\"" + ",\n\t\t\t" + "{\n\t\t\t\t",
    "\n\t\t\t}" + ",\n\t\t\tasync (params) => {\n\t\t\t\t" + TryOpen,
    TryClose + ToolCatch
  ]

  /** The `toolCode` of `add_mcp_tool`. */
  function ToolCode(description: string, toolName: string, parameters: Schema.Params,
                    implementation: string): string
  {
    Fill(ToolLits, [description, toolName, Schema.ZodParams(parameters), implementation])
  }

  /** The tool code opens with the description as a line comment. */
  lemma ToolCodeComment(description: string, toolName: string, parameters: Schema.Params,
                        implementation: string)
    ensures StartsWith(ToolCode(description, toolName, parameters, implementation),
                       "// " + description + "\n")
  {
    var vals := [description, toolName, Schema.ZodParams(parameters), implementation];
    StartsWithConcat3("\n", "\t\tthis.server.tool(\n\t\t\t", "\"");
    ValueInContext(ToolLits, vals, 0, "// ", "\n");
    assert ToolLits[..1] == ["// "] && vals[..0] == [];
    AtPosStart(Fill(ToolLits, vals), "// " + description + "\n");
  }

  /** The tool is registered under its name, in double quotes. */
  lemma ToolCodeName(description: string, toolName: string, parameters: Schema.Params,
                     implementation: string)
    ensures Contains(ToolCode(description, toolName, parameters, implementation),
                     "\"" + toolName + "\"")
  {
    EndsWithConcat3("\n", "\t\tthis.server.tool(\n\t\t\t", "\"");
    StartsWithConcat3("\"", ",\n\t\t\t", "{\n\t\t\t\t");
    ValueContained(ToolLits, [description, toolName, Schema.ZodParams(parameters), implementation],
                   1, "\"", "\"");
  }

  /** The translated parameters form the body of the schema object. */
  lemma ToolCodeSchema(description: string, toolName: string, parameters: Schema.Params,
                       implementation: string)
    ensures Contains(ToolCode(description, toolName, parameters, implementation),
                     "{\n\t\t\t\t" + Schema.ZodParams(parameters) + "\n\t\t\t}")
  {
    EndsWithConcat3("\"", ",\n\t\t\t", "{\n\t\t\t\t");
    StartsWithConcat3("\n\t\t\t}", ",\n\t\t\tasync (params) => {\n\t\t\t\t", TryOpen);
    ValueContained(ToolLits, [description, toolName, Schema.ZodParams(parameters), implementation],
                   2, "{\n\t\t\t\t", "\n\t\t\t}");
  }

  /** The implementation runs verbatim inside the handler's `try` block. */
  lemma ToolCodeImplementation(description: string, toolName: string, parameters: Schema.Params,
                               implementation: string)
    ensures Contains(ToolCode(description, toolName, parameters, implementation),
                     TryOpen + implementation + TryClose)
  {
    EndsWithConcat3("\n\t\t\t}", ",\n\t\t\tasync (params) => {\n\t\t\t\t", TryOpen);
    StartsWithConcat(TryClose, ToolCatch);
    ValueContained(ToolLits, [description, toolName, Schema.ZodParams(parameters), implementation],
                   3, TryOpen, TryClose);
  }

  /** The index generator's tool literals: `"\n\t\t// "`, then the same pieces as the tool code. */
  const IndexToolLits: seq<string> := ["\n\t\t" + ToolLits[0]] + ToolLits[1..]

  /** The tool fragment of `generateIndexTs`. */
  function IndexToolFragment(t: Tool): string {
    Fill(IndexToolLits, [t.description, t.name, Schema.ZodParams(t.parameters), t.implementation])
  }

  /**
   * The two tool generators agree: the index fragment is the container's tool
   * code behind a line break and two tabs.
   */
  lemma IndexToolMatchesAdd(t: Tool)
    ensures IndexToolFragment(t)
            == "\n\t\t" + ToolCode(t.description, t.name, t.parameters, t.implementation)
  {
    FillFront("\n\t\t", ToolLits, [t.description, t.name, Schema.ZodParams(t.parameters), t.implementation]);
  }

  // ------------------------------------------------------------ resources

  const RegisterResource: string := "this.server.resource(\n\t\t\t\""
  const ContentOpen: string := "const content = "

  /** Holes: description, URI, implementation, URI, name, MIME type. */
  const ResourceLits: seq<string> := [
    "// ",
    "\n\t\t" + RegisterResource,
    "\"" + ResourceMiddle + ContentOpen,
    ";" + ResourceBack + "uri: \"",
    "\"" + ",\n\t\t\t\t\t\t\tname: \"",
    "\",\n\t\t\t\t\t\t\tmimeType: \"",
    "\",\n\t\t\t\t\t\t\ttext: content\n\t\t\t\t\t\t}]\n\t\t\t\t\t};\n\t\t\t\t} catch (error) {\n\t\t\t\t\tthrow new Error(`Failed to generate resource: ${error instanceof Error ? error.message : String(error)}`);\n\t\t\t\t}\n\t\t\t}\n\t\t);"
  ]

  /** The `resourceCode` of `add_mcp_resource`. */
  function ResourceCode(description: string, uri: string, name: string, mimeType: string,
                        implementation: string): string
  {
    Fill(ResourceLits, [description, uri, implementation, uri, name, mimeType])
  }

  const ResourceMiddle: string := ",\n\t\t\tasync () => {\n\t\t\t\ttry {\n\t\t\t\t\t"
  const ResourceBack: string := "\n\t\t\t\t\treturn {\n\t\t\t\t\t\tcontents: [{\n\t\t\t\t\t\t\t"

  /** The container's resource code uses the implementation as an expression. */
  lemma ResourceCodeExpression(description: string, uri: string, name: string, mimeType: string,
                               implementation: string)
    ensures Contains(ResourceCode(description, uri, name, mimeType, implementation),
                     ContentOpen + implementation + ";")
  {
    EndsWithConcat3("\"", ResourceMiddle, ContentOpen);
    StartsWithConcat3(";", ResourceBack, "uri: \"");
    ValueContained(ResourceLits, [description, uri, implementation, uri, name, mimeType],
                   2, ContentOpen, ";");
  }

  /** The resource is registered under its URI and returns that URI in its contents. */
  lemma ResourceCodeUri(description: string, uri: string, name: string, mimeType: string,
                        implementation: string)
    ensures Contains(ResourceCode(description, uri, name, mimeType, implementation),
                     RegisterResource + uri + "\"")
    ensures Contains(ResourceCode(description, uri, name, mimeType, implementation),
                     "uri: \"" + uri + "\"")
  {
    var vals := [description, uri, implementation, uri, name, mimeType];
    EndsWithConcat("\n\t\t", RegisterResource);
    StartsWithConcat3("\"", ResourceMiddle, ContentOpen);
    ValueContained(ResourceLits, vals, 1, RegisterResource, "\"");
    EndsWithConcat3(";", ResourceBack, "uri: \"");
    StartsWithConcat("\"", ",\n\t\t\t\t\t\t\tname: \"");
    ValueContained(ResourceLits, vals, 3, "uri: \"", "\"");
  }

  /** Holes: name, URI, name, description, MIME type, implementation, URI. */
  const IndexResourceLits: seq<string> := [
    "\n\t\t// Resource: ",
    "\n\t\t" + RegisterResource,
    "\"" + ",\n\t\t\t{\n\t\t\t\tname: \"",
    "\",\n\t\t\t\tdescription: \"",
    "\",\n\t\t\t\tmimeType: \"",
    "\"\n\t\t\t},\n\t\t\tasync () => {\n\t\t\t\t" + TryOpen,
    TryClose + "\n\t\t\t\t\treturn {\n\t\t\t\t\t\tcontents: [{\n\t\t\t\t\t\t\turi: \"",
    "\",\n\t\t\t\t\t\t\tmimeType: \"text/plain\",\n\t\t\t\t\t\t\ttext: " + ErrorText
      + "\n\t\t\t\t\t\t}]\n\t\t\t\t\t};\n\t\t\t\t}\n\t\t\t}\n\t\t);"
  ]

  /** The resource fragment of `generateIndexTs`. */
  function IndexResourceFragment(res: Resource): string {
    Fill(IndexResourceLits,
         [res.name, res.uri, res.name, res.description, res.mimeType, res.implementation, res.uri])
  }

  /**
   * The index generator, unlike the container's resource code, runs the
   * implementation as a statement block inside `try`.
   */
  lemma IndexResourceStatement(res: Resource)
    ensures Contains(IndexResourceFragment(res), TryOpen + res.implementation + TryClose)
  {
    EndsWithConcat("\"\n\t\t\t},\n\t\t\tasync () => {\n\t\t\t\t", TryOpen);
    StartsWithConcat(TryClose, "\n\t\t\t\t\treturn {\n\t\t\t\t\t\tcontents: [{\n\t\t\t\t\t\t\turi: \"");
    ValueContained(IndexResourceLits,
                   [res.name, res.uri, res.name, res.description, res.mimeType, res.implementation, res.uri],
                   5, TryOpen, TryClose);
  }

  /** The index resource fragment registers the resource under the same URI. */
  lemma IndexResourceUri(res: Resource)
    ensures Contains(IndexResourceFragment(res), RegisterResource + res.uri + "\"")
  {
    EndsWithConcat("\n\t\t", RegisterResource);
    StartsWithConcat("\"", ",\n\t\t\t{\n\t\t\t\tname: \"");
    ValueContained(IndexResourceLits,
                   [res.name, res.uri, res.name, res.description, res.mimeType, res.implementation, res.uri],
                   1, RegisterResource, "\"");
  }

  // -------------------------------------------------------------- prompts

  const ArgSeparator: string := ",\n\t\t\t"

  /** One argument object of `add_mcp_prompt`'s argument list. */
  function ArgEntry(a: PromptArgument): (r: string)
    ensures StartsWith(r, "{")
  {
    var lits := ["{" + "\n\t\t\t\t\t\t\tname: \"", "\",\n\t\t\t\t\t\t\tdescription: \"",
                 "\",\n\t\t\t\t\t\t\trequired: ", "\n\t\t\t\t\t\t}"];
    var vals := [a.name, a.description, BoolText(a.required)];
    FillStartsWithFirst(lits, vals);
    StartsWithConcat("{", "\n\t\t\t\t\t\t\tname: \"");
    StartsWithTrans(Fill(lits, vals), lits[0], "{");
    Fill(lits, vals)
  }

  function ArgEntries(args: seq<PromptArgument>): (r: seq<string>)
    ensures |r| == |args|
    ensures forall i :: 0 <= i < |args| ==> r[i] == ArgEntry(args[i])
  {
    seq(|args|, i requires 0 <= i < |args| => ArgEntry(args[i]))
  }

  /** `argsDefinition`: the joined entries, or `''` when there are no arguments. */
  function ArgsDefinition(args: seq<PromptArgument>): string {
    if |args| > 0 then Join(ArgEntries(args), ArgSeparator) else ""
  }

  /** The argument-list text: `[<argsDefinition>]` when that is truthy, else `[]`. */
  function ArgsList(args: seq<PromptArgument>): string {
    var d := ArgsDefinition(args);
    if d != "" then "[" + d + "]" else "[]"
  }

  /**
   * Both branches of the argument list produce the same shape: the entries of
   * all arguments, in order, between brackets.
   */
  lemma ArgsListBracketed(args: seq<PromptArgument>)
    ensures ArgsList(args) == "[" + Join(ArgEntries(args), ArgSeparator) + "]"
  {
  }

  /** Argument `i` has its own entry, followed by the separator and the next one. */
  lemma ArgEntriesInOrder(args: seq<PromptArgument>, i: nat)
    requires i < |args|
    ensures AtPos(Join(ArgEntries(args), ArgSeparator), ArgEntry(args[i]),
                  JoinOffset(ArgEntries(args), ArgSeparator, i))
    ensures i + 1 < |args| ==>
              AtPos(Join(ArgEntries(args), ArgSeparator), ArgSeparator,
                    JoinOffset(ArgEntries(args), ArgSeparator, i) + |ArgEntry(args[i])|)
  {
    JoinNeighbours(ArgEntries(args), ArgSeparator, i);
  }

  /** `if (args.<n>) result = result.replace(/\{\{<n>\}\}/g, args.<n>);` */
  function PlaceholderLine(a: PromptArgument): string {
    Fill(["if (args.", ") result = result.replace(/\\{\\{", "\\}\\}/g, args.", ");"],
         [a.name, a.name, a.name])
  }

  function PlaceholderLines(args: seq<PromptArgument>): (r: seq<string>)
    ensures |r| == |args|
    ensures forall i :: 0 <= i < |args| ==> r[i] == PlaceholderLine(args[i])
  {
    seq(|args|, i requires 0 <= i < |args| => PlaceholderLine(args[i]))
  }

  const PlaceholderSeparator: string := "\n\t\t\t\t\t"

  const ResultOpen: string := "let result = `"

  /** Holes: description, prompt name, argument list, template, placeholder lines. */
  const PromptLits: seq<string> := [
    "// ",
    "\n\t\tthis.server.prompt(\n\t\t\t" + "\"",
    "\",\n\t\t\t",
    "," + PromptSetup + ResultOpen,
    "`;" + "\n\t\t\t\t\t",
    "\n\n\t\t\t\t\treturn {\n\t\t\t\t\t\tmessages: [{\n\t\t\t\t\t\t\trole: \"user\",\n\t\t\t\t\t\t\tcontent: { type: \"text\", text: result }\n\t\t\t\t\t\t}]\n\t\t\t\t\t};\n\t\t\t\t} catch (error) {\n\t\t\t\t\tthrow new Error(`Failed to generate prompt: ${error instanceof Error ? error.message : String(error)}`);\n\t\t\t\t}\n\t\t\t}\n\t\t);"
  ]

  /** The `promptCode` of `add_mcp_prompt`. */
  function PromptCode(description: string, promptName: string, args: seq<PromptArgument>,
                      template: string): string
  {
    Fill(PromptLits, [description, promptName, ArgsList(args), template,
                      Join(PlaceholderLines(args), PlaceholderSeparator)])
  }

  const PromptSetup: string :=
    "\n\t\t\tasync (args) => {\n\t\t\t\ttry {\n\t\t\t\t\t// Replace template placeholders with argument values\n\t\t\t\t\t"

  /** The argument list is passed straight after the quoted prompt name. */
  lemma PromptCodeArguments(description: string, promptName: string, args: seq<PromptArgument>,
                            template: string)
    ensures Contains(PromptCode(description, promptName, args, template),
                     "\"" + promptName + "\",\n\t\t\t" + ArgsList(args) + ",")
  {
    var lines := Join(PlaceholderLines(args), PlaceholderSeparator);
    EndsWithConcat("\n\t\tthis.server.prompt(\n\t\t\t", "\"");
    StartsWithConcat3(",", PromptSetup, ResultOpen);
    AdjacentValues(PromptLits, [description, promptName, ArgsList(args), template, lines], 1, "\"", ",");
  }

  /** The template is embedded verbatim in a backtick literal. */
  lemma PromptCodeTemplate(description: string, promptName: string, args: seq<PromptArgument>,
                           template: string)
    ensures Contains(PromptCode(description, promptName, args, template), ResultOpen + template + "`;")
  {
    var lines := Join(PlaceholderLines(args), PlaceholderSeparator);
    EndsWithConcat3(",", PromptSetup, ResultOpen);
    StartsWithConcat("`;", "\n\t\t\t\t\t");
    ValueContained(PromptLits, [description, promptName, ArgsList(args), template, lines],
                   3, ResultOpen, "`;");
  }

  /** Every argument gets its own placeholder substitution line. */
  lemma PromptCodePlaceholders(description: string, promptName: string, args: seq<PromptArgument>,
                               template: string, i: nat)
    requires i < |args|
    ensures Contains(PromptCode(description, promptName, args, template), PlaceholderLine(args[i]))
  {
    var lines := Join(PlaceholderLines(args), PlaceholderSeparator);
    PieceOfJoinedValue(PromptLits, [description, promptName, ArgsList(args), template, lines], 4,
                       PlaceholderLines(args), PlaceholderSeparator, i);
  }

  /** One argument object of the index generator's prompt metadata. */
  function IndexArgEntry(a: PromptArgument): string {
    Fill(["{\n\t\t\t\t\tname: \"", "\",\n\t\t\t\t\tdescription: \"", "\",\n\t\t\t\t\trequired: ", "\n\t\t\t\t}"],
         [a.name, a.description, BoolText(a.required)])
  }

  function IndexArgEntries(args: seq<PromptArgument>): (r: seq<string>)
    ensures |r| == |args|
    ensures forall i :: 0 <= i < |args| ==> r[i] == IndexArgEntry(args[i])
  {
    seq(|args|, i requires 0 <= i < |args| => IndexArgEntry(args[i]))
  }

  const TemplateOpen: string := "let template = `"

  /** Holes: name, name, description, argument entries, template. */
  const IndexPromptLits: seq<string> := [
    "\n\t\t// Prompt: ",
    "\n\t\tthis.server.prompt(\n\t\t\t\"",
    "\",\n\t\t\t{\n\t\t\t\tdescription: \"",
    "\",\n\t\t\t\targuments: [\n\t\t\t\t\t",
    "\n\t\t\t\t]\n\t\t\t},\n\t\t\tasync (args) => {\n\t\t\t\t" + TemplateOpen,
    "`;" + TemplateTail
  ]

  const TemplateTail: string :=
    "\n\t\t\t\tfor (const [key, value] of Object.entries(args)) {\n\t\t\t\t\ttemplate = template.replace(new RegExp(`{{\\\\s*${key}\\\\s*}}`, 'g'), String(value));\n\t\t\t\t}\n\t\t\t\treturn {\n\t\t\t\t\tmessages: [{\n\t\t\t\t\t\trole: \"user\",\n\t\t\t\t\t\tcontent: { type: \"text\", text: template }\n\t\t\t\t\t}]\n\t\t\t\t};\n\t\t\t}\n\t\t);"

  /** The prompt fragment of `generateIndexTs`. */
  function IndexPromptFragment(p: Prompt): string {
    Fill(IndexPromptLits,
         [p.name, p.name, p.description, Join(IndexArgEntries(p.arguments), ArgSeparator), p.template])
  }

  /** The index prompt fragment embeds the template verbatim in a backtick literal. */
  lemma IndexPromptTemplate(p: Prompt)
    ensures Contains(IndexPromptFragment(p), TemplateOpen + p.template + "`;")
  {
    var entries := Join(IndexArgEntries(p.arguments), ArgSeparator);
    EndsWithConcat("\n\t\t\t\t]\n\t\t\t},\n\t\t\tasync (args) => {\n\t\t\t\t", TemplateOpen);
    StartsWithConcat("`;", TemplateTail);
    ValueContained(IndexPromptLits, [p.name, p.name, p.description, entries, p.template],
                   4, TemplateOpen, "`;");
  }

  /** Every argument of the prompt has its entry in the `arguments` array. */
  lemma IndexPromptArguments(p: Prompt, i: nat)
    requires i < |p.arguments|
    ensures Contains(IndexPromptFragment(p), IndexArgEntry(p.arguments[i]))
  {
    var entries := Join(IndexArgEntries(p.arguments), ArgSeparator);
    PieceOfJoinedValue(IndexPromptLits, [p.name, p.name, p.description, entries, p.template], 3,
                       IndexArgEntries(p.arguments), ArgSeparator, i);
  }
}

=== FILE: json.dfy ===
/**
 * The JSON values that appear as parameter defaults, wrangler `vars` and server
 * metadata, and the compact `JSON.stringify` rendering the schema translator
 * uses for a `.default(...)` qualifier.  Numbers are integers.
 */
module Json {
  import opened Base
  import opened Text

  datatype Value =
    | Null
    | Bool(b: bool)
    | Number(n: int)
    | Str(s: string)
    | Array(items: seq<Value>)
    | Object(fields: seq<(string, Value)>)

  /** A character JSON.stringify must not emit raw inside a string literal. */
  predicate IsControl(c: char) { c as int < 0x20 }

  function HexDigit(d: nat): (c: char)
    requires d < 16
    ensures !IsControl(c)
  {
    if d < 10 then ('0' as int + d) as char else ('a' as int + d - 10) as char
  }

  /** The escape JSON.stringify writes for one character of a string. */
  function EscapeChar(c: char): (r: string)
    ensures forall i :: 0 <= i < |r| ==> !IsControl(r[i])
    ensures !IsControl(c) && c != '"' && c != '\\' ==> r == [c]
  {
    if c == '"' then "\\\""
    else if c == '\\' then "\\\\"
    else if c == '\n' then "\\n"
    else if c == '\r' then "\\r"
    else if c == '\t' then "\\t"
    else if c as int == 8 then "\\b"
    else if c as int == 12 then "\\f"
    else if IsControl(c) then "\\u00" + [HexDigit(c as int / 16), HexDigit(c as int % 16)]
    else [c]
  }

  function EscapeString(s: string): (r: string)
    ensures forall i :: 0 <= i < |r| ==> !IsControl(r[i])
  {
    if |s| == 0 then "" else EscapeChar(s[0]) + EscapeString(s[1..])
  }

  /** A JSON string literal: quotes around the escaped text. */
  function Quote(s: string): (r: string)
    ensures |r| >= 2 && r[0] == '"' && r[|r| - 1] == '"'
    ensures forall i :: 0 <= i < |r| ==> !IsControl(r[i])
  {
    "\"" + EscapeString(s) + "\""
  }

  function DigitText(n: nat): (r: string)
    ensures |r| > 0
    ensures forall i :: 0 <= i < |r| ==> IsDigit(r[i])
  {
    if n < 10 then [('0' as int + n) as char]
    else DigitText(n / 10) + [('0' as int + n % 10) as char]
  }

  function NumberText(n: int): (r: string)
    ensures |r| > 0
    ensures forall i :: 0 <= i < |r| ==> IsDigit(r[i]) || r[i] == '-'
  {
    if n < 0 then "-" + DigitText(-n) else DigitText(n)
  }

  /** `JSON.stringify(v)` with no indentation argument. */
  function Stringify(v: Value): (r: string)
    decreases v
  {
    match v
    case Null => "null"
    case Bool(b) => if b then "true" else "false"
    case Number(n) => NumberText(n)
    case Str(s) => Quote(s)
    case Array(items) =>
      "[" + Join(seq(|items|, i requires 0 <= i < |items| => Stringify(items[i])), ",") + "]"
    case Object(fields) =>
      "{" + Join(seq(|fields|, i requires 0 <= i < |fields| =>
                       Quote(fields[i].0) + ":" + Stringify(fields[i].1)), ",") + "}"
  }

  predicate NoControl(s: string) { forall i :: 0 <= i < |s| ==> !IsControl(s[i]) }

  lemma {:induction false} JoinNoControl(xs: seq<string>, sep: string)
    requires NoControl(sep)
    requires forall i :: 0 <= i < |xs| ==> NoControl(xs[i])
    ensures NoControl(Join(xs, sep))
    decreases |xs|
  {
    if |xs| > 1 {
      JoinNoControl(xs[..|xs| - 1], sep);
    }
  }

  /**
   * The rendering of any value is a single line of printable text, so a
   * `.default(...)` qualifier never breaks the generated source line.
   */
  lemma {:induction false} StringifySingleLine(v: Value)
    ensures |Stringify(v)| > 0
    ensures NoControl(Stringify(v))
    decreases v
  {
    match v
    case Null =>
    case Bool(b) =>
    case Number(n) =>
      assert forall i :: 0 <= i < |NumberText(n)| ==> !IsControl(NumberText(n)[i]);
    case Str(s) =>
    case Array(items) =>
      var parts := seq(|items|, i requires 0 <= i < |items| => Stringify(items[i]));
      forall i | 0 <= i < |items|
        ensures NoControl(parts[i])
      {
        StringifySingleLine(items[i]);
      }
      JoinNoControl(parts, ",");
    case Object(fields) =>
      var parts := seq(|fields|, i requires 0 <= i < |fields| =>
                         Quote(fields[i].0) + ":" + Stringify(fields[i].1));
      forall i | 0 <= i < |fields|
        ensures NoControl(parts[i])
      {
        StringifySingleLine(fields[i].1);
      }
      JoinNoControl(parts, ",");
  }

  /** The keys of an object's members, in insertion order. */
  function Keys(fields: seq<(string, Value)>): (r: seq<string>)
    ensures |r| == |fields|
    ensures forall i :: 0 <= i < |fields| ==> r[i] == fields[i].0
  {
    seq(|fields|, i requires 0 <= i < |fields| => fields[i].0)
  }

  /** Property access on an object literal: the first member with the key, if any. */
  function Lookup(fields: seq<(string, Value)>, key: string): (r: Option<Value>)
    ensures r.None? <==> key !in Keys(fields)
  {
    if |fields| == 0 then None
    else if fields[0].0 == key then Some(fields[0].1)
    else Lookup(fields[1..], key)
  }

  /** A member that `Lookup` finds is one of the object's members. */
  lemma {:induction false} LookupFound(fields: seq<(string, Value)>, key: string) returns (i: nat)
    requires Lookup(fields, key).Some?
    ensures i < |fields| && fields[i] == (key, Lookup(fields, key).value)
    decreases |fields|
  {
    if fields[0].0 == key {
      i := 0;
    } else {
      var j := LookupFound(fields[1..], key);
      i := j + 1;
    }
  }

  /** `Lookup` finds the first member with the key. */
  lemma {:induction false} LookupFirst(fields: seq<(string, Value)>, key: string, i: nat)
    requires i < |fields| && fields[i].0 == key
    requires forall j :: 0 <= j < i ==> fields[j].0 != key
    ensures Lookup(fields, key) == Some(fields[i].1)
    decreases i
  {
    if i > 0 {
      LookupFirst(fields[1..], key, i - 1);
    }
  }

  /** Property access on a concatenation: the first part wins when it has the key. */
  lemma {:induction false} LookupAppend(a: seq<(string, Value)>, b: seq<(string, Value)>, key: string)
    ensures Lookup(a + b, key) == if key in Keys(a) then Lookup(a, key) else Lookup(b, key)
    decreases |a|
  {
    if |a| == 0 {
      assert a + b == b;
    } else {
      assert (a + b)[1..] == a[1..] + b;
      LookupAppend(a[1..], b, key);
      assert key in Keys(a) <==> key == a[0].0 || key in Keys(a[1..]) by {
        assert Keys(a) == [a[0].0] + Keys(a[1..]);
      }
    }
  }

  /**
   * `JSON.stringify(v, null, gap)` for a non-empty `gap`: every member of a
   * non-empty object or array goes on its own line, indented one `gap`
   * deeper than the bracket that opens it, with `": "` after each key.
   */
  function Pretty(v: Value, gap: string, indent: string): (r: string)
    requires |gap| > 0
    decreases v
  {
    match v
    case Array(items) =>
      if |items| == 0 then "[]"
      else
        var line := "\n" + indent + gap;
        "[" + line
        + Join(seq(|items|, i requires 0 <= i < |items| => Pretty(items[i], gap, indent + gap)), "," + line)
        + ("\n" + indent + "]")
    case Object(fields) =>
      if |fields| == 0 then "{}"
      else
        var line := "\n" + indent + gap;
        "{" + line
        + Join(seq(|fields|, i requires 0 <= i < |fields| =>
                     Quote(fields[i].0) + ": " + Pretty(fields[i].1, gap, indent + gap)), "," + line)
        + ("\n" + indent + "}")
    case _ => Stringify(v)
  }

  /** Each piece of a bracketed, line-separated join starts a line. */
  lemma PieceOnOwnLine(open: string, line: string, ms: seq<string>, close: string, i: nat)
    requires i < |ms|
    ensures Contains(open + line + Join(ms, "," + line) + close, line + ms[i])
  {
    var j := Join(ms, "," + line);
    var k: int;
    if i == 0 {
      k := FirstPieceOnOwnLine(line, ms);
    } else {
      k := LaterPieceOnOwnLine(line, ms, i);
    }
    AtPosInfix(open, line + j, close, line + ms[i], k);
    assert open + (line + j) + close == open + line + j + close;
    AtPosContains(open + line + j + close, line + ms[i], |open| + k);
  }

  lemma FirstPieceOnOwnLine(line: string, ms: seq<string>) returns (k: int)
    requires 0 < |ms|
    ensures AtPos(line + Join(ms, "," + line), line + ms[0], k)
  {
    var j := Join(ms, "," + line);
    JoinPiece(ms, "," + line, 0);
    assert JoinOffset(ms, "," + line, 0) == 0;
    StartsWithAtPos(j, ms[0]);
    AtPosInfix(line, j, "", ms[0], 0);
    assert line + j + "" == line + j;
    StartsWithConcat(line, j);
    StartsWithAtPos(line + j, line);
    AtPosConcat(line + j, line, ms[0], 0);
    k := 0;
  }

  lemma LaterPieceOnOwnLine(line: string, ms: seq<string>, i: nat) returns (k: int)
    requires 0 < i < |ms|
    ensures AtPos(line + Join(ms, "," + line), line + ms[i], k)
  {
    var sep := "," + line;
    var j := Join(ms, sep);
    JoinNeighbours(ms, sep, i - 1);
    JoinPiece(ms, sep, i);
    var at := JoinOffset(ms, sep, i - 1) + |ms[i - 1]|;
    assert JoinOffset(ms, sep, i) == at + 1 + |line|;
    EndsWithConcat(",", line);
    EndsWithAtPos(sep, line);
    AtPosTrans(j, sep, line, at, 1);
    AtPosConcat(j, line, ms[i], at + 1);
    AtPosInfix(line, j, "", line + ms[i], at + 1);
    assert line + j + "" == line + j;
    k := |line| + at + 1;
  }

  /** Every member of a non-empty object appears on its own line, key and value together. */
  lemma PrettyMember(fields: seq<(string, Value)>, gap: string, indent: string, i: nat)
    requires |gap| > 0 && i < |fields|
    ensures Contains(Pretty(Object(fields), gap, indent),
                     "\n" + indent + gap + (Quote(fields[i].0) + ": " + Pretty(fields[i].1, gap, indent + gap)))
  {
    var ms := seq(|fields|, j requires 0 <= j < |fields| =>
                    Quote(fields[j].0) + ": " + Pretty(fields[j].1, gap, indent + gap));
    PieceOnOwnLine("{", "\n" + indent + gap, ms, "\n" + indent + "}", i);
  }

  /** Every item of a non-empty array appears on its own line. */
  lemma PrettyItem(items: seq<Value>, gap: string, indent: string, i: nat)
    requires |gap| > 0 && i < |items|
    ensures Contains(Pretty(Array(items), gap, indent), "\n" + indent + gap + Pretty(items[i], gap, indent + gap))
  {
    var ms := seq(|items|, j requires 0 <= j < |items| => Pretty(items[j], gap, indent + gap));
    PieceOnOwnLine("[", "\n" + indent + gap, ms, "\n" + indent + "]", i);
  }

  /** What a property read finds is printed under its key. */
  lemma PrettyLookup(fields: seq<(string, Value)>, gap: string, indent: string, key: string)
    requires |gap| > 0 && Lookup(fields, key).Some?
    ensures Contains(Pretty(Object(fields), gap, indent),
                     "\n" + indent + gap + (Quote(key) + ": " + Pretty(Lookup(fields, key).value, gap, indent + gap)))
  {
    var i := LookupFound(fields, key);
    PrettyMember(fields, gap, indent, i);
  }
}

=== FILE: keyed.dfy ===
/**
 * Lists of definitions identified by a string key: tools and prompts by
 * `name`, resources by `uri`.  `FindIndex` is `Array.prototype.findIndex`
 * with a key comparison, and `Upsert` is the replace-or-push every add
 * operation performs on its list.
 */
module Keyed {
  import opened Base

  /** The first position whose key is `k`, or -1 when there is none. */
  function FindIndex<T>(xs: seq<T>, keyOf: T -> string, k: string): (r: int)
    ensures -1 <= r < |xs|
    ensures r >= 0 ==> keyOf(xs[r]) == k && forall j :: 0 <= j < r ==> keyOf(xs[j]) != k
    ensures r < 0 ==> forall j :: 0 <= j < |xs| ==> keyOf(xs[j]) != k
    decreases |xs|
  {
    if |xs| == 0 then -1
    else if keyOf(xs[0]) == k then 0
    else
      var i := FindIndex(xs[1..], keyOf, k);
      if i < 0 then -1 else i + 1
  }

  /** The entry a lookup by key finds: the first one carrying that key. */
  function Find<T>(xs: seq<T>, keyOf: T -> string, k: string): Option<T> {
    var i := FindIndex(xs, keyOf, k);
    if i < 0 then None else Some(xs[i])
  }

  predicate KeysUnique<T>(xs: seq<T>, keyOf: T -> string) {
    forall i, j :: 0 <= i < j < |xs| ==> keyOf(xs[i]) != keyOf(xs[j])
  }

  function KeySet<T>(xs: seq<T>, keyOf: T -> string): set<string> {
    set i | 0 <= i < |xs| :: keyOf(xs[i])
  }

  /**
   * Replace the entry with `x`'s key in place, or append `x` when no entry
   * has that key.  The entry replaced is the one `findIndex` reports; every
   * other entry stays where it was.
   */
  function Upsert<T>(xs: seq<T>, keyOf: T -> string, x: T): (r: seq<T>)
    ensures FindIndex(xs, keyOf, keyOf(x)) >= 0 ==>
              |r| == |xs| && r[FindIndex(xs, keyOf, keyOf(x))] == x
    ensures FindIndex(xs, keyOf, keyOf(x)) < 0 ==> |r| == |xs| + 1 && r[|xs|] == x
    ensures forall j :: 0 <= j < |xs| && j != FindIndex(xs, keyOf, keyOf(x)) ==> r[j] == xs[j]
  {
    var i := FindIndex(xs, keyOf, keyOf(x));
    if i >= 0 then xs[i := x] else xs + [x]
  }

  /** After an upsert, looking up the new entry's key finds exactly the new entry. */
  lemma UpsertThenFind<T>(xs: seq<T>, keyOf: T -> string, x: T)
    ensures Find(Upsert(xs, keyOf, x), keyOf, keyOf(x)) == Some(x)
  {
    var k := keyOf(x);
    var i := FindIndex(xs, keyOf, k);
    var r := Upsert(xs, keyOf, x);
    if i >= 0 {
      assert keyOf(r[i]) == k;
    } else {
      assert keyOf(r[|xs|]) == k;
    }
  }

  /** Lookups of every other key are unaffected by an upsert. */
  lemma UpsertKeepsOthers<T>(xs: seq<T>, keyOf: T -> string, x: T, k: string)
    requires k != keyOf(x)
    ensures Find(Upsert(xs, keyOf, x), keyOf, k) == Find(xs, keyOf, k)
  {
    var i := FindIndex(xs, keyOf, keyOf(x));
    var r := Upsert(xs, keyOf, x);
    var a := FindIndex(xs, keyOf, k);
    if a >= 0 {
      assert r[a] == xs[a];
    }
  }

  /** The keys after an upsert are the keys before plus the new one. */
  lemma UpsertKeys<T>(xs: seq<T>, keyOf: T -> string, x: T)
    ensures KeySet(Upsert(xs, keyOf, x), keyOf) == KeySet(xs, keyOf) + {keyOf(x)}
  {
    var i := FindIndex(xs, keyOf, keyOf(x));
    var r := Upsert(xs, keyOf, x);
    forall k | k in KeySet(r, keyOf)
      ensures k in KeySet(xs, keyOf) + {keyOf(x)}
    {
      var j :| 0 <= j < |r| && keyOf(r[j]) == k;
      if j < |xs| && j != i {
        assert r[j] == xs[j];
      }
    }
    forall k | k in KeySet(xs, keyOf) + {keyOf(x)}
      ensures k in KeySet(r, keyOf)
    {
      if k == keyOf(x) {
        if i >= 0 {
          assert r[i] == x;
        } else {
          assert r[|xs|] == x;
        }
      } else {
        var j :| 0 <= j < |xs| && keyOf(xs[j]) == k;
        assert j != i;
        assert r[j] == xs[j];
      }
    }
  }

  /** An upsert never introduces a duplicate key. */
  lemma UpsertKeepsKeysUnique<T>(xs: seq<T>, keyOf: T -> string, x: T)
    requires KeysUnique(xs, keyOf)
    ensures KeysUnique(Upsert(xs, keyOf, x), keyOf)
  {
    var i := FindIndex(xs, keyOf, keyOf(x));
    var r := Upsert(xs, keyOf, x);
    forall a, b | 0 <= a < b < |r|
      ensures keyOf(r[a]) != keyOf(r[b])
    {
      if a == i || (i < 0 && b == |xs|) || b == i {
        var other := if a == i then b else a;
        assert other < |xs| && other != i;
        assert r[other] == xs[other];
      } else {
        assert r[a] == xs[a] && r[b] == xs[b];
      }
    }
  }

  /** Upserting the same entry twice is the same as upserting it once. */
  lemma UpsertIdempotent<T>(xs: seq<T>, keyOf: T -> string, x: T)
    ensures Upsert(Upsert(xs, keyOf, x), keyOf, x) == Upsert(xs, keyOf, x)
  {
    var r := Upsert(xs, keyOf, x);
    UpsertThenFind(xs, keyOf, x);
    var i := FindIndex(r, keyOf, keyOf(x));
    assert r[i] == x;
    assert r[i := x] == r;
  }

  /** The list grows by one exactly when the key was new. */
  lemma UpsertLength<T>(xs: seq<T>, keyOf: T -> string, x: T)
    ensures |Upsert(xs, keyOf, x)| == if keyOf(x) in KeySet(xs, keyOf) then |xs| else |xs| + 1
  {
    var i := FindIndex(xs, keyOf, keyOf(x));
    if i >= 0 {
      assert keyOf(x) in KeySet(xs, keyOf) by { assert keyOf(xs[i]) == keyOf(x); }
    } else {
      assert keyOf(x) !in KeySet(xs, keyOf);
    }
  }
}

=== FILE: lifecycle.dfy ===
/**
 * The lifecycle of a server record: `init_mcp_server`, `wrangler_deploy`,
 * and the RPC entrypoint's `createServer`, `connectToServer` and
 * `stopServer`.  An operation is modelled by the sequence of record states
 * it saves, in order; the collaborators' answers and the clock are inputs.
 */
module Lifecycle {
  import opened Base
  import opened Text
  import Json
  import opened Definitions
  import Names
  import Descriptors
  import opened Operations

  /**
   * Every status change the code performs.  `init_mcp_server` ends a
   * `creating` record as `draft` or `failed`; `createServer` moves it on to
   * `building`; a build ends in `deploying` or `failed`, a publication in
   * `active` or `failed`.  `wrangler_deploy` starts a build from whatever
   * status the record has, and `stopServer` stops a record in any status.
   */
  predicate Transition(a: Status, b: Status) {
    || (a == Creating && (b == Draft || b == Failed || b == Building))
    || (a == Building && (b == Deploying || b == Failed))
    || (a == Deploying && (b == Active || b == Failed))
    || b == Building
    || b == Stopped
  }

  /** Only a publication activates a server: a build never does directly. */
  lemma OnlyDeployingActivates(a: Status)
    ensures Transition(a, Active) <==> a == Deploying
  {
  }

  predicate IsPath(ss: seq<Status>) {
    forall i :: 0 <= i < |ss| - 1 ==> Transition(ss[i], ss[i + 1])
  }

  function Statuses(saves: seq<ServerConfig>): (r: seq<Status>)
    ensures |r| == |saves|
    ensures forall i :: 0 <= i < |saves| ==> r[i] == saves[i].status
  {
    seq(|saves|, i requires 0 <= i < |saves| => saves[i].status)
  }

  /** The record states an operation saved, in order, and the failure it reported. */
  datatype Run = Run(saves: seq<ServerConfig>, failure: Option<Failure>)

  /** The store once the run's saves are written. */
  function Commit(store: Store, id: string, run: Run): Store {
    if |run.saves| == 0 then store else store[id := run.saves[|run.saves| - 1]]
  }

  /** `{ ...metadata, error }`: the error recorded, every other key kept. */
  function WithError(m: Metadata, error: string): (r: Metadata)
    ensures r.Keys == m.Keys + {"error"}
    ensures r["error"] == Json.Str(error)
    ensures forall k :: k in m && k != "error" ==> r[k] == m[k]
  {
    m["error" := Json.Str(error)]
  }

  // ---------------------------------------------------------------- init_mcp_server

  /** What `createSDKEnvironment` answers. */
  datatype EnvResult = EnvResult(
    success: bool,
    error: string,
    containerId: string,
    workspacePath: string,
    template: string,
    sdks: seq<string>)

  /** The record `init_mcp_server` first saves: empty lists, default deployment settings, `creating`. */
  function NewRecord(name: string, version: string, description: string, now: int): (r: ServerConfig)
    ensures r.name == name && r.version == version && r.description == description
    ensures r.wrangler == WranglerConfig(name, Some(DefaultCompatibilityDate), Some(DefaultCompatibilityFlags), None, None)
    ensures r.status == Creating && r.createdAt == now && r.updatedAt == now
  {
    ServerConfig(name, version, description, [], [], [],
                 WranglerConfig(name, Some(DefaultCompatibilityDate), Some(DefaultCompatibilityFlags), None, None),
                 now, now, Creating, None, None, map[])
  }

  /** The metadata of a server whose environment was created. */
  function EnvMetadata(env: EnvResult, now: int): (r: Metadata)
    ensures r.Keys == {"containerCreated", "workspacePath", "template", "packagesInstalled"}
    ensures r["containerCreated"] == Json.Number(now)
    ensures r["workspacePath"] == Json.Str(env.workspacePath) && r["template"] == Json.Str(env.template)
    ensures r["packagesInstalled"] == Descriptors.Strings(env.sdks)
  {
    map["containerCreated" := Json.Number(now),
        "workspacePath" := Json.Str(env.workspacePath),
        "template" := Json.Str(env.template),
        "packagesInstalled" := Descriptors.Strings(env.sdks)]
  }

  /**
   * `init_mcp_server`: a name outside `[a-z0-9-]+` or one already taken is
   * refused before anything is saved; otherwise the record is saved as
   * `creating`, then as `failed` with the error as its only metadata, or as
   * `draft` with the container recorded.
   */
  function InitServer(store: Store, name: string, version: string, description: string,
                      env: EnvResult, now: int): (r: Run)
    ensures !Names.IsValidServerName(name) ==> r == Run([], Some(InvalidName))
    ensures Names.IsValidServerName(name) && name in store ==> r == Run([], Some(AlreadyExists))
    ensures Names.IsValidServerName(name) && name !in store ==>
              && |r.saves| == 2
              && r.saves[0] == NewRecord(name, version, description, now)
              && r.saves[1].(status := Creating, containerId := None, metadata := map[]) == r.saves[0]
              && r.saves[1].updatedAt == now && r.saves[1].workerName.None?
              && IsPath(Statuses(r.saves))
              && (r.failure.None? <==> env.success)
              && (forall s :: s in r.saves ==>
                    s.name == name && s.tools == [] && s.resources == [] && s.prompts == []
                    && s.wrangler.compatibilityDate == Some(DefaultCompatibilityDate))
              && (forall s :: s in r.saves ==>
                    && s.version == version && s.description == description && s.createdAt == now
                    && s.wrangler == WranglerConfig(name, Some(DefaultCompatibilityDate),
                                                    Some(DefaultCompatibilityFlags), None, None))
    ensures env.success && r.failure.None? ==>
              r.saves[1].status == Draft && r.saves[1].containerId == Some(env.containerId)
              && r.saves[1].metadata == EnvMetadata(env, now)
    ensures !env.success && |r.saves| == 2 ==>
              r.saves[1].status == Failed && r.saves[1].metadata == map["error" := Json.Str(env.error)]
  {
    if !Names.IsValidServerName(name) then Run([], Some(InvalidName))
    else if name in store then Run([], Some(AlreadyExists))
    else
      var c := NewRecord(name, version, description, now);
      if !env.success then
        Run([c, c.(status := Failed, metadata := map["error" := Json.Str(env.error)])], Some(Rejected(env.error)))
      else
        Run([c, c.(status := Draft, containerId := Some(env.containerId), metadata := EnvMetadata(env, now))], None)
  }

  /** A freshly initialised server accepts tools as soon as its container does. */
  lemma InitThenAddTool(store: Store, name: string, version: string, description: string,
                        env: EnvResult, now: int, t: Tool, later: int)
    requires Names.IsValidServerName(name) && name !in store && env.success && env.containerId != ""
    ensures var s := Commit(store, name, InitServer(store, name, version, description, env, now));
            && AddTool(s, name, t, AddReply(true, ""), later).failure.None?
            && AddTool(s, name, t, AddReply(true, ""), later).store[name].tools == [t]
  {
  }

  // ---------------------------------------------------------------- wrangler_deploy

  /** What `buildMCPServer` answers. */
  datatype BuildResult = BuildResult(success: bool, error: string, scriptContent: string)

  /** What `deployFromMetaMCP` answers. */
  datatype PublishResult = PublishResult(success: bool, error: string, deploymentUrl: string)

  /** The worker name: the configured one, or `mcp-<id>` when it is empty. */
  function DeployWorkerName(c: ServerConfig, id: string): (r: string)
    ensures c.wrangler.name != "" ==> r == c.wrangler.name
    ensures c.wrangler.name == "" ==> StartsWith(r, "mcp-") && r[4..] == id
  {
    if c.wrangler.name != "" then c.wrangler.name else "mcp-" + id
  }

  /** The metadata after a publication: the deployment recorded, every earlier key kept. */
  function DeployedMetadata(m: Metadata, url: string, workerName: string, now: int): (r: Metadata)
    ensures r.Keys == m.Keys + {"deployedAt", "deploymentUrl", "workerName"}
    ensures r["deployedAt"] == Json.Number(now)
    ensures r["deploymentUrl"] == Json.Str(url) && r["workerName"] == Json.Str(workerName)
    ensures forall k :: k in m && k !in {"deployedAt", "deploymentUrl", "workerName"} ==> r[k] == m[k]
  {
    m["deployedAt" := Json.Number(now)]["deploymentUrl" := Json.Str(url)]["workerName" := Json.Str(workerName)]
  }

  /**
   * `wrangler_deploy` as written: saved as `building`, then `failed` with
   * the build error, or `deploying`, then `failed` with the publication
   * error or `active`.  The worker name goes into the metadata only.
   */
  function DeployAsWritten(store: Store, id: string, build: BuildResult, publish: PublishResult, now: int): (r: Run)
    ensures id !in store ==> r == Run([], Some(NotFound))
    ensures id in store && !HasContainer(store[id]) ==> r == Run([], Some(NoContainer))
    ensures id in store && HasContainer(store[id]) ==>
              && 2 <= |r.saves| <= 3
              && r.saves[0] == store[id].(status := Building)
              && (|r.saves| == 2 <==> !build.success)
              && (build.success ==> r.saves[1] == store[id].(status := Deploying))
              && IsPath(Statuses(r.saves))
              && (r.failure.None? <==> build.success && publish.success)
              && (r.failure.None? ==> |r.saves| == 3 && r.saves[2].status == Active)
              && (r.failure.Some? ==> r.saves[|r.saves| - 1].status == Failed)
              && (forall s :: s in r.saves ==>
                    s.(status := store[id].status, metadata := store[id].metadata, updatedAt := store[id].updatedAt)
                    == store[id])
    ensures id in store && HasContainer(store[id]) && !build.success ==>
              r.saves[|r.saves| - 1].metadata == WithError(store[id].metadata, build.error)
    ensures id in store && HasContainer(store[id]) && build.success && !publish.success ==>
              r.saves[|r.saves| - 1].metadata == WithError(store[id].metadata, publish.error)
    ensures id in store && HasContainer(store[id]) ==>
              (r.saves[|r.saves| - 1].updatedAt == now || r.saves[|r.saves| - 1].updatedAt == store[id].updatedAt)
              && (r.failure.Some? ==> r.saves[|r.saves| - 1].updatedAt == store[id].updatedAt)
    ensures id in store && HasContainer(store[id]) && r.failure.None? ==>
              && r.saves[2].updatedAt == now
              && r.saves[2].metadata
                 == DeployedMetadata(store[id].metadata, publish.deploymentUrl, DeployWorkerName(store[id], id), now)
  {
    if id !in store then Run([], Some(NotFound))
    else if !HasContainer(store[id]) then Run([], Some(NoContainer))
    else
      var building := store[id].(status := Building);
      if !build.success then
        Run([building, building.(status := Failed, metadata := WithError(building.metadata, build.error))],
            Some(Rejected(build.error)))
      else
        var deploying := building.(status := Deploying);
        if !publish.success then
          Run([building, deploying,
               deploying.(status := Failed, metadata := WithError(deploying.metadata, publish.error))],
              Some(Rejected(publish.error)))
        else
          var wn := DeployWorkerName(store[id], id);
          Run([building, deploying,
               deploying.(status := Active, metadata := DeployedMetadata(deploying.metadata, publish.deploymentUrl, wn, now),
                          updatedAt := now)],
              None)
  }

  /**
   * `wrangler_deploy` with the worker name also recorded in the record's
   * `worker_name`, where the RPC entrypoint and the listings look for it.
   */
  function Deploy(store: Store, id: string, build: BuildResult, publish: PublishResult, now: int): (r: Run)
    ensures r.failure == DeployAsWritten(store, id, build, publish, now).failure
    ensures r.failure.Some? ==> r == DeployAsWritten(store, id, build, publish, now)
    ensures var w := DeployAsWritten(store, id, build, publish, now);
            w.failure.None? ==>
              && |r.saves| == 3 && |w.saves| == 3
              && r.saves[2].workerName == Some(DeployWorkerName(store[id], id))
              && r.saves[..2] == w.saves[..2]
              && r.saves[2].(workerName := store[id].workerName) == w.saves[2]
  {
    var w := DeployAsWritten(store, id, build, publish, now);
    if w.failure.None? then
      Run(w.saves[..2] + [w.saves[2].(workerName := Some(DeployWorkerName(store[id], id)))], None)
    else w
  }

  /** No run of `wrangler_deploy` goes from `building` straight to `active`. */
  lemma DeployNeverSkipsDeploying(store: Store, id: string, build: BuildResult, publish: PublishResult, now: int, i: nat)
    requires i + 1 < |Deploy(store, id, build, publish, now).saves|
    ensures Deploy(store, id, build, publish, now).saves[i + 1].status == Active ==>
              Deploy(store, id, build, publish, now).saves[i].status == Deploying
  {
    var r := Deploy(store, id, build, publish, now);
    var w := DeployAsWritten(store, id, build, publish, now);
    assert Statuses(w.saves)[i] == w.saves[i].status;
    if r.failure.None? {
      assert r.saves[i].status == w.saves[i].status && r.saves[i + 1].status == w.saves[i + 1].status;
    }
    OnlyDeployingActivates(r.saves[i].status);
  }

  // ---------------------------------------------------------------- createServer (RPC)

  /**
   * The record `createServer` inserts: version 1.0.0, deployment named with
   * the worker slug, `creating`.  The stored settings spell the date and the
   * flags `compatibility_date` and `compatibility_flags`, while the readers
   * of the parsed record look for `compatibilityDate` and
   * `compatibilityFlags`: as read back, the record has neither setting.
   */
  function RpcRecord(name: string, description: string, now: int): (r: ServerConfig)
    ensures r.name == name && r.version == "1.0.0" && r.status == Creating
    ensures r.wrangler.name == Names.WorkerSlug(name)
    ensures r.wrangler.compatibilityDate.None? && r.wrangler.compatibilityFlags.None?
    ensures r.tools == [] && r.resources == [] && r.prompts == []
    ensures r.description == description && r.createdAt == now && r.updatedAt == now
    ensures r.workerName.None? && r.containerId.None? && r.metadata == map[]
  {
    ServerConfig(name, "1.0.0", description, [], [], [],
                 WranglerConfig(Names.WorkerSlug(name), None, None, None, None),
                 now, now, Creating, None, None, map[])
  }

  /** The failure metadata: `{ error: message }`, replacing whatever was there. */
  function ErrorMetadata(message: string): Metadata {
    map["error" := Json.Str(message)]
  }

  /**
   * The successive states of the new record and the error message, if any.
   * `building` is written before the environment is provisioned, and the
   * container is recorded together with `deploying`.
   */
  function RpcTrace(name: string, description: string, env: EnvResult, build: BuildResult,
                    publish: PublishResult, now: int): (r: (seq<ServerConfig>, Option<string>))
    ensures 3 <= |r.0| <= 4 && r.0[0] == RpcRecord(name, description, now) && r.0[1] == r.0[0].(status := Building)
    ensures |r.0| == 4 <==> env.success && build.success
    ensures IsPath(Statuses(r.0))
    ensures forall i :: 1 <= i < |r.0| ==>
              r.0[i].(status := Creating, containerId := None, workerName := None, metadata := map[]) == r.0[0]
    ensures |r.0| == 4 ==> r.0[2].status == Deploying && r.0[2].containerId == Some(env.containerId)
    ensures r.1.None? <==> env.success && build.success && publish.success
    ensures r.1.None? ==> r.0[|r.0| - 1].status == Active && r.0[|r.0| - 1].workerName == Some(Names.WorkerSlug(name))
    ensures r.1.Some? ==> r.0[|r.0| - 1].status == Failed && r.0[|r.0| - 1].metadata == ErrorMetadata(r.1.value)
    ensures !env.success ==> r.1 == Some("Failed to create SDK environment: " + env.error)
    ensures env.success && !build.success ==> r.1 == Some("Build failed: " + build.error)
    ensures env.success && build.success && !publish.success ==> r.1 == Some("Deployment failed: " + publish.error)
  {
    var c := RpcRecord(name, description, now);
    var building := c.(status := Building);
    if !env.success then
      var m := "Failed to create SDK environment: " + env.error;
      ([c, building, building.(status := Failed, metadata := ErrorMetadata(m))], Some(m))
    else if !build.success then
      var m := "Build failed: " + build.error;
      ([c, building, building.(status := Failed, metadata := ErrorMetadata(m))], Some(m))
    else
      var deploying := building.(status := Deploying, containerId := Some(env.containerId));
      if !publish.success then
        var m := "Deployment failed: " + publish.error;
        ([c, building, deploying, deploying.(status := Failed, metadata := ErrorMetadata(m))], Some(m))
      else
        ([c, building, deploying,
          deploying.(status := Active, workerName := Some(Names.WorkerSlug(name)), updatedAt := now)], None)
  }

  /** The failure update as written: every record with the server's NAME is marked failed. */
  function FailByName(store: Store, name: string, message: string): (r: Store)
    ensures r.Keys == store.Keys
    ensures forall id :: id in store && store[id].name == name ==>
              r[id] == store[id].(status := Failed, metadata := ErrorMetadata(message))
    ensures forall id :: id in store && store[id].name != name ==> r[id] == store[id]
  {
    map id | id in store :: if store[id].name == name then store[id].(status := Failed, metadata := ErrorMetadata(message))
                             else store[id]
  }

  /** The store after `createServer` as written, for a fresh `serverId`. */
  function RpcCreateAsWritten(store: Store, serverId: string, name: string, description: string,
                              env: EnvResult, build: BuildResult, publish: PublishResult, now: int): (r: Store)
    requires serverId !in store
    ensures serverId in r && r.Keys == store.Keys + {serverId}
    ensures r[serverId] == (var t := RpcTrace(name, description, env, build, publish, now).0; t[|t| - 1])
    ensures forall id :: id in store && store[id].name != name ==> r[id] == store[id]
    ensures env.success && build.success && publish.success ==> forall id :: id in store ==> r[id] == store[id]
  {
    var (trace, error) := RpcTrace(name, description, env, build, publish, now);
    var saved := store[serverId := trace[|trace| - 1]];
    if error.None? then saved else FailByName(saved, name, error.value)
  }

  /**
   * As written, a failed creation also marks every OTHER server that has the
   * same name as failed and overwrites its metadata.
   */
  lemma RpcFailureMarksNamesakes(store: Store, serverId: string, name: string, description: string,
                                 env: EnvResult, build: BuildResult, publish: PublishResult, now: int, other: string)
    requires serverId !in store && other in store && store[other].name == name
    requires !env.success
    ensures RpcCreateAsWritten(store, serverId, name, description, env, build, publish, now)[other]
            == store[other].(status := Failed, metadata := ErrorMetadata("Failed to create SDK environment: " + env.error))
  {
  }

  /** A concrete case: an active `weather` server is marked failed by a failed second creation of `weather`. */
  lemma RpcFailureExample()
    ensures var active := RpcRecord("weather", "", 0).(status := Active);
            var store := map["weather" := active];
            RpcCreateAsWritten(store, "x1", "weather", "", EnvResult(false, "busy", "", "", "", []),
                               BuildResult(true, "", ""), PublishResult(true, "", ""), 1)["weather"].status == Failed
  {
    var active := RpcRecord("weather", "", 0).(status := Active);
    RpcFailureMarksNamesakes(map["weather" := active], "x1", "weather", "",
                             EnvResult(false, "busy", "", "", "", []), BuildResult(true, "", ""), PublishResult(true, "", ""),
                             1, "weather");
  }

  /**
   * As written, the descriptor generated for a server created through the
   * RPC entrypoint has neither `compatibility_date` nor `compatibility_flags`.
   */
  lemma RpcDescriptorLacksCompatibility(store: Store, serverId: string, name: string, description: string,
                                        env: EnvResult, build: BuildResult, publish: PublishResult, now: int)
    requires serverId !in store
    ensures var c := RpcCreateAsWritten(store, serverId, name, description, env, build, publish, now)[serverId];
            && Descriptors.Member(Descriptors.WranglerValue(c), "compatibility_date").None?
            && Descriptors.Member(Descriptors.WranglerValue(c), "compatibility_flags").None?
  {
    var c := RpcCreateAsWritten(store, serverId, name, description, env, build, publish, now)[serverId];
    Descriptors.WranglerCompatibilityMembers(c);
  }

  /** The deployment settings with the date and flags stored under the keys the readers use. */
  function WithDefaultCompatibility(c: ServerConfig): (r: ServerConfig)
    ensures r.wrangler.compatibilityDate == Some(DefaultCompatibilityDate)
    ensures r.wrangler.compatibilityFlags == Some(DefaultCompatibilityFlags)
    ensures r.wrangler.(compatibilityDate := c.wrangler.compatibilityDate,
                        compatibilityFlags := c.wrangler.compatibilityFlags) == c.wrangler
    ensures r.(wrangler := c.wrangler) == c
  {
    c.(wrangler := c.wrangler.(compatibilityDate := Some(DefaultCompatibilityDate),
                               compatibilityFlags := Some(DefaultCompatibilityFlags)))
  }

  /**
   * `createServer` with the failure update keyed by the new record's id (no
   * other record changes) and the default date and flags stored so that they
   * are read back.
   */
  function RpcCreate(store: Store, serverId: string, name: string, description: string,
                     env: EnvResult, build: BuildResult, publish: PublishResult, now: int): (r: Store)
    requires serverId !in store
    ensures r.Keys == store.Keys + {serverId}
    ensures forall id :: id in store ==> r[id] == store[id]
    ensures r[serverId].status == Active <==> env.success && build.success && publish.success
    ensures r[serverId].status != Active ==> r[serverId].status == Failed && "error" in r[serverId].metadata
    ensures r[serverId].name == name && r[serverId].description == description && r[serverId].version == "1.0.0"
    ensures r[serverId].createdAt == now && r[serverId].tools == [] && r[serverId].resources == [] && r[serverId].prompts == []
    ensures r[serverId].status == Active ==>
              r[serverId].containerId == Some(env.containerId) && r[serverId].workerName == Some(Names.WorkerSlug(name))
    ensures r[serverId].wrangler.name == Names.WorkerSlug(name)
    ensures r[serverId].wrangler.compatibilityDate == Some(DefaultCompatibilityDate)
    ensures r[serverId].wrangler.compatibilityFlags == Some(DefaultCompatibilityFlags)
  {
    var (trace, error) := RpcTrace(name, description, env, build, publish, now);
    store[serverId := WithDefaultCompatibility(trace[|trace| - 1])]
  }

  /** With the corrected record, the descriptor carries the default date and flags. */
  lemma RpcDescriptorCompatibility(store: Store, serverId: string, name: string, description: string,
                                   env: EnvResult, build: BuildResult, publish: PublishResult, now: int)
    requires serverId !in store
    ensures var c := RpcCreate(store, serverId, name, description, env, build, publish, now)[serverId];
            && Descriptors.Member(Descriptors.WranglerValue(c), "compatibility_date")
               == Some(Json.Str(DefaultCompatibilityDate))
            && Descriptors.Member(Descriptors.WranglerValue(c), "compatibility_flags")
               == Some(Descriptors.Strings(DefaultCompatibilityFlags))
  {
    var c := RpcCreate(store, serverId, name, description, env, build, publish, now)[serverId];
    Descriptors.WranglerCompatibilityMembers(c);
  }

  // ---------------------------------------------------------------- connectToServer and stopServer

  /** The status as the record stores it. */
  function StatusText(s: Status): string {
    match s
    case Draft => "draft"
    case Creating => "creating"
    case Building => "building"
    case Deploying => "deploying"
    case Active => "active"
    case Failed => "failed"
    case Stopped => "stopped"
  }

  /** The worker name as a template literal prints it: an absent `worker_name` prints as `null`. */
  function WorkerHost(c: ServerConfig): (r: string)
    ensures c.workerName.Some? ==> r == c.workerName.value
    ensures c.workerName.None? ==> r == "null"
  {
    if c.workerName.Some? then c.workerName.value else "null"
  }

  const UrlScheme: string := "https://"
  const WorkersDomain: string := ".meta-mcp.workers.dev"

  function ServerUrl(c: ServerConfig): (r: string)
    ensures StartsWith(r, UrlScheme) && EndsWith(r, WorkersDomain)
    ensures |r| == |UrlScheme| + |WorkerHost(c)| + |WorkersDomain|
    ensures r[|UrlScheme|..|r| - |WorkersDomain|] == WorkerHost(c)
  {
    StartsWithConcat3(UrlScheme, WorkerHost(c), WorkersDomain);
    EndsWithConcat(UrlScheme + WorkerHost(c), WorkersDomain);
    UrlScheme + WorkerHost(c) + WorkersDomain
  }

  /** What `MCP_CLIENT.connectToServer` answers. */
  datatype ClientResult = ClientResult(success: bool, error: string, connectionId: string)

  datatype Connection = Connection(connectionId: string, serverUrl: string)

  /** `connectToServer`: only an existing, active server is contacted, at its workers.dev URL. */
  function Connect(store: Store, id: string, client: ClientResult): (r: Result<Connection>)
    ensures r.Ok? <==> id in store && store[id].status == Active && client.success
    ensures id !in store ==> r == Err("Server not found")
    ensures id in store && store[id].status != Active ==>
              r == Err("Server is " + StatusText(store[id].status) + ", not active")
    ensures id in store && store[id].status == Active && !client.success ==>
              r == Err("Failed to connect: " + client.error)
    ensures r.Ok? ==> r.value == Connection(client.connectionId, ServerUrl(store[id]))
  {
    if id !in store then Err("Server not found")
    else if store[id].status != Active then Err("Server is " + StatusText(store[id].status) + ", not active")
    else if !client.success then Err("Failed to connect: " + client.error)
    else Ok(Connection(client.connectionId, ServerUrl(store[id])))
  }

  /** A server created through the RPC entrypoint is reached under its worker slug. */
  lemma RpcCreatedServerConnects(store: Store, serverId: string, name: string, description: string,
                                 env: EnvResult, build: BuildResult, publish: PublishResult, now: int,
                                 client: ClientResult)
    requires serverId !in store && env.success && build.success && publish.success && client.success
    ensures Connect(RpcCreate(store, serverId, name, description, env, build, publish, now), serverId, client)
            == Ok(Connection(client.connectionId, UrlScheme + Names.WorkerSlug(name) + WorkersDomain))
  {
  }

  /**
   * As written, a server deployed with `wrangler_deploy` keeps an empty
   * `worker_name`, so the RPC entrypoint contacts `https://null.meta-mcp.workers.dev`.
   */
  lemma DeployedServerUrlAsWritten(store: Store, id: string, build: BuildResult, publish: PublishResult,
                                   now: int, client: ClientResult)
    requires id in store && store[id].workerName.None? && client.success
    requires DeployAsWritten(store, id, build, publish, now).failure.None?
    ensures Connect(Commit(store, id, DeployAsWritten(store, id, build, publish, now)), id, client)
            == Ok(Connection(client.connectionId, UrlScheme + "null" + WorkersDomain))
  {
    var r := DeployAsWritten(store, id, build, publish, now);
    var last := r.saves[|r.saves| - 1];
    assert last in r.saves;
  }

  /** With the worker name recorded, the RPC entrypoint contacts the worker that was published. */
  lemma DeployedServerUrl(store: Store, id: string, build: BuildResult, publish: PublishResult,
                          now: int, client: ClientResult)
    requires id in store && client.success
    requires Deploy(store, id, build, publish, now).failure.None?
    ensures Connect(Commit(store, id, Deploy(store, id, build, publish, now)), id, client)
            == Ok(Connection(client.connectionId, UrlScheme + DeployWorkerName(store[id], id) + WorkersDomain))
  {
  }

  /** `stopServer`: any existing record becomes `stopped`, whatever its status; nothing else changes. */
  function Stop(store: Store, id: string, now: int): (r: Outcome)
    ensures id !in store ==> r == Outcome(store, Some(NotFound))
    ensures id in store ==>
              && r.failure.None?
              && OnlyChanged(store, r.store, id)
              && r.store[id].status == Stopped
              && r.store[id].updatedAt == now
              && Transition(store[id].status, Stopped)
              && r.store[id].(status := store[id].status, updatedAt := store[id].updatedAt) == store[id]
  {
    if id !in store then Outcome(store, Some(NotFound))
    else Outcome(store[id := store[id].(status := Stopped, updatedAt := now)], None)
  }

  /** A stopped server is refused by `connectToServer`. */
  lemma StoppedServerRefused(store: Store, id: string, now: int, client: ClientResult)
    requires id in store
    ensures Connect(Stop(store, id, now).store, id, client) == Err("Server is " + "stopped" + ", not active")
  {
  }
}

=== FILE: names.dfy ===
/**
 * The identifier helpers every generator relies on: the server-name check,
 * the kebab-to-Pascal class name of `generateIndexTs`, the worker slug of the
 * RPC entry point and the class-name stripper of `generateMCPServerCode`.
 */
module Names {
  import opened Text

  /** The `init_mcp_server` name check `^[a-z0-9-]+$`. */
  predicate IsValidServerName(name: string) {
    |name| > 0 && AllSlugChars(name)
  }

  /** One segment of `toPascalCase`: first character upper-cased, the rest unchanged. */
  function Capitalize(w: string): string {
    if |w| == 0 then "" else [ToUpper(w[0])] + w[1..]
  }

  function CapitalizeAll(ws: seq<string>): seq<string> {
    if |ws| == 0 then [] else [Capitalize(ws[0])] + CapitalizeAll(ws[1..])
  }

  /**
   * Left-to-right reference reading of `toPascalCase`: hyphens are dropped and
   * the character following a hyphen (or the first character) is upper-cased.
   */
  function PascalScan(s: string, capitalizeNext: bool): string {
    if |s| == 0 then ""
    else if s[0] == '-' then PascalScan(s[1..], true)
    else [if capitalizeNext then ToUpper(s[0]) else s[0]] + PascalScan(s[1..], false)
  }

  /** `toPascalCase`: split on `-`, capitalise every segment, join with nothing. */
  function PascalCase(s: string): (r: string)
    ensures r == PascalScan(s, true)
    ensures '-' !in r
    ensures |r| == |s| - CountChar(s, '-')
  {
    PascalCaseIsScan(s);
    PascalScanDropsHyphens(s, true);
    Concat(CapitalizeAll(Split(s, '-')))
  }

  lemma {:induction false} PascalCaseIsScan(s: string)
    ensures Concat(CapitalizeAll(Split(s, '-'))) == PascalScan(s, true)
  {
    ScanAgreesWithSplit(s);
  }

  /** Both readings of `toPascalCase` agree, for either state of the capitalisation flag. */
  lemma {:induction false} ScanAgreesWithSplit(t: string)
    ensures PascalScan(t, true) == Concat(CapitalizeAll(Split(t, '-')))
    ensures PascalScan(t, false) == Split(t, '-')[0] + Concat(CapitalizeAll(Split(t, '-')[1..]))
    decreases |t|
  {
    if |t| == 0 {
      assert CapitalizeAll([""]) == [""];
    } else {
      ScanAgreesWithSplit(t[1..]);
      if t[0] == '-' {
        ScanStepHyphen(t);
      } else {
        ScanStepOther(t);
      }
    }
  }

  lemma ScanStepHyphen(t: string)
    requires |t| > 0 && t[0] == '-'
    requires PascalScan(t[1..], true) == Concat(CapitalizeAll(Split(t[1..], '-')))
    ensures PascalScan(t, true) == Concat(CapitalizeAll(Split(t, '-')))
    ensures PascalScan(t, false) == Split(t, '-')[0] + Concat(CapitalizeAll(Split(t, '-')[1..]))
  {
  }

  lemma ScanStepOther(t: string)
    requires |t| > 0 && t[0] != '-'
    requires PascalScan(t[1..], false)
      == Split(t[1..], '-')[0] + Concat(CapitalizeAll(Split(t[1..], '-')[1..]))
    ensures PascalScan(t, true) == Concat(CapitalizeAll(Split(t, '-')))
    ensures PascalScan(t, false) == Split(t, '-')[0] + Concat(CapitalizeAll(Split(t, '-')[1..]))
  {
    var rest := Split(t[1..], '-');
    var head := [t[0]] + rest[0];
    var tail := CapitalizeAll(rest[1..]);
    SplitOther(t);
    CapitalizeCons(head, rest[1..]);
    ConcatCons(Capitalize(head), tail);
    ScanOther(t, rest[0], Concat(tail));
    assert Capitalize(head) == [ToUpper(t[0])] + rest[0];
  }

  lemma SplitOther(t: string)
    requires |t| > 0 && t[0] != '-'
    ensures Split(t, '-') == [[t[0]] + Split(t[1..], '-')[0]] + Split(t[1..], '-')[1..]
    ensures Split(t, '-')[0] == [t[0]] + Split(t[1..], '-')[0]
    ensures Split(t, '-')[1..] == Split(t[1..], '-')[1..]
  {
  }

  lemma CapitalizeCons(w: string, ws: seq<string>)
    ensures CapitalizeAll([w] + ws) == [Capitalize(w)] + CapitalizeAll(ws)
  {
  }

  lemma ScanOther(t: string, b: string, c: string)
    requires |t| > 0 && t[0] != '-'
    requires PascalScan(t[1..], false) == b + c
    ensures PascalScan(t, true) == ([ToUpper(t[0])] + b) + c
    ensures PascalScan(t, false) == ([t[0]] + b) + c
  {
  }

  lemma {:induction false} PascalScanDropsHyphens(s: string, capitalizeNext: bool)
    ensures '-' !in PascalScan(s, capitalizeNext)
    ensures |PascalScan(s, capitalizeNext)| == |s| - CountChar(s, '-')
    decreases |s|
  {
    if |s| > 0 {
      PascalScanDropsHyphens(s[1..], true);
      PascalScanDropsHyphens(s[1..], false);
    }
  }

  /** Inside a segment the scan copies characters unchanged. */
  lemma {:induction false} ScanWithinSegment(w: string)
    requires '-' !in w
    ensures PascalScan(w, false) == w
  {
    if |w| > 0 {
      assert '-' !in w[1..] by {
        assert forall i :: 0 <= i < |w[1..]| ==> w[1..][i] == w[i + 1];
      }
      ScanWithinSegment(w[1..]);
    }
  }

  /** A hyphen ends one segment and capitalises the start of the next. */
  lemma {:induction false} ScanAcrossHyphen(a: string, b: string)
    requires '-' !in a
    ensures PascalScan(a + "-" + b, false) == a + PascalScan(b, true)
    decreases |a|
  {
    if |a| == 0 {
      assert a + "-" + b == "-" + b;
      assert ("-" + b)[1..] == b;
    } else {
      assert (a + "-" + b)[1..] == a[1..] + "-" + b;
      assert '-' !in a[1..] by {
        assert forall i :: 0 <= i < |a[1..]| ==> a[1..][i] == a[i + 1];
      }
      ScanAcrossHyphen(a[1..], b);
      assert a == [a[0]] + a[1..];
    }
  }

  /** One character of `toLowerCase().replace(/[^a-z0-9-]/g, '-')`. */
  function SlugChar(c: char): (r: char)
    ensures IsSlugChar(r)
    ensures r == c <==> IsSlugChar(c)
    ensures IsAsciiUpper(c) ==> r == ToLower(c)
    ensures !IsSlugChar(c) && !IsAsciiUpper(c) ==> r == '-'
  {
    var l := ToLower(c);
    if IsSlugChar(l) then l else '-'
  }

  /** `name.toLowerCase().replace(/[^a-z0-9-]/g, '-')`: the package and wrangler name. */
  function Slug(name: string): (r: string)
    ensures |r| == |name|
    ensures AllSlugChars(r)
    ensures forall i :: 0 <= i < |name| && IsSlugChar(name[i]) ==> r[i] == name[i]
    ensures forall i :: 0 <= i < |name| && IsAsciiUpper(name[i]) ==> r[i] == ToLower(name[i])
    ensures forall i :: 0 <= i < |name| && !IsSlugChar(name[i]) && !IsAsciiUpper(name[i]) ==> r[i] == '-'
  {
    seq(|name|, i requires 0 <= i < |name| => SlugChar(name[i]))
  }

  /** The deployment worker name `mcp-<slug>` of `createServer`. */
  function WorkerSlug(name: string): (r: string)
    ensures StartsWith(r, "mcp-")
    ensures |r| == 4 + |name|
    ensures forall i :: 4 <= i < |r| ==> IsSlugChar(r[i])
    ensures forall i :: 0 <= i < |name| ==> r[4 + i] == SlugChar(name[i])
  {
    "mcp-" + Slug(name)
  }

  /** The worker name is the slug of the name behind the `mcp-` prefix. */
  lemma WorkerSlugIsSlug(name: string)
    ensures WorkerSlug(name)[4..] == Slug(name)
  {
  }

  /** A name is left as it is by the slug exactly when it already matches `[a-z0-9-]*`. */
  lemma SlugFixedPoint(name: string)
    ensures Slug(name) == name <==> AllSlugChars(name)
  {
  }

  /** A name that passes `init_mcp_server`'s check deploys under `mcp-<name>`. */
  lemma ValidNameWorkerSlug(name: string)
    requires IsValidServerName(name)
    ensures WorkerSlug(name) == "mcp-" + name
  {
  }

  lemma SlugIdempotent(name: string)
    ensures Slug(Slug(name)) == Slug(name)
  {
  }

  /** `name.replace(/[^a-zA-Z0-9]/g, '')`. */
  function StripNonAlnum(s: string): (r: string)
    ensures |r| <= |s|
    ensures forall i :: 0 <= i < |r| ==> IsAlnum(r[i])
  {
    if |s| == 0 then ""
    else (if IsAlnum(s[0]) then [s[0]] else "") + StripNonAlnum(s[1..])
  }

  /** Every letter and digit survives stripping as often as it occurs, and nothing else does. */
  lemma {:induction false} StripKeepsAlnum(s: string, c: char)
    ensures CountChar(StripNonAlnum(s), c) == (if IsAlnum(c) then CountChar(s, c) else 0)
    decreases |s|
  {
    if |s| > 0 {
      StripKeepsAlnum(s[1..], c);
      var head: string := if IsAlnum(s[0]) then [s[0]] else "";
      CountCharConcat(head, StripNonAlnum(s[1..]), c);
      if !IsAlnum(c) {
        NoCount(StripNonAlnum(s), c);
      }
    }
  }

  lemma {:induction false} CountCharConcat(a: string, b: string, c: char)
    ensures CountChar(a + b, c) == CountChar(a, c) + CountChar(b, c)
    decreases |a|
  {
    if |a| == 0 {
      assert a + b == b;
    } else {
      assert (a + b)[1..] == a[1..] + b;
      CountCharConcat(a[1..], b, c);
    }
  }

  /** A character that does not occur is counted zero times. */
  lemma {:induction false} NoCount(s: string, c: char)
    requires forall i :: 0 <= i < |s| ==> s[i] != c
    ensures CountChar(s, c) == 0
    decreases |s|
  {
    if |s| > 0 {
      NoCount(s[1..], c);
    }
  }

  /** A single character is kept exactly when it is in `[a-zA-Z0-9]`. */
  lemma StripOne(c: char)
    ensures StripNonAlnum([c]) == (if IsAlnum(c) then [c] else "")
  {
  }

  /** Stripping works character by character: it distributes over concatenation. */
  lemma {:induction false} StripConcat(a: string, b: string)
    ensures StripNonAlnum(a + b) == StripNonAlnum(a) + StripNonAlnum(b)
    decreases |a|
  {
    if |a| > 0 {
      assert (a + b)[1..] == a[1..] + b;
      StripConcat(a[1..], b);
    } else {
      assert a + b == b;
    }
  }

  /** The stripper removes characters exactly when some are outside `[a-zA-Z0-9]`. */
  lemma {:induction false} StripFixedPoint(s: string)
    ensures StripNonAlnum(s) == s <==> forall i :: 0 <= i < |s| ==> IsAlnum(s[i])
    decreases |s|
  {
    if |s| > 0 {
      StripFixedPoint(s[1..]);
      if !IsAlnum(s[0]) {
        assert |StripNonAlnum(s)| <= |s[1..]|;
      } else {
        assert forall i :: 1 <= i < |s| ==> s[1..][i - 1] == s[i];
      }
    }
  }

  /** The class identifier `<stripped name>Server` of `generateMCPServerCode`. */
  function ServerClassName(name: string): (r: string)
    ensures EndsWith(r, "Server")
    ensures forall i :: 0 <= i < |r| ==> IsAlnum(r[i])
    ensures r[..|r| - 6] == StripNonAlnum(name)
  {
    EndsWithConcat(StripNonAlnum(name), "Server");
    StripNonAlnum(name) + "Server"
  }

  /** A name already in `[a-zA-Z0-9]*` is used as it is, followed by `Server`. */
  lemma ServerClassNameOfAlnum(name: string)
    requires forall i :: 0 <= i < |name| ==> IsAlnum(name[i])
    ensures ServerClassName(name) == name + "Server"
  {
    StripFixedPoint(name);
  }

  /** A separator outside `[a-zA-Z0-9]`, such as `-` or a space, vanishes rather than being replaced. */
  lemma ServerClassNameDropsSeparator(a: string, sep: char, b: string)
    requires !IsAlnum(sep)
    ensures ServerClassName(a + [sep] + b) == StripNonAlnum(a) + StripNonAlnum(b) + "Server"
  {
    StripConcat(a + [sep], b);
    StripConcat(a, [sep]);
    StripOne(sep);
    assert StripNonAlnum(a) + "" == StripNonAlnum(a);
  }

}

=== FILE: operations.dfy ===
/**
 * The operations that change or read a stored server definition:
 * `add_mcp_tool`, `add_mcp_resource`, `add_mcp_prompt`, `configure_wrangler`,
 * `get_mcp_server_code`, the age filter of `cleanup_old_servers` and the
 * totals of `updateServerStats`.  The database is a map from server id to
 * definition; the container manager's answer and the clock are inputs.
 */
module Operations {
  import opened Base
  import opened Text
  import opened Template
  import Json
  import opened Definitions
  import opened Keyed
  import Composer
  import Descriptors

  /** The `mcp_servers` table: server id (the server's name) to its definition. */
  type Store = map<string, ServerConfig>

  /** Why an operation refused, one case per error reply the handlers give. */
  datatype Failure =
    | InvalidName
    | AlreadyExists
    | NotFound
    | NoContainer
    | Rejected(error: string)
    | NotActive

  /** The store after the operation, and the failure it reported, if any. */
  datatype Outcome = Outcome(store: Store, failure: Option<Failure>)

  /** The container manager's answer to an `add*ToServer` call. */
  datatype AddReply = AddReply(success: bool, error: string)

  /** `config.container_id` is truthy: present and not the empty string. */
  predicate HasContainer(c: ServerConfig) {
    c.containerId.Some? && c.containerId.value != ""
  }

  /** `after` differs from `before` at most in the entry for `id`, which exists in both. */
  predicate OnlyChanged(before: Store, after: Store, id: string) {
    && id in before
    && after.Keys == before.Keys
    && forall other :: other in before && other != id ==> after[other] == before[other]
  }

  function ToolName(t: Tool): string { t.name }
  function ResourceUri(r: Resource): string { r.uri }
  function PromptName(p: Prompt): string { p.name }

  /** Every lookup through an upsert: the new key finds the new entry, every other key what it found before. */
  lemma UpsertLookups<T>(xs: seq<T>, keyOf: T -> string, x: T)
    ensures Find(Upsert(xs, keyOf, x), keyOf, keyOf(x)) == Some(x)
    ensures forall k :: k != keyOf(x) ==> Find(Upsert(xs, keyOf, x), keyOf, k) == Find(xs, keyOf, k)
  {
    UpsertThenFind(xs, keyOf, x);
    forall k | k != keyOf(x)
      ensures Find(Upsert(xs, keyOf, x), keyOf, k) == Find(xs, keyOf, k)
    {
      UpsertKeepsOthers(xs, keyOf, x, k);
    }
  }

  /**
   * `add_mcp_tool` after the container has been handed the tool code: the
   * tool list is upserted by name and `updatedAt` refreshed; nothing else in
   * the store changes.  Each refusal leaves the store as it was.
   */
  function AddTool(store: Store, id: string, t: Tool, reply: AddReply, now: int): (r: Outcome)
    ensures id !in store ==> r == Outcome(store, Some(NotFound))
    ensures id in store && !HasContainer(store[id]) ==> r == Outcome(store, Some(NoContainer))
    ensures id in store && HasContainer(store[id]) && !reply.success ==>
              r == Outcome(store, Some(Rejected(reply.error)))
    ensures r.failure.None? <==> id in store && HasContainer(store[id]) && reply.success
    ensures r.failure.None? ==>
              && OnlyChanged(store, r.store, id)
              && r.store[id] == store[id].(tools := r.store[id].tools, updatedAt := now)
              && Find(r.store[id].tools, ToolName, t.name) == Some(t)
              && forall k :: k != t.name ==>
                   Find(r.store[id].tools, ToolName, k) == Find(store[id].tools, ToolName, k)
  {
    if id !in store then Outcome(store, Some(NotFound))
    else if !HasContainer(store[id]) then Outcome(store, Some(NoContainer))
    else if !reply.success then Outcome(store, Some(Rejected(reply.error)))
    else
      var c := store[id];
      UpsertLookups(c.tools, ToolName, t);
      Outcome(store[id := c.(tools := Upsert(c.tools, ToolName, t), updatedAt := now)], None)
  }

  /** `add_mcp_resource`: as `AddTool`, with resources upserted by `uri`. */
  function AddResource(store: Store, id: string, res: Resource, reply: AddReply, now: int): (r: Outcome)
    ensures id !in store ==> r == Outcome(store, Some(NotFound))
    ensures id in store && !HasContainer(store[id]) ==> r == Outcome(store, Some(NoContainer))
    ensures id in store && HasContainer(store[id]) && !reply.success ==>
              r == Outcome(store, Some(Rejected(reply.error)))
    ensures r.failure.None? <==> id in store && HasContainer(store[id]) && reply.success
    ensures r.failure.None? ==>
              && OnlyChanged(store, r.store, id)
              && r.store[id] == store[id].(resources := r.store[id].resources, updatedAt := now)
              && Find(r.store[id].resources, ResourceUri, res.uri) == Some(res)
              && forall k :: k != res.uri ==>
                   Find(r.store[id].resources, ResourceUri, k) == Find(store[id].resources, ResourceUri, k)
  {
    if id !in store then Outcome(store, Some(NotFound))
    else if !HasContainer(store[id]) then Outcome(store, Some(NoContainer))
    else if !reply.success then Outcome(store, Some(Rejected(reply.error)))
    else
      var c := store[id];
      UpsertLookups(c.resources, ResourceUri, res);
      Outcome(store[id := c.(resources := Upsert(c.resources, ResourceUri, res), updatedAt := now)], None)
  }

  /** `add_mcp_prompt`: as `AddTool`, with prompts upserted by name. */
  function AddPrompt(store: Store, id: string, p: Prompt, reply: AddReply, now: int): (r: Outcome)
    ensures id !in store ==> r == Outcome(store, Some(NotFound))
    ensures id in store && !HasContainer(store[id]) ==> r == Outcome(store, Some(NoContainer))
    ensures id in store && HasContainer(store[id]) && !reply.success ==>
              r == Outcome(store, Some(Rejected(reply.error)))
    ensures r.failure.None? <==> id in store && HasContainer(store[id]) && reply.success
    ensures r.failure.None? ==>
              && OnlyChanged(store, r.store, id)
              && r.store[id] == store[id].(prompts := r.store[id].prompts, updatedAt := now)
              && Find(r.store[id].prompts, PromptName, p.name) == Some(p)
              && forall k :: k != p.name ==>
                   Find(r.store[id].prompts, PromptName, k) == Find(store[id].prompts, PromptName, k)
  {
    if id !in store then Outcome(store, Some(NotFound))
    else if !HasContainer(store[id]) then Outcome(store, Some(NoContainer))
    else if !reply.success then Outcome(store, Some(Rejected(reply.error)))
    else
      var c := store[id];
      UpsertLookups(c.prompts, PromptName, p);
      Outcome(store[id := c.(prompts := Upsert(c.prompts, PromptName, p), updatedAt := now)], None)
  }

  /** Adding a tool keeps tool names unique and grows the list only for a new name. */
  lemma AddToolKeepsNamesUnique(store: Store, id: string, t: Tool, reply: AddReply, now: int)
    requires id in store && KeysUnique(store[id].tools, ToolName)
    requires AddTool(store, id, t, reply, now).failure.None?
    ensures KeysUnique(AddTool(store, id, t, reply, now).store[id].tools, ToolName)
    ensures KeySet(AddTool(store, id, t, reply, now).store[id].tools, ToolName)
            == KeySet(store[id].tools, ToolName) + {t.name}
    ensures |AddTool(store, id, t, reply, now).store[id].tools|
            == if t.name in KeySet(store[id].tools, ToolName) then |store[id].tools| else |store[id].tools| + 1
  {
    UpsertKeepsKeysUnique(store[id].tools, ToolName, t);
    UpsertKeys(store[id].tools, ToolName, t);
    UpsertLength(store[id].tools, ToolName, t);
  }

  /** Adding the same tool again changes nothing but the time stamp. */
  lemma AddToolIdempotent(store: Store, id: string, t: Tool, reply: AddReply, now: int, later: int)
    requires AddTool(store, id, t, reply, now).failure.None?
    ensures AddTool(AddTool(store, id, t, reply, now).store, id, t, reply, later).store
            == AddTool(store, id, t, reply, later).store
  {
    UpsertIdempotent(store[id].tools, ToolName, t);
  }

  // ---------------------------------------------------------------- configure_wrangler

  /**
   * The partial merge of `configure_wrangler`: `routes` and `vars` replace
   * the stored ones when given (an empty list or object is given, being
   * truthy); the compatibility date is replaced only by a non-empty string.
   */
  function MergeWrangler(w: WranglerConfig, routes: Option<seq<string>>,
                         vars: Option<seq<(string, Json.Value)>>, date: Option<string>): (r: WranglerConfig)
    ensures r.name == w.name && r.compatibilityFlags == w.compatibilityFlags
    ensures routes.Some? ==> r.routes == routes
    ensures routes.None? ==> r.routes == w.routes
    ensures vars.Some? ==> r.vars == vars
    ensures vars.None? ==> r.vars == w.vars
    ensures date.Some? && date.value != "" ==> r.compatibilityDate == Some(date.value)
    ensures date.None? || date.value == "" ==> r.compatibilityDate == w.compatibilityDate
  {
    w.(routes := if routes.Some? then routes else w.routes,
       vars := if vars.Some? then vars else w.vars,
       compatibilityDate := if date.Some? && date.value != "" then Some(date.value) else w.compatibilityDate)
  }

  /** Applying the same settings twice is the same as applying them once. */
  lemma MergeIdempotent(w: WranglerConfig, routes: Option<seq<string>>,
                        vars: Option<seq<(string, Json.Value)>>, date: Option<string>)
    ensures MergeWrangler(MergeWrangler(w, routes, vars, date), routes, vars, date)
            == MergeWrangler(w, routes, vars, date)
  {
  }

  /** With nothing given (or only an empty date) the settings stay as they were. */
  lemma MergeNothing(w: WranglerConfig, date: Option<string>)
    requires date.None? || date.value == ""
    ensures MergeWrangler(w, None, None, date) == w
  {
  }

  /** `configure_wrangler`: no container is needed; the definition is saved with the merged settings. */
  function ConfigureWrangler(store: Store, id: string, routes: Option<seq<string>>,
                             vars: Option<seq<(string, Json.Value)>>, date: Option<string>, now: int): (r: Outcome)
    ensures id !in store ==> r == Outcome(store, Some(NotFound))
    ensures id in store ==>
              && r.failure.None?
              && OnlyChanged(store, r.store, id)
              && r.store[id] == store[id].(wrangler := MergeWrangler(store[id].wrangler, routes, vars, date),
                                           updatedAt := now)
  {
    if id !in store then Outcome(store, Some(NotFound))
    else
      var c := store[id];
      Outcome(store[id := c.(wrangler := MergeWrangler(c.wrangler, routes, vars, date), updatedAt := now)], None)
  }

  /** Routes set through `configure_wrangler` appear in the generated worker descriptor. */
  lemma ConfiguredRoutesReachDescriptor(store: Store, id: string, rs: seq<string>,
                                        vars: Option<seq<(string, Json.Value)>>, date: Option<string>, now: int)
    requires id in store
    ensures Descriptors.Member(Descriptors.WranglerValue(ConfigureWrangler(store, id, Some(rs), vars, date, now).store[id]),
                               "routes")
            == Some(Descriptors.Strings(rs))
  {
    Descriptors.WranglerRoutesMember(ConfigureWrangler(store, id, Some(rs), vars, date, now).store[id]);
  }

  // ---------------------------------------------------------------- get_mcp_server_code

  /** The `fileType` argument; `All` is its default. */
  datatype FileType = IndexFile | WranglerFile | PackageFile | All

  const TsExtension: string := ".ts"
  const IndexPath: string := "src/index" + TsExtension
  const WranglerPath: string := "wrangler.jsonc"
  const PackagePath: string := "package.json"

  /**
   * The files generated for one `fileType`, as (file name, contents) in the
   * order the handler inserts them: index, then wrangler, then package.
   */
  function SelectFiles(ft: FileType, index: string, wrangler: string, package: string): (r: seq<(string, string)>)
    ensures ft == All ==> r == [(IndexPath, index), (WranglerPath, wrangler), (PackagePath, package)]
    ensures ft == IndexFile ==> r == [(IndexPath, index)]
    ensures ft == WranglerFile ==> r == [(WranglerPath, wrangler)]
    ensures ft == PackageFile ==> r == [(PackagePath, package)]
  {
    (if ft == IndexFile || ft == All then [(IndexPath, index)] else [])
    + (if ft == WranglerFile || ft == All then [(WranglerPath, wrangler)] else [])
    + (if ft == PackageFile || ft == All then [(PackagePath, package)] else [])
  }

  /** The generated files of a stored definition. */
  function CodeFiles(c: ServerConfig, ft: FileType): seq<(string, string)> {
    SelectFiles(ft, Composer.IndexTs(c), Descriptors.WranglerJsonc(c), Descriptors.PackageJson(c))
  }

  const Fence: string := "```"

  /** The code fence language: TypeScript for `.ts` files, JSON for everything else. */
  function FenceLanguage(filename: string): (r: string)
    ensures r == "typescript" <==> EndsWith(filename, TsExtension)
    ensures r == "json" <==> !EndsWith(filename, TsExtension)
  {
    if EndsWith(filename, TsExtension) then "typescript" else "json"
  }

  /** One file of the listing; holes: file name, language, contents. */
  const SectionLits: seq<string> := ["\n### ", "\n" + Fence, "\n", "\n" + Fence]

  function Section(file: (string, string)): string {
    Fill(SectionLits, [file.0, FenceLanguage(file.0), file.1])
  }

  function Sections(files: seq<(string, string)>): (r: seq<string>)
    ensures |r| == |files|
    ensures forall i :: 0 <= i < |files| ==> r[i] == Section(files[i])
  {
    seq(|files|, i requires 0 <= i < |files| => Section(files[i]))
  }

  const ReplyOpen: string := "Generated code for MCP server '"
  const ReplyNextSteps: string :=
    "\n\nYou can now:\n1. Save these files to a new project directory\n2. Run 'npm install'\n3. Run 'npm run deploy' to deploy to Cloudflare Workers"

  /** The reply text of `get_mcp_server_code`. */
  function CodeReply(id: string, files: seq<(string, string)>): string {
    ReplyOpen + id + "':\n" + Join(Sections(files), "\n") + ReplyNextSteps
  }

  /** The contents of a file inside a fence tagged with its language. */
  function Fenced(file: (string, string)): string {
    Fence + FenceLanguage(file.0) + "\n" + file.1 + "\n" + Fence
  }

  /** Each section shows the file's contents fenced. */
  lemma SectionFencesContents(file: (string, string)) returns (k: int)
    ensures AtPos(Section(file), Fenced(file), k)
  {
    var vals := [file.0, FenceLanguage(file.0), file.1];
    EndsWithConcat("\n", Fence);
    assert StartsWith(SectionLits[3], "\n" + Fence);
    k := AdjacentAt(SectionLits, vals, 1, Fence, "\n" + Fence);
    Regroup(Fence, FenceLanguage(file.0), "\n", file.1, "\n" + Fence);
    assert Fence + FenceLanguage(file.0) + "\n" + file.1 + ("\n" + Fence) == Fenced(file);
  }

  /** The listing holds every file, fenced, in the order given. */
  lemma ListingShowsFile(files: seq<(string, string)>, i: nat) returns (k: int)
    requires i < |files|
    ensures AtPos(Join(Sections(files), "\n"), Fenced(files[i]), k)
  {
    var m := SectionFencesContents(files[i]);
    JoinPiece(Sections(files), "\n", i);
    AtPosTrans(Join(Sections(files), "\n"), Section(files[i]), Fenced(files[i]),
               JoinOffset(Sections(files), "\n", i), m);
    k := JoinOffset(Sections(files), "\n", i) + m;
  }

  /** Every selected file's contents appear in the reply, fenced with the file's language. */
  lemma ReplyShowsFile(id: string, files: seq<(string, string)>, i: nat)
    requires i < |files|
    ensures Contains(CodeReply(id, files), Fenced(files[i]))
  {
    var head := ReplyOpen + id + "':\n";
    var k := ListingShowsFile(files, i);
    AtPosInfix(head, Join(Sections(files), "\n"), ReplyNextSteps, Fenced(files[i]), k);
    AtPosContains(CodeReply(id, files), Fenced(files[i]), |head| + k);
  }

  /** Asking for everything shows the module in a TypeScript fence and both descriptors in JSON fences. */
  lemma AllFilesShown(id: string, index: string, wrangler: string, package: string)
    ensures FenceLanguage(IndexPath) == "typescript"
    ensures FenceLanguage(WranglerPath) == "json" && FenceLanguage(PackagePath) == "json"
    ensures Contains(CodeReply(id, SelectFiles(All, index, wrangler, package)), Fenced((IndexPath, index)))
    ensures Contains(CodeReply(id, SelectFiles(All, index, wrangler, package)), Fenced((WranglerPath, wrangler)))
    ensures Contains(CodeReply(id, SelectFiles(All, index, wrangler, package)), Fenced((PackagePath, package)))
  {
    var files := SelectFiles(All, index, wrangler, package);
    EndsWithConcat("src/index", TsExtension);
    assert !EndsWith(WranglerPath, TsExtension) && !EndsWith(PackagePath, TsExtension);
    ReplyShowsFile(id, files, 0);
    ReplyShowsFile(id, files, 1);
    ReplyShowsFile(id, files, 2);
  }

  // ---------------------------------------------------------------- cleanup_old_servers

  /** Milliseconds in a day. */
  const DayMs: int := 24 * 60 * 60 * 1000

  /** Not updated for longer than the threshold (strictly). */
  predicate IsStale(s: ServerConfig, now: int, days: int) {
    now - s.updatedAt > days * DayMs
  }

  /** The servers `cleanup_old_servers` would delete, in listing order. */
  function StaleServers(servers: seq<ServerConfig>, now: int, days: int): (r: seq<ServerConfig>)
    ensures |r| <= |servers|
    ensures forall s :: s in r <==> s in servers && IsStale(s, now, days)
    decreases |servers|
  {
    if |servers| == 0 then []
    else
      var rest := StaleServers(servers[1..], now, days);
      if IsStale(servers[0], now, days) then [servers[0]] + rest else rest
  }

  /** A longer threshold never selects a server a shorter one spares. */
  lemma StaleMonotone(servers: seq<ServerConfig>, now: int, shorter: int, longer: int)
    requires shorter <= longer
    ensures forall s :: s in StaleServers(servers, now, longer) ==> s in StaleServers(servers, now, shorter)
  {
  }

  /**
   * The selection keeps the listing order: selecting from two listings one
   * after the other gives the two selections one after the other.
   */
  lemma {:induction false} StaleConcat(a: seq<ServerConfig>, b: seq<ServerConfig>, now: int, days: int)
    ensures StaleServers(a + b, now, days) == StaleServers(a, now, days) + StaleServers(b, now, days)
    decreases |a|
  {
    if |a| == 0 {
      assert a + b == b;
    } else {
      assert (a + b)[1..] == a[1..] + b;
      StaleConcat(a[1..], b, now, days);
    }
  }

  // ---------------------------------------------------------------- updateServerStats

  /** The totals `updateServerStats` writes into the agent state. */
  datatype Stats = Stats(totalServers: nat, totalTools: nat, totalResources: nat, totalPrompts: nat)

  function TotalTools(servers: seq<ServerConfig>): nat
    decreases |servers|
  {
    if |servers| == 0 then 0 else TotalTools(servers[..|servers| - 1]) + |servers[|servers| - 1].tools|
  }

  function TotalResources(servers: seq<ServerConfig>): nat
    decreases |servers|
  {
    if |servers| == 0 then 0 else TotalResources(servers[..|servers| - 1]) + |servers[|servers| - 1].resources|
  }

  function TotalPrompts(servers: seq<ServerConfig>): nat
    decreases |servers|
  {
    if |servers| == 0 then 0 else TotalPrompts(servers[..|servers| - 1]) + |servers[|servers| - 1].prompts|
  }

  /** The loop of `updateServerStats`: one pass adding up the three list lengths. */
  method ServerStats(servers: seq<ServerConfig>) returns (st: Stats)
    ensures st.totalServers == |servers|
    ensures st.totalTools == TotalTools(servers)
    ensures st.totalResources == TotalResources(servers)
    ensures st.totalPrompts == TotalPrompts(servers)
  {
    var tools, resources, prompts := 0, 0, 0;
    var i := 0;
    while i < |servers|
      invariant 0 <= i <= |servers|
      invariant tools == TotalTools(servers[..i])
      invariant resources == TotalResources(servers[..i])
      invariant prompts == TotalPrompts(servers[..i])
    {
      assert servers[..i + 1][..i] == servers[..i];
      tools := tools + |servers[i].tools|;
      resources := resources + |servers[i].resources|;
      prompts := prompts + |servers[i].prompts|;
      i := i + 1;
    }
    assert servers[..i] == servers;
    st := Stats(|servers|, tools, resources, prompts);
  }

  /** Replacing one server's definition changes the tool total by the change in its tool count. */
  lemma {:induction false} TotalToolsUpdate(servers: seq<ServerConfig>, i: nat, c: ServerConfig)
    requires i < |servers|
    ensures TotalTools(servers[i := c]) + |servers[i].tools| == TotalTools(servers) + |c.tools|
    decreases |servers|
  {
    var n := |servers| - 1;
    var s' := servers[i := c];
    if i < n {
      assert s'[..n] == servers[..n][i := c];
      TotalToolsUpdate(servers[..n], i, c);
    } else {
      assert s'[..n] == servers[..n];
    }
  }

  /**
   * After a successful `add_mcp_tool`, the tool total over a listing of the
   * store rises by one for a new tool name and is unchanged for a known one.
   */
  lemma AddToolTotal(store: Store, id: string, t: Tool, reply: AddReply, now: int,
                     servers: seq<ServerConfig>, i: nat)
    requires i < |servers| && id in store && servers[i] == store[id]
    requires AddTool(store, id, t, reply, now).failure.None?
    ensures TotalTools(servers[i := AddTool(store, id, t, reply, now).store[id]])
            == TotalTools(servers) + (if t.name in KeySet(store[id].tools, ToolName) then 0 else 1)
  {
    TotalToolsUpdate(servers, i, AddTool(store, id, t, reply, now).store[id]);
    UpsertLength(store[id].tools, ToolName, t);
  }
}

=== FILE: paths.dfy ===
/**
 * The path checks of the container file tools: `container_file_write`,
 * `container_file_read` and `container_file_delete`, the parent directory
 * the write tool creates, and the encoding the read tool chooses.
 */
module PathGuards {
  import opened Base
  import opened Text

  const Workspace: string := "/workspace"
  const ParentStep: string := ".."

  /** What a guard decides about a path, one case per reply it gives. */
  datatype Verdict = Allowed | Unsafe | Protected | OutsideWorkspace

  /** The system directories the write tool refuses. */
  predicate UnderSystemDir(path: string) {
    StartsWith(path, "/etc") || StartsWith(path, "/sys") || StartsWith(path, "/proc")
  }

  /**
   * `container_file_write`: a path with `..` or under a system directory is
   * unsafe; otherwise it must begin with `/workspace` or `./`.
   */
  function WriteVerdict(path: string): (r: Verdict)
    ensures r == Unsafe <==> Contains(path, ParentStep) || UnderSystemDir(path)
    ensures r == Allowed <==>
              !Contains(path, ParentStep) && !UnderSystemDir(path)
              && (StartsWith(path, Workspace) || StartsWith(path, "./"))
    ensures r != Protected
  {
    if Contains(path, ParentStep) || UnderSystemDir(path) then Unsafe
    else if !StartsWith(path, Workspace) && !StartsWith(path, "./") then OutsideWorkspace
    else Allowed
  }

  /** `container_file_read`: only `..`, `/etc` and `/proc` are refused; any other path may be read. */
  function ReadVerdict(path: string): (r: Verdict)
    ensures r == Allowed <==> !Contains(path, ParentStep) && !StartsWith(path, "/etc") && !StartsWith(path, "/proc")
    ensures r != Allowed ==> r == Unsafe
  {
    if Contains(path, ParentStep) || StartsWith(path, "/etc") || StartsWith(path, "/proc") then Unsafe
    else Allowed
  }

  /** Whatever may be written may be read. */
  lemma WritableIsReadable(path: string)
    requires WriteVerdict(path) == Allowed
    ensures ReadVerdict(path) == Allowed
  {
  }

  /** The directories the delete tool refuses, each with everything below it. */
  const ProtectedPaths: seq<string> := ["/", "/etc", "/sys", "/proc", "/usr", "/bin", "/sbin", "/lib", "/boot"]

  predicate IsProtected(path: string) {
    exists i :: 0 <= i < |ProtectedPaths| && (path == ProtectedPaths[i] || StartsWith(path, ProtectedPaths[i] + "/"))
  }

  /**
   * `container_file_delete` as written: a protected path is refused, and
   * otherwise the path only has to begin with `/workspace`.
   */
  function DeleteVerdictAsWritten(path: string): (r: Verdict)
    ensures r == Allowed <==> !IsProtected(path) && StartsWith(path, Workspace)
    ensures r == Protected <==> IsProtected(path)
  {
    if IsProtected(path) then Protected
    else if !StartsWith(path, Workspace) then OutsideWorkspace
    else Allowed
  }

  /** The delete check with the `..` test the write and read checks make. */
  function DeleteVerdict(path: string): (r: Verdict)
    ensures r == Allowed <==> !IsProtected(path) && !Contains(path, ParentStep) && StartsWith(path, Workspace)
    ensures r == Protected <==> IsProtected(path)
    ensures r == Allowed ==> DeleteVerdictAsWritten(path) == Allowed
  {
    if IsProtected(path) then Protected
    else if Contains(path, ParentStep) then Unsafe
    else if !StartsWith(path, Workspace) then OutsideWorkspace
    else Allowed
  }

  /** A path under `/workspace` is under none of the system directories. */
  lemma WorkspaceIsNotSystem(path: string)
    requires StartsWith(path, Workspace)
    ensures !UnderSystemDir(path)
  {
    assert path[1] == Workspace[1] == 'w';
  }

  /** With the `..` test, whatever may be deleted may also be written. */
  lemma DeletableIsWritable(path: string)
    requires DeleteVerdict(path) == Allowed
    ensures WriteVerdict(path) == Allowed
  {
    WorkspaceIsNotSystem(path);
  }

  const EscapingPath: string := "/workspace/../etc/passwd"

  /** As written, the delete check admits a path that leaves the workspace, which the write check refuses. */
  lemma DeleteAsWrittenAdmitsEscape()
    ensures DeleteVerdictAsWritten(EscapingPath) == Allowed
    ensures WriteVerdict(EscapingPath) == Unsafe
    ensures DeleteVerdict(EscapingPath) == Unsafe
  {
    assert AtPos(EscapingPath, ParentStep, 11);
    AtPosContains(EscapingPath, ParentStep, 11);
    assert StartsWith(EscapingPath, Workspace);
    forall i | 0 <= i < |ProtectedPaths|
      ensures EscapingPath != ProtectedPaths[i] && !StartsWith(EscapingPath, ProtectedPaths[i] + "/")
    {
      assert EscapingPath[1] == 'w';
      assert |ProtectedPaths[i]| <= 5;
      if i == 0 {
        assert EscapingPath[..2] != "//";
      } else {
        assert ProtectedPaths[i][1] != 'w';
      }
    }
  }

  // ---------------------------------------------------------------- parent directory

  /** `path.substring(0, path.lastIndexOf("/"))`: empty when the path has no `/`. */
  function ParentDir(path: string): (r: string)
    ensures |r| <= |path| && StartsWith(path, r)
    ensures '/' !in path ==> r == ""
    ensures '/' in path ==> |r| < |path| && path[|r|] == '/' && '/' !in path[|r| + 1..]
  {
    var i := LastIndexOf(path, '/');
    if i < 0 then "" else path[..i]
  }

  /** The parent of `dir/name` is `dir` for a plain file name. */
  lemma ParentOfChild(dir: string, name: string)
    requires '/' !in name
    ensures ParentDir(dir + "/" + name) == dir
  {
    var p := dir + "/" + name;
    var r := ParentDir(p);
    assert p[|dir|] == '/';
    assert p[|dir| + 1..] == name;
    assert p[..|dir|] == dir;
  }

  /** The write tool runs `mkdir -p` only for a non-empty parent other than `/workspace` itself. */
  predicate CreatesParent(path: string, createDirs: bool) {
    createDirs && ParentDir(path) != "" && ParentDir(path) != Workspace
  }

  lemma TopLevelFileNeedsNoMkdir(name: string, createDirs: bool)
    requires '/' !in name
    ensures !CreatesParent(Workspace + "/" + name, createDirs)
  {
  }

  // ---------------------------------------------------------------- read encoding

  datatype Encoding = Utf8 | Base64

  const ImageExtensions: seq<string> := [".png", ".jpg", ".jpeg", ".gif", ".webp", ".svg"]

  /** The lower-cased path ends with one of the image extensions. */
  predicate IsImage(path: string) {
    exists i :: 0 <= i < |ImageExtensions| && EndsWith(LowerString(path), ImageExtensions[i])
  }

  /** Images are always read as base64; other files in the requested encoding, UTF-8 by default. */
  function ReadEncoding(path: string, requested: Option<Encoding>): (r: Encoding)
    ensures IsImage(path) ==> r == Base64
    ensures !IsImage(path) && requested.Some? ==> r == requested.value
    ensures !IsImage(path) && requested.None? ==> r == Utf8
  {
    if IsImage(path) then Base64 else requested.GetOr(Utf8)
  }

  /** The encoding choice does not depend on the case of the path. */
  lemma EncodingIgnoresCase(path: string, requested: Option<Encoding>)
    ensures ReadEncoding(LowerString(path), requested) == ReadEncoding(path, requested)
  {
  }
}

=== FILE: rpc_codegen.dfy ===
/**
 * `generateMCPServerCode` of the RPC entrypoint: the three files handed to
 * the container build for a server created in one call.  Unlike the tool
 * path it registers tools from a `tools` array at construction time, names
 * the class `<stripped name>Server`, and writes both JSON files as fixed
 * text with the slug of the name spliced in.
 */
module RpcCodegen {
  import opened Text
  import opened Template
  import Json
  import Names
  import Composer

  /** A tool as the RPC caller passes it: handler code and a JSON schema. */
  datatype RpcTool = RpcTool(name: string, description: string, inputSchema: Json.Value, handler: string)

  const EntryHandler: string := ",\n\t\t\t\thandler: "
  const EntryClose: string := "\n\t\t\t}"

  /** One element of the `tools` array literal; holes: name, description, schema, handler. */
  const EntryLits: seq<string> := [
    "\n\t\t\t{\n\t\t\t\tname: \"",
    "\",\n\t\t\t\tdescription: \"",
    "\",\n\t\t\t\tinputSchema: ",
    EntryHandler,
    EntryClose + "\n\t\t"
  ]

  /** `JSON.stringify(tool.inputSchema, null, 2)`. */
  function SchemaText(schema: Json.Value): string {
    Json.Pretty(schema, "  ", "")
  }

  function ToolEntry(t: RpcTool): string {
    Fill(EntryLits, [t.name, t.description, SchemaText(t.inputSchema), t.handler])
  }

  function ToolEntries(tools: seq<RpcTool>): (r: seq<string>)
    ensures |r| == |tools|
    ensures forall i :: 0 <= i < |tools| ==> r[i] == ToolEntry(tools[i])
  {
    seq(|tools|, i requires 0 <= i < |tools| => ToolEntry(tools[i]))
  }

  /** The entries, in input order, separated as `join(',\n')` does. */
  function ToolsCode(tools: seq<RpcTool>): string {
    Join(ToolEntries(tools), ",\n")
  }

  const ToolsOpen: string := "\nconst tools = [\n\t"
  const ClassOpen: string := "export class "
  const ClassExtends: string := " extends McpAgent {"
  const NewServer: string := "const server = new "
  const NewServerClose: string := "();"

  const ConstructorAndFetch: string :=
    "\";\n\n\tconstructor() {\n\t\tsuper();\n\t\t// Register all tools\n\t\tfor (const tool of tools) {\n\t\t\tthis.server.tool(tool.name, tool.inputSchema, tool.handler);\n\t\t}\n\t}\n}\n\nexport default {\n\tasync fetch(request: Request, env: any, ctx: ExecutionContext) {\n\t\t"
  const FetchTail: string := "\n\t\treturn await server.fetch(request, env, ctx);\n\t}\n};\n"

  /** Holes: tools code, class, name, description, class. */
  const IndexLits: seq<string> := [
    "\n" + Composer.ImportBlock + ToolsOpen,
    "\n];\n\n" + ClassOpen,
    ClassExtends + "\n\tname = \"",
    "\";\n\tversion = \"1.0.0\";\n\tdescription = \"",
    ConstructorAndFetch + NewServer,
    NewServerClose + FetchTail
  ]

  function IndexText(toolsCode: string, cls: string, name: string, description: string): string {
    Fill(IndexLits, [toolsCode, cls, name, description, cls])
  }

  /** The generated `index.ts`. */
  function IndexTs(name: string, description: string, tools: seq<RpcTool>): string {
    IndexText(ToolsCode(tools), Names.ServerClassName(name), name, description)
  }

  const NameKey: string := "\"name\": \""
  const Closing: string := "\","
  const PackageVersion: string := "\n  \"version\": \"1.0.0\",\n  \"description\": \""
  const SchemaLine: string := "{\n  \"$schema\": \"node_modules/wrangler/config-schema.json\",\n  "
  const WranglerRest: string :=
    "\n  \"main\": \"index.ts\",\n  \"compatibility_date\": \"2025-03-10\",\n  \"compatibility_flags\": [\"nodejs_compat\"]\n}"

  const PackageLits: seq<string> := [
    "{\n  " + NameKey,
    Closing + PackageVersion,
    "\",\n  \"main\": \"index.ts\",\n  \"dependencies\": {\n    \"@modelcontextprotocol/sdk\": \"^1.0.0\",\n    \"agents\": \"latest\",\n    \"zod\": \"^3.22.0\"\n  }\n}"
  ]

  const WranglerLits: seq<string> := [SchemaLine + NameKey, Closing + WranglerRest]

  /** The generated `package.json`: the slug of the name, then the description, spliced in unescaped. */
  function PackageText(name: string, description: string): string {
    Fill(PackageLits, [Names.Slug(name), description])
  }

  /** The generated `wrangler.jsonc`. */
  function WranglerText(name: string): string {
    Fill(WranglerLits, [Names.Slug(name)])
  }

  const IndexFile: string := "index.ts"
  const PackageFile: string := "package.json"
  const WranglerFile: string := "wrangler.jsonc"

  /** `generateMCPServerCode(name, description, tools)`: file name to contents. */
  function GenerateFiles(name: string, description: string, tools: seq<RpcTool>): (r: map<string, string>)
    ensures r.Keys == {IndexFile, PackageFile, WranglerFile}
  {
    map[IndexFile := IndexTs(name, description, tools),
        PackageFile := PackageText(name, description),
        WranglerFile := WranglerText(name)]
  }

  /** The class is declared under the given identifier. */
  lemma RpcClassDeclared(toolsCode: string, cls: string, name: string, description: string)
    ensures Contains(IndexText(toolsCode, cls, name, description), ClassOpen + cls + ClassExtends)
  {
    EndsWithConcat("\n];\n\n", ClassOpen);
    StartsWithConcat(ClassExtends, "\n\tname = \"");
    ValueContained(IndexLits, [toolsCode, cls, name, description, cls], 1, ClassOpen, ClassExtends);
  }

  /** The fetch handler instantiates that same class. */
  lemma RpcClassInstantiated(toolsCode: string, cls: string, name: string, description: string)
    ensures Contains(IndexText(toolsCode, cls, name, description), NewServer + cls + NewServerClose)
  {
    EndsWithConcat(ConstructorAndFetch, NewServer);
    StartsWithConcat(NewServerClose, FetchTail);
    ValueContained(IndexLits, [toolsCode, cls, name, description, cls], 4, NewServer, NewServerClose);
  }

  /**
   * For any server name, the identifier declared and the identifier the
   * fetch handler instantiates are the same `<stripped name>Server`.
   */
  lemma RpcClassConsistent(name: string, description: string, tools: seq<RpcTool>)
    ensures Contains(IndexTs(name, description, tools), ClassOpen + Names.ServerClassName(name) + ClassExtends)
    ensures Contains(IndexTs(name, description, tools), NewServer + Names.ServerClassName(name) + NewServerClose)
  {
    RpcClassDeclared(ToolsCode(tools), Names.ServerClassName(name), name, description);
    RpcClassInstantiated(ToolsCode(tools), Names.ServerClassName(name), name, description);
  }

  /** The tools array literal opens right after the imports and holds the tools code. */
  lemma RpcToolsAt(toolsCode: string, cls: string, name: string, description: string)
    ensures AtPos(IndexText(toolsCode, cls, name, description), toolsCode, |IndexLits[0]|)
    ensures EndsWith(IndexLits[0], ToolsOpen)
  {
    var vals := [toolsCode, cls, name, description, cls];
    ValueAtHole(IndexLits, vals, 0);
    assert IndexLits[..1] == [IndexLits[0]] && vals[..0] == [];
    EndsWithConcat("\n" + Composer.ImportBlock, ToolsOpen);
  }

  /** Tool `i`'s entry sits in the array at its join offset: entries keep the input order. */
  lemma RpcEntryAt(name: string, description: string, tools: seq<RpcTool>, i: nat)
    requires i < |tools|
    ensures AtPos(IndexTs(name, description, tools), ToolEntry(tools[i]),
                  |IndexLits[0]| + JoinOffset(ToolEntries(tools), ",\n", i))
  {
    RpcToolsAt(ToolsCode(tools), Names.ServerClassName(name), name, description);
    Composer.PieceOfGroup(IndexTs(name, description, tools), ToolEntries(tools), ",\n", |IndexLits[0]|, i);
  }

  /** Each entry carries its handler verbatim, between the `handler:` key and the entry's end. */
  lemma EntryHandlerVerbatim(t: RpcTool) returns (k: int)
    ensures AtPos(ToolEntry(t), EntryHandler + t.handler + EntryClose, k)
  {
    var vals := [t.name, t.description, SchemaText(t.inputSchema), t.handler];
    StartsWithConcat(EntryClose, "\n\t\t");
    ValueInContext(EntryLits, vals, 3, EntryHandler, EntryClose);
    assert EndsWith(EntryLits[3], EntryHandler);
    k := HoleOffset(EntryLits, vals, 3) - |EntryHandler|;
  }

  /** Every tool's handler reaches the generated module unchanged. */
  lemma RpcHandlerVerbatim(name: string, description: string, tools: seq<RpcTool>, i: nat)
    requires i < |tools|
    ensures Contains(IndexTs(name, description, tools), EntryHandler + tools[i].handler + EntryClose)
  {
    var at := |IndexLits[0]| + JoinOffset(ToolEntries(tools), ",\n", i);
    RpcEntryAt(name, description, tools, i);
    var k := EntryHandlerVerbatim(tools[i]);
    AtPosTrans(IndexTs(name, description, tools), ToolEntry(tools[i]),
               EntryHandler + tools[i].handler + EntryClose, at, k);
    AtPosContains(IndexTs(name, description, tools), EntryHandler + tools[i].handler + EntryClose, at + k);
  }

  /** The tools array has one entry per tool, separated exactly by `",\n"`. */
  lemma RpcEntriesSeparated(tools: seq<RpcTool>, i: nat)
    requires i + 1 < |tools|
    ensures AtPos(ToolsCode(tools), ",\n", JoinOffset(ToolEntries(tools), ",\n", i) + |ToolEntry(tools[i])|)
    ensures JoinOffset(ToolEntries(tools), ",\n", i + 1)
            == JoinOffset(ToolEntries(tools), ",\n", i) + |ToolEntry(tools[i])| + 2
  {
    JoinNeighbours(ToolEntries(tools), ",\n", i);
  }

  /** The package manifest is named with the slug of the server name. */
  lemma RpcPackageName(name: string, description: string)
    ensures Contains(PackageText(name, description), NameKey + Names.Slug(name) + Closing)
  {
    EndsWithConcat("{\n  ", NameKey);
    StartsWithConcat(Closing, PackageVersion);
    ValueContained(PackageLits, [Names.Slug(name), description], 0, NameKey, Closing);
  }

  /** The worker descriptor is named with the same slug. */
  lemma RpcWranglerName(name: string)
    ensures Contains(WranglerText(name), NameKey + Names.Slug(name) + Closing)
  {
    EndsWithConcat(SchemaLine, NameKey);
    StartsWithConcat(Closing, WranglerRest);
    ValueContained(WranglerLits, [Names.Slug(name)], 0, NameKey, Closing);
  }

  /**
   * Both files carry the same slug, and the name the worker is deployed
   * under is that slug with the `mcp-` prefix.
   */
  lemma RpcNamesAgree(name: string, description: string)
    ensures Contains(PackageText(name, description), NameKey + Names.Slug(name) + Closing)
    ensures Contains(WranglerText(name), NameKey + Names.Slug(name) + Closing)
    ensures Names.WorkerSlug(name) == "mcp-" + Names.Slug(name)
  {
    RpcPackageName(name, description);
    RpcWranglerName(name);
  }
}

=== FILE: schema.dfy ===
/**
 * The parameter-schema translator: a tool's `parameters` record becomes the
 * Zod source text placed inside the generated `this.server.tool(...)` call.
 * `add_mcp_tool` and `generateIndexTs` carry identical copies of this code;
 * it is modelled once here.  Descriptions are interpolated raw.
 */
module Schema {
  import opened Base
  import opened Text
  import Json

  /**
   * One parameter descriptor.  `kind` is the `type` field (absent or any
   * string), `default` is `None` exactly when the field is `undefined`.
   */
  datatype ParamSpec = ParamSpec(
    kind: Option<string>,
    description: Option<string>,
    optional: bool,
    default: Option<Json.Value>)

  /** The parameters record, in `Object.entries` order. */
  type Params = seq<(string, ParamSpec)>

  /** The base validator chosen by the `type` field; anything unrecognised is a string. */
  function BaseValidator(kind: Option<string>): (r: string)
    ensures r == "z.number()" <==> kind == Some("number")
    ensures r == "z.boolean()" <==> kind == Some("boolean")
    ensures r == "z.array(z.any())" <==> kind == Some("array")
    ensures r == "z.record(z.any())" <==> kind == Some("object")
    ensures r == "z.string()" <==>
              kind !in {Some("number"), Some("boolean"), Some("array"), Some("object")}
  {
    match kind
    case Some("number") => "z.number()"
    case Some("boolean") => "z.boolean()"
    case Some("array") => "z.array(z.any())"
    case Some("object") => "z.record(z.any())"
    case _ => "z.string()"
  }

  /** A description is used only when it is truthy, i.e. present and non-empty. */
  predicate HasDescription(p: ParamSpec) {
    p.description.Some? && p.description.value != ""
  }

  function DescribeQualifier(p: ParamSpec): (r: string)
    ensures r != "" <==> HasDescription(p)
    ensures HasDescription(p) ==> StartsWith(r, ".describe(\"") && AtPos(r, p.description.value, 11)
  {
    if HasDescription(p) then ".describe(\"" + p.description.value + "\")" else ""
  }

  function OptionalQualifier(p: ParamSpec): (r: string)
    ensures r != "" <==> p.optional
  {
    if p.optional then ".optional()" else ""
  }

  /** Emitted whenever a default is defined, including `false`, `0` and `""`. */
  function DefaultQualifier(p: ParamSpec): (r: string)
    ensures r != "" <==> p.default.Some?
    ensures p.default.Some? ==> r == ".default(" + Json.Stringify(p.default.value) + ")"
  {
    match p.default
    case None => ""
    case Some(v) => ".default(" + Json.Stringify(v) + ")"
  }

  /** The Zod expression for one parameter. */
  function ZodExpr(p: ParamSpec): string {
    BaseValidator(p.kind) + DescribeQualifier(p) + OptionalQualifier(p) + DefaultQualifier(p)
  }

  /**
   * The expression is the base validator followed by the describe, optional
   * and default qualifiers, in that order, with nothing in between; a
   * qualifier that does not apply contributes nothing.
   */
  lemma QualifierOrder(p: ParamSpec)
    ensures var r := ZodExpr(p);
            var b := |BaseValidator(p.kind)|;
            var d := |DescribeQualifier(p)|;
            var o := |OptionalQualifier(p)|;
            && StartsWith(r, BaseValidator(p.kind))
            && AtPos(r, DescribeQualifier(p), b)
            && AtPos(r, OptionalQualifier(p), b + d)
            && AtPos(r, DefaultQualifier(p), b + d + o)
            && EndsWith(r, DefaultQualifier(p))
  {
    FourParts(BaseValidator(p.kind), DescribeQualifier(p), OptionalQualifier(p), DefaultQualifier(p));
  }

  /** A parameter with no description, not optional and no default is its bare base validator. */
  lemma PlainParameter(p: ParamSpec)
    requires !HasDescription(p) && !p.optional && p.default.None?
    ensures ZodExpr(p) == BaseValidator(p.kind)
  {
  }

  /** A defined default is the last qualifier, whatever its value. */
  lemma DefaultIsLast(p: ParamSpec)
    requires p.default.Some?
    ensures EndsWith(ZodExpr(p), ".default(" + Json.Stringify(p.default.value) + ")")
  {
  }

  /** The separator `,\n\t\t\t` between parameter entries. */
  const EntrySeparator: string := ",\n\t\t\t"

  function Entry(key: string, p: ParamSpec): string {
    key + ": " + ZodExpr(p)
  }

  function Entries(params: Params): (r: seq<string>)
    ensures |r| == |params|
    ensures forall i :: 0 <= i < |params| ==> r[i] == Entry(params[i].0, params[i].1)
  {
    seq(|params|, i requires 0 <= i < |params| => Entry(params[i].0, params[i].1))
  }

  /** The text placed between the braces of the tool's schema argument. */
  function ZodParams(params: Params): string {
    Join(Entries(params), EntrySeparator)
  }

  function EntryOffset(params: Params, i: nat): nat
    requires i <= |params|
  {
    JoinOffset(Entries(params), EntrySeparator, i)
  }

  /**
   * Entry `i` is `key: expr` for the `i`-th parameter, and it is followed by the
   * separator and then entry `i + 1`: one entry per key, in input order.
   */
  lemma EntriesInOrder(params: Params, i: nat)
    requires i < |params|
    ensures AtPos(ZodParams(params), Entry(params[i].0, params[i].1), EntryOffset(params, i))
    ensures i + 1 < |params| ==>
              && AtPos(ZodParams(params), EntrySeparator,
                       EntryOffset(params, i) + |Entry(params[i].0, params[i].1)|)
              && EntryOffset(params, i + 1)
                 == EntryOffset(params, i) + |Entry(params[i].0, params[i].1)| + |EntrySeparator|
  {
    var es := Entries(params);
    JoinNeighbours(es, EntrySeparator, i);
    assert es[i] == Entry(params[i].0, params[i].1);
  }
}

=== FILE: template.dfy ===
/**
 * Template literals.  Every generator in the system builds its text as a
 * JavaScript template literal: fixed literal pieces with interpolated values
 * between them, inserted as they are, with no escaping.  `Fill(lits, vals)`
 * is `lits[0] + vals[0] + lits[1] + ... + vals[n-1] + lits[n]`.
 */
module Template {
  import opened Text

  function Fill(lits: seq<string>, vals: seq<string>): (r: string)
    requires |lits| == |vals| + 1
    decreases |vals|
  {
    if |vals| == 0 then lits[0]
    else Fill(lits[..|vals|], vals[..|vals| - 1]) + vals[|vals| - 1] + lits[|vals|]
  }

  /** Where the `i`-th interpolated value begins. */
  function HoleOffset(lits: seq<string>, vals: seq<string>, i: nat): nat
    requires |lits| == |vals| + 1 && i < |vals|
  {
    |Fill(lits[..i + 1], vals[..i])|
  }

  /** Filling the first `k + 1` literals and `k` values gives a prefix of the whole. */
  lemma {:induction false} FillPrefix(lits: seq<string>, vals: seq<string>, k: nat)
    requires |lits| == |vals| + 1 && k <= |vals|
    ensures StartsWith(Fill(lits, vals), Fill(lits[..k + 1], vals[..k]))
    decreases |vals| - k
  {
    if k < |vals| {
      var n := |vals|;
      var lits', vals' := lits[..n], vals[..n - 1];
      FillPrefix(lits', vals', k);
      assert lits'[..k + 1] == lits[..k + 1] && vals'[..k] == vals[..k];
      var whole := Fill(lits, vals);
      assert whole == Fill(lits', vals') + vals[n - 1] + lits[n];
      assert whole[..|Fill(lits', vals')|] == Fill(lits', vals');
    } else {
      assert lits[..k + 1] == lits && vals[..k] == vals;
    }
  }

  /** One step of the prefix: literal `i + 1` follows value `i`. */
  lemma FillStep(lits: seq<string>, vals: seq<string>, i: nat)
    requires |lits| == |vals| + 1 && i < |vals|
    ensures Fill(lits[..i + 2], vals[..i + 1]) == Fill(lits[..i + 1], vals[..i]) + vals[i] + lits[i + 1]
  {
    var ls, vs := lits[..i + 2], vals[..i + 1];
    assert ls[..i + 1] == lits[..i + 1];
    assert vs[..i] == vals[..i];
  }

  /**
   * Every interpolated value appears verbatim at its hole, immediately
   * followed by the literal after it; holes come in order.
   */
  lemma ValueAtHole(lits: seq<string>, vals: seq<string>, i: nat)
    requires |lits| == |vals| + 1 && i < |vals|
    ensures AtPos(Fill(lits, vals), vals[i], HoleOffset(lits, vals, i))
    ensures AtPos(Fill(lits, vals), lits[i + 1], HoleOffset(lits, vals, i) + |vals[i]|)
    ensures i + 1 < |vals| ==>
              HoleOffset(lits, vals, i + 1) == HoleOffset(lits, vals, i) + |vals[i]| + |lits[i + 1]|
  {
    var pre := Fill(lits[..i + 1], vals[..i]);
    var upto := Fill(lits[..i + 2], vals[..i + 1]);
    FillStep(lits, vals, i);
    FillPrefix(lits, vals, i + 1);
    PieceAfter(pre, vals[i], lits[i + 1]);
    PrefixAtPos(Fill(lits, vals), upto, vals[i], |pre|);
    PrefixAtPos(Fill(lits, vals), upto, lits[i + 1], |pre| + |vals[i]|);
  }

  /** The template begins with its first literal. */
  lemma {:induction false} FillStartsWithFirst(lits: seq<string>, vals: seq<string>)
    requires |lits| == |vals| + 1
    ensures StartsWith(Fill(lits, vals), lits[0])
  {
    FillPrefix(lits, vals, 0);
    assert lits[..1] == [lits[0]];
  }

  /** The template ends with its last literal. */
  lemma FillEndsWithLast(lits: seq<string>, vals: seq<string>)
    requires |lits| == |vals| + 1
    ensures EndsWith(Fill(lits, vals), lits[|vals|])
  {
  }

  /** The literal before a hole ends exactly where the hole begins. */
  lemma LiteralBefore(lits: seq<string>, vals: seq<string>, i: nat)
    requires |lits| == |vals| + 1 && i < |vals|
    ensures HoleOffset(lits, vals, i) >= |lits[i]|
    ensures AtPos(Fill(lits, vals), lits[i], HoleOffset(lits, vals, i) - |lits[i]|)
  {
    if i == 0 {
      FillStartsWithFirst(lits, vals);
      assert lits[..1] == [lits[0]] && vals[..0] == [];
    } else {
      ValueAtHole(lits, vals, i - 1);
    }
  }

  /**
   * A value whose neighbouring literals end with `pre` and begin with `post`
   * appears in the output as `pre + value + post`.
   */
  lemma ValueInContext(lits: seq<string>, vals: seq<string>, i: nat, pre: string, post: string)
    requires |lits| == |vals| + 1 && i < |vals|
    requires EndsWith(lits[i], pre) && StartsWith(lits[i + 1], post)
    ensures HoleOffset(lits, vals, i) >= |pre|
    ensures AtPos(Fill(lits, vals), pre + vals[i] + post, HoleOffset(lits, vals, i) - |pre|)
  {
    LiteralBefore(lits, vals, i);
    SecondValue(lits, vals, i, post);
    Surround(Fill(lits, vals), lits[i], pre, vals[i] + post, HoleOffset(lits, vals, i));
    assert pre + (vals[i] + post) == pre + vals[i] + post;
  }

  /** Text that ends a literal directly before position `k` can be glued to what starts at `k`. */
  lemma Surround(s: string, lit: string, pre: string, rest: string, k: int)
    requires |lit| <= k && AtPos(s, lit, k - |lit|) && EndsWith(lit, pre) && AtPos(s, rest, k)
    ensures AtPos(s, pre + rest, k - |pre|)
  {
  }

  lemma ValueContained(lits: seq<string>, vals: seq<string>, i: nat, pre: string, post: string)
    requires |lits| == |vals| + 1 && i < |vals|
    requires EndsWith(lits[i], pre) && StartsWith(lits[i + 1], post)
    ensures Contains(Fill(lits, vals), pre + vals[i] + post)
  {
    ValueInContext(lits, vals, i, pre, post);
    AtPosContains(Fill(lits, vals), pre + vals[i] + post, HoleOffset(lits, vals, i) - |pre|);
  }

  /** Two neighbouring values appear with exactly the literal between them. */
  lemma AdjacentValues(lits: seq<string>, vals: seq<string>, i: nat, pre: string, post: string)
    requires |lits| == |vals| + 1 && i + 1 < |vals|
    requires EndsWith(lits[i], pre) && StartsWith(lits[i + 2], post)
    ensures Contains(Fill(lits, vals), pre + vals[i] + lits[i + 1] + vals[i + 1] + post)
  {
    var k := AdjacentAt(lits, vals, i, pre, post);
    Regroup(pre, vals[i], lits[i + 1], vals[i + 1], post);
    AtPosContains(Fill(lits, vals), pre + vals[i] + lits[i + 1] + vals[i + 1] + post, k);
  }

  lemma AdjacentAt(lits: seq<string>, vals: seq<string>, i: nat, pre: string, post: string)
    returns (k: int)
    requires |lits| == |vals| + 1 && i + 1 < |vals|
    requires EndsWith(lits[i], pre) && StartsWith(lits[i + 2], post)
    ensures AtPos(Fill(lits, vals), (pre + vals[i] + lits[i + 1]) + (vals[i + 1] + post), k)
  {
    var s, h := Fill(lits, vals), HoleOffset(lits, vals, i);
    var h2 := HoleOffset(lits, vals, i + 1);
    var first := pre + vals[i] + lits[i + 1];
    ValueInContext(lits, vals, i, pre, lits[i + 1]);
    ValueAtHole(lits, vals, i);
    SecondValue(lits, vals, i + 1, post);
    k := h - |pre|;
    AtPosConcat(s, first, vals[i + 1] + post, k);
  }

  lemma SecondValue(lits: seq<string>, vals: seq<string>, i: nat, post: string)
    requires |lits| == |vals| + 1 && i < |vals|
    requires StartsWith(lits[i + 1], post)
    ensures AtPos(Fill(lits, vals), vals[i] + post, HoleOffset(lits, vals, i))
  {
    ValueAtHole(lits, vals, i);
    Glue(Fill(lits, vals), vals[i], lits[i + 1], post, HoleOffset(lits, vals, i));
  }

  /** Text at `h` followed by a literal that begins with `post` can be glued to `post`. */
  lemma Glue(s: string, v: string, lit: string, post: string, h: int)
    requires AtPos(s, v, h) && AtPos(s, lit, h + |v|) && StartsWith(lit, post)
    ensures AtPos(s, v + post, h)
  {
  }

  /** When a value is itself a join, each of its pieces appears in the output. */
  lemma PieceOfJoinedValue(lits: seq<string>, vals: seq<string>, i: nat,
                           xs: seq<string>, sep: string, j: nat)
    requires |lits| == |vals| + 1 && i < |vals|
    requires vals[i] == Join(xs, sep) && j < |xs|
    ensures Contains(Fill(lits, vals), xs[j])
  {
    var h := HoleOffset(lits, vals, i);
    ValueAtHole(lits, vals, i);
    JoinPiece(xs, sep, j);
    AtPosTrans(Fill(lits, vals), vals[i], xs[j], h, JoinOffset(xs, sep, j));
    AtPosContains(Fill(lits, vals), xs[j], h + JoinOffset(xs, sep, j));
  }

  lemma Regroup(a: string, b: string, c: string, d: string, e: string)
    ensures (a + b + c) + (d + e) == a + b + c + d + e
  {
  }

  /** Putting text in front of the first literal puts it in front of the whole. */
  lemma {:induction false} FillFront(a: string, lits: seq<string>, vals: seq<string>)
    requires |lits| == |vals| + 1
    ensures Fill([a + lits[0]] + lits[1..], vals) == a + Fill(lits, vals)
    decreases |vals|
  {
    var lits' := [a + lits[0]] + lits[1..];
    if |vals| > 0 {
      var n := |vals|;
      assert lits'[..n] == [a + lits[..n][0]] + lits[..n][1..];
      FillFront(a, lits[..n], vals[..n - 1]);
      assert lits'[n] == lits[n];
    }
  }
}

=== FILE: text.dfy ===
/**
 * Character classes, ASCII case mapping, and the sequence-of-strings
 * operations (`split`, `join`, substring positions) that the generators are
 * built from.  Strings are `seq<char>`; case mapping is ASCII only.
 */
module Text {

  predicate IsAsciiLower(c: char) { 'a' <= c <= 'z' }
  predicate IsAsciiUpper(c: char) { 'A' <= c <= 'Z' }
  predicate IsDigit(c: char) { '0' <= c <= '9' }

  /** The regular-expression class `[a-zA-Z0-9]`. */
  predicate IsAlnum(c: char) { IsAsciiLower(c) || IsAsciiUpper(c) || IsDigit(c) }

  /** The regular-expression class `[a-z0-9-]`. */
  predicate IsSlugChar(c: char) { IsAsciiLower(c) || IsDigit(c) || c == '-' }

  predicate AllSlugChars(s: string) { forall i :: 0 <= i < |s| ==> IsSlugChar(s[i]) }

  /** `String.prototype.toUpperCase` restricted to one ASCII character. */
  function ToUpper(c: char): (r: char)
    ensures r == '-' <==> c == '-'
  {
    if IsAsciiLower(c) then (c as int - 32) as char else c
  }

  /** `String.prototype.toLowerCase` restricted to one ASCII character. */
  function ToLower(c: char): (r: char)
    ensures IsSlugChar(c) ==> r == c
  {
    if IsAsciiUpper(c) then (c as int + 32) as char else c
  }

  function LowerString(s: string): (r: string)
    ensures |r| == |s|
    ensures forall i :: 0 <= i < |s| ==> r[i] == ToLower(s[i])
  {
    seq(|s|, i requires 0 <= i < |s| => ToLower(s[i]))
  }

  function CountChar(s: string, c: char): (n: nat)
    ensures n <= |s|
  {
    if |s| == 0 then 0 else (if s[0] == c then 1 else 0) + CountChar(s[1..], c)
  }

  predicate StartsWith(s: string, p: string) { |p| <= |s| && s[..|p|] == p }

  predicate EndsWith(s: string, p: string) { |p| <= |s| && s[|s| - |p|..] == p }

  /** `s` holds `p` starting at index `k`. */
  predicate AtPos(s: string, p: string, k: int) {
    0 <= k && k + |p| <= |s| && s[k..k + |p|] == p
  }

  /** `s.includes(p)`. */
  predicate Contains(s: string, p: string) {
    exists k :: 0 <= k <= |s| - |p| && AtPos(s, p, k)
  }

  /** `s.lastIndexOf(c)`: the last index holding `c`, or -1. */
  function LastIndexOf(s: string, c: char): (r: int)
    ensures -1 <= r < |s|
    ensures r >= 0 ==> s[r] == c
    ensures forall i :: r < i < |s| ==> s[i] != c
  {
    if |s| == 0 then -1
    else if s[|s| - 1] == c then |s| - 1
    else LastIndexOf(s[..|s| - 1], c)
  }

  /** `xs.join(sep)`. */
  function Join(xs: seq<string>, sep: string): string
  {
    if |xs| == 0 then ""
    else if |xs| == 1 then xs[0]
    else Join(xs[..|xs| - 1], sep) + sep + xs[|xs| - 1]
  }

  /** `xs.join("")`, read from the front. */
  function Concat(xs: seq<string>): string {
    if |xs| == 0 then "" else xs[0] + Concat(xs[1..])
  }

  /** `s.split(c)` for a one-character separator: every separator starts a new piece. */
  function Split(s: string, c: char): (r: seq<string>)
    ensures |r| == CountChar(s, c) + 1
    ensures forall i :: 0 <= i < |r| ==> c !in r[i]
  {
    if |s| == 0 then [""]
    else
      var rest := Split(s[1..], c);
      if s[0] == c then [""] + rest
      else [[s[0]] + rest[0]] + rest[1..]
  }

  /** Where `xs[i]` begins inside `Join(xs, sep)`. */
  function JoinOffset(xs: seq<string>, sep: string, i: nat): nat
    requires i <= |xs|
  {
    if i == 0 then 0 else |Join(xs[..i], sep)| + |sep|
  }

  lemma {:induction false} JoinAppend(a: seq<string>, b: seq<string>, sep: string)
    requires |a| > 0 && |b| > 0
    ensures Join(a + b, sep) == Join(a, sep) + sep + Join(b, sep)
    decreases |b|
  {
    var ab := a + b;
    if |b| == 1 {
      assert ab[..|ab| - 1] == a;
    } else {
      var b' := b[..|b| - 1];
      assert ab[..|ab| - 1] == a + b';
      JoinAppend(a, b', sep);
    }
  }

  lemma JoinCons(x: string, ys: seq<string>, sep: string)
    requires |ys| > 0
    ensures Join([x] + ys, sep) == x + sep + Join(ys, sep)
  {
    JoinAppend([x], ys, sep);
  }

  lemma ConcatCons(x: string, ys: seq<string>)
    ensures Concat([x] + ys) == x + Concat(ys)
  {
  }

  /** The prefix of a join up to and including piece `i`. */
  lemma JoinPrefix(xs: seq<string>, sep: string, i: nat)
    requires i < |xs|
    ensures Join(xs[..i + 1], sep) == Join(xs[..i], sep) + (if i == 0 then "" else sep) + xs[i]
  {
    if i > 0 {
      assert xs[..i + 1][..i] == xs[..i];
    }
  }

  /** Piece `i` of a join sits at `JoinOffset(xs, sep, i)`. */
  lemma {:induction false} JoinPiece(xs: seq<string>, sep: string, i: nat)
    requires i < |xs|
    ensures AtPos(Join(xs, sep), xs[i], JoinOffset(xs, sep, i))
    ensures JoinOffset(xs, sep, i) + |xs[i]| <= |Join(xs, sep)|
  {
    JoinPrefix(xs, sep, i);
    var head := Join(xs[..i + 1], sep);
    var pre := Join(xs[..i], sep) + (if i == 0 then "" else sep);
    assert head == pre + xs[i];
    assert |pre| == JoinOffset(xs, sep, i);
    if i + 1 < |xs| {
      assert xs == xs[..i + 1] + xs[i + 1..];
      JoinAppend(xs[..i + 1], xs[i + 1..], sep);
      assert Join(xs, sep) == pre + xs[i] + (sep + Join(xs[i + 1..], sep));
    } else {
      assert xs[..i + 1] == xs;
    }
  }

  lemma JoinOffsetStep(xs: seq<string>, sep: string, i: nat)
    requires i + 1 < |xs|
    ensures JoinOffset(xs, sep, i + 1) == JoinOffset(xs, sep, i) + |xs[i]| + |sep|
  {
    JoinPrefix(xs, sep, i);
  }

  /** Between piece `i` and piece `i + 1` of a join stands exactly the separator. */
  lemma JoinSeparator(xs: seq<string>, sep: string, i: nat)
    requires i + 1 < |xs|
    ensures AtPos(Join(xs, sep), sep, JoinOffset(xs, sep, i) + |xs[i]|)
  {
    JoinPrefix(xs, sep, i);
    var front := Join(xs[..i + 1], sep);
    assert |front| == JoinOffset(xs, sep, i) + |xs[i]|;
    assert xs == xs[..i + 1] + xs[i + 1..];
    JoinAppend(xs[..i + 1], xs[i + 1..], sep);
    AtPosInfix(front, sep, Join(xs[i + 1..], sep), sep, 0);
  }

  /** Piece `i` of a join, then the separator, then piece `i + 1`. */
  lemma JoinNeighbours(xs: seq<string>, sep: string, i: nat)
    requires i < |xs|
    ensures AtPos(Join(xs, sep), xs[i], JoinOffset(xs, sep, i))
    ensures i + 1 < |xs| ==>
              && AtPos(Join(xs, sep), sep, JoinOffset(xs, sep, i) + |xs[i]|)
              && JoinOffset(xs, sep, i + 1) == JoinOffset(xs, sep, i) + |xs[i]| + |sep|
  {
    JoinPiece(xs, sep, i);
    if i + 1 < |xs| {
      JoinSeparator(xs, sep, i);
      JoinOffsetStep(xs, sep, i);
    }
  }

  /** Pieces of a join appear in list order and do not overlap. */
  lemma {:induction false} JoinOrder(xs: seq<string>, sep: string, i: nat, j: nat)
    requires i < j < |xs|
    ensures JoinOffset(xs, sep, i) + |xs[i]| + |sep| <= JoinOffset(xs, sep, j)
    decreases j - i
  {
    JoinOffsetStep(xs, sep, i);
    if i + 1 < j {
      JoinOrder(xs, sep, i + 1, j);
    }
  }

  /** Splitting on `c` and joining with `c` gives back the original string. */
  lemma {:induction false} SplitJoin(s: string, c: char)
    ensures Join(Split(s, c), [c]) == s
    decreases |s|
  {
    if |s| > 0 {
      var rest := Split(s[1..], c);
      SplitJoin(s[1..], c);
      if s[0] == c {
        JoinCons("", rest, [c]);
      } else {
        JoinExtendHead([s[0]], rest, [c]);
      }
      assert s == [s[0]] + s[1..];
    }
  }

  /** Extending the first piece of a join extends the joined text at the front. */
  lemma JoinExtendHead(x: string, xs: seq<string>, sep: string)
    requires |xs| > 0
    ensures Join([x + xs[0]] + xs[1..], sep) == x + Join(xs, sep)
  {
    if |xs| > 1 {
      assert xs == [xs[0]] + xs[1..];
      JoinCons(xs[0], xs[1..], sep);
      JoinCons(x + xs[0], xs[1..], sep);
    }
  }

  lemma AtPosInfix(a: string, b: string, c: string, p: string, k: int)
    requires AtPos(b, p, k)
    ensures AtPos(a + b + c, p, |a| + k)
  {
  }

  /** Each part of a four-part concatenation sits right after the parts before it. */
  lemma FourParts(a: string, b: string, c: string, d: string)
    ensures var s := a + b + c + d;
            && StartsWith(s, a)
            && AtPos(s, b, |a|)
            && AtPos(s, c, |a| + |b|)
            && AtPos(s, d, |a| + |b| + |c|)
            && EndsWith(s, d)
            && |s| == |a| + |b| + |c| + |d|
  {
  }

  lemma StartsWithConcat(a: string, b: string)
    ensures StartsWith(a + b, a)
  {
  }

  lemma EndsWithConcat(a: string, b: string)
    ensures EndsWith(a + b, b)
  {
  }

  lemma StartsWithConcat3(a: string, b: string, c: string)
    ensures StartsWith(a + b + c, a)
  {
  }

  lemma EndsWithConcat3(a: string, b: string, c: string)
    ensures EndsWith(a + b + c, c)
  {
  }

  lemma AtPosStart(s: string, p: string)
    requires AtPos(s, p, 0)
    ensures StartsWith(s, p)
  {
  }

  lemma StartsWithAtPos(s: string, p: string)
    requires StartsWith(s, p)
    ensures AtPos(s, p, 0)
  {
  }

  lemma EndsWithAtPos(s: string, p: string)
    requires EndsWith(s, p)
    ensures AtPos(s, p, |s| - |p|)
  {
  }

  lemma StartsWithTrans(s: string, t: string, p: string)
    requires StartsWith(s, t) && StartsWith(t, p)
    ensures StartsWith(s, p)
  {
  }

  lemma EndsWithTrans(s: string, t: string, p: string)
    requires EndsWith(s, t) && EndsWith(t, p)
    ensures EndsWith(s, p)
  {
  }

  lemma AtPosTrans(s: string, t: string, p: string, k: int, m: int)
    requires AtPos(s, t, k) && AtPos(t, p, m)
    ensures AtPos(s, p, k + m)
  {
    forall i | 0 <= i < |p|
      ensures s[k + m + i] == p[i]
    {
      assert s[k..k + |t|][m + i] == t[m + i];
    }
  }

  lemma ContainsPrefix(s: string, t: string, p: string)
    requires StartsWith(s, t) && Contains(t, p)
    ensures Contains(s, p)
  {
    var k :| 0 <= k <= |t| - |p| && AtPos(t, p, k);
    StartsWithAtPos(s, t);
    AtPosTrans(s, t, p, 0, k);
  }

  lemma ContainsSuffix(s: string, t: string, p: string)
    requires EndsWith(s, t) && Contains(t, p)
    ensures Contains(s, p)
  {
    var k :| 0 <= k <= |t| - |p| && AtPos(t, p, k);
    EndsWithAtPos(s, t);
    AtPosTrans(s, t, p, |s| - |t|, k);
  }

  lemma AtPosContains(s: string, p: string, k: int)
    requires AtPos(s, p, k)
    ensures Contains(s, p)
  {
  }

  lemma PieceAfter(a: string, b: string, c: string)
    ensures AtPos(a + b + c, b, |a|)
    ensures AtPos(a + b + c, c, |a| + |b|)
  {
  }

  lemma AtPosConcat(s: string, a: string, b: string, k: int)
    requires AtPos(s, a, k) && AtPos(s, b, k + |a|)
    ensures AtPos(s, a + b, k)
  {
  }

  lemma PrefixAtPos(s: string, t: string, p: string, k: int)
    requires StartsWith(s, t) && AtPos(t, p, k)
    ensures AtPos(s, p, k)
  {
  }
}
